=== FILE: README.md ===
# Gradebook core in Dafny

A model of the stated logic under the views of a Django school gradebook:
managers, teachers, students and parents share an internal mailbox, teachers
and managers enter grades (each one announced to the student by a message),
managers cancel grades, create accounts and reset them, and every subject has
a weekly timetable of (day, lesson) slots.

The whole database is one immutable `Store` (`database.dfy`): a sequence per
table and a single id counter, so every row a view saves is appended with a
fresh id. Each view that writes becomes a pure transition `Store -> Result<Store>`;
a failure is an error value named after what the Python raises (`NotFound`
for `Http404`, `Invalid` for a form or `full_clean` failure, `ValueError`,
`UnboundLocal`, `MultipleObjectsReturned`, `IndexError`). A failure inside
`transaction.atomic` leaves the store as it was; rows saved before the block
(or by an early return inside it) stay.

Modules, following the program's structure:

- `Base`: `Option`, `Result`, the error values, `NoDuplicates`.
- `Decimal`: Python's `str(n)` and the parse of a URL user id.
- `Roles`: the four permission codenames.
- `Models`: the records of `gradesbook/models.py`, their validators as predicates, the `__str__` labels.
- `Directory`: the identity tables (users, classes, students, parents, teachers, subjects, subject-teacher rows) and the lookups and filters the views make.
- `Database`: the `Store` and its id invariant.
- `Mailbox`: writing a message and its inbox entries, the unread count, opening a mail.
- `Forms`: the field constraints of `gradesbook/forms.py` as predicates on cleaned values.
- `Messaging`: the seven recipient selectors of `CreateMessageView`, their expansion and the fan-out.
- `Ledger`: adding and cancelling grades with the student's notification.
- `Accounts`: username allocation, enrolment of a student with parents, adding a teacher, resetting an account.
- `Timetable`: the 8 x 6 lesson/day grid, the day-number mapping, adding and deleting slots.
- `TemplateTags`: the three template helpers.

Three behaviours of the code that are easy to misread:

- An early return for a class without students commits the Message and Sender already saved inside the atomic block (`Messaging.EmptyClassLeavesThread`).
- A cancelled grade's copy is dated the day of cancelling: `auto_now_add` on `date` overwrites the date copied from the live grade (`Ledger.CancelGrade`).
- A grade notice writes Message, Sender, Recipient and one inbox entry directly, and writes no sent row (`Ledger.Notify`).

## Model

| member | source | states |
|---|---|---|
| Decimal.Str | yourgrades/views.py:309 | `str(n)` is a non-empty digit string with no leading zero. |
| Decimal.ParseStr | yourgrades/views.py:1500-1503 | A user id rendered into a URL and read back by the `user__id` lookup is the same id. |
| Decimal.SuffixInjective | yourgrades/views.py:307-317 | Distinct numbers give distinct numbered usernames `base + str(n)`. |
| Roles.CodenameRoundTrip | yourgrades/permissions.py:8-13 | Each of the four roles has its own codename, and looking a codename up gives the role back. |
| Models.ClassCodeFitsColumn | gradesbook/models.py:10-15 | A class code the model's pattern accepts fits the 10-character column. |
| Models.ClassCodeTrailingNewline | gradesbook/models.py:13 | Any well-formed code followed by one newline passes the pattern, because Python's `$` matches before a final newline. The same code followed by two newlines does not. |
| Models.PersonLabel | gradesbook/models.py:53-54 | Student, Parent and Teacher render as the name, one space, then the surname. |
| Forms.ClassCodeFieldAgreesWithModel | gradesbook/forms.py:20-25 | The form's class code is optional, at most 7 characters, and a non-empty one passes the model's pattern. |
| Forms.PasswordFieldBound | gradesbook/forms.py:202-253 | The login and first-login forms accept exactly the passwords of at least 5 characters with a non-empty username. |
| Forms.SecondParentOptional | gradesbook/forms.py:86-107 | Blanking the second parent's fields never makes a valid student form invalid. |
| Directory.FindUser | yourgrades/views.py:967 | The lookup by id returns a row with that id, and nothing exactly when no row has it. |
| Directory.FindUserByName | yourgrades/views.py:970 | The lookup by username returns a row with that username, and nothing exactly when no row has it (`User.DoesNotExist`). |
| Directory.FindStudent | yourgrades/views.py:712 | The lookup of a student row by its user returns a row of that user, and nothing exactly when no student row has it (`Student.DoesNotExist`). |
| Directory.FindTeacher | yourgrades/views.py:723 | The lookup of a teacher row by its user returns a row of that user, and nothing (a 404) exactly when no teacher row has it. |
| Directory.FindParent | yourgrades/views.py:997-998 | The lookup of a parent row by its user returns a row of that user, and nothing (a 404) exactly when no parent row has it. |
| Directory.FindClass | yourgrades/views.py:1434-1437 | The lookup by class code returns a row with that code, and nothing exactly when no row has it. |
| Directory.FindSubject | yourgrades/views.py:1480-1483 | The lookup by subject code returns a row with that code, and nothing exactly when no row has it. |
| Directory.StudentsOfClass | yourgrades/views.py:1441 | The class filter lists exactly the users of the class's students. |
| Directory.ParentsOf | yourgrades/views.py:1519 | The parent filter lists exactly the users of the student's parents. |
| Directory.ParentsOfAll | yourgrades/views.py:1452-1478 | Prefix 2 collects exactly the parents of the listed students. |
| Directory.Managers | yourgrades/views.py:1530-1531 | The manager filter lists exactly the users holding the manager permission directly. |
| Directory.Usernames | yourgrades/views.py:301 | The taken names are exactly the usernames of the accounts. |
| Directory.StudentsOfClassDistinct | yourgrades/views.py:1441-1464 | With unique student keys no student is written to twice. |
| Directory.ParentsOfAllDistinct | yourgrades/views.py:1465-1478 | With unique parent keys and distinct students no parent is written to twice. |
| Directory.ManagersDistinct | yourgrades/views.py:1533-1541 | With unique user keys no manager is written to twice. |
| Mailbox.Post | yourgrades/views.py:1427-1430 | The Message is saved and the actor becomes its one Sender. No other table changes, and the new keys are fresh. |
| Mailbox.PostKeepsOneSender | gradesbook/models.py:157-158 | With keys below the counter, posting keeps each Message with at most one Sender, as the one-to-one field demands. |
| Mailbox.Deliver | yourgrades/views.py:1454-1464 | One Recipient and one unread inbox entry are written per listed user, and the old rows are kept. |
| Mailbox.DeliveredToAudience | yourgrades/views.py:1454-1464 | The i-th new inbox entry belongs to the i-th listed user and points at the message and its sender. |
| Mailbox.DeliverPreservesIds | yourgrades/views.py:1454-1464 | Delivery keeps every stored key and reference below the id counter. |
| Mailbox.UnreadCount | yourgrades/views.py:22-26 | The count is the number of unread inbox entries whose recipient is the user. It is positive exactly when the user has an unread entry, and zero when every entry is read. |
| Mailbox.MarkRead | yourgrades/views.py:1623-1624 | Marking keeps the inbox's length and order. Each entry with the mail's key is set read, and every other entry is unchanged. |
| Mailbox.OpenMail | yourgrades/views.py:1615-1631 | Opening a received mail sets `read` on that entry and changes nothing else; opening a sent mail changes nothing; a missing id is a 404. |
| Mailbox.OpenMailIgnoresRequester | yourgrades/views.py:1617-1624 | No ownership check: every user gets the same result opening the same mail. |
| Mailbox.OpenMailIdempotent | yourgrades/views.py:1617-1624 | Opening a mail again changes nothing more. |
| Mailbox.OpenMailUnread | yourgrades/views.py:22-26 | Opening a mail lowers a user's unread count by that user's unread entries with its key, and never raises it. |
| Mailbox.OpenOwnUnreadMail | yourgrades/views.py:1617-1624 | With unique inbox keys, opening one's own unread mail lowers one's unread count by exactly one. |
| Messaging.Decode | yourgrades/views.py:1433-1547 | The URL pair decodes to a selector exactly when the prefix is 1..7 and, for prefixes 4, 5 and 7, the code is a number. A bad number is a ValueError; any other prefix ends in UnboundLocalError. For 1, 2 and 3 the code is kept as it is; for 4, 5 and 7 the selector carries the number the digits spell. |
| Messaging.DecodeEncode | yourgrades/views.py:1335-1352 | Every selector survives the trip through its URL pair. |
| Messaging.Expand | yourgrades/views.py:1433-1555 | It fails exactly when the target cannot be fetched: MultipleObjectsReturned for a subject with several teacher rows, otherwise 404. A class selector on a class without students gives the no-students outcome. Otherwise the users are exactly the addressed ones. |
| Messaging.ExpandLabel | yourgrades/views.py:1438-1440 | The sent label is the class name, "<class> parents", "<subject> teachers", the student's "name surname", "<student> parents", "Managers" or the teacher's "name surname". |
| Messaging.ExpandDistinct | yourgrades/views.py:1452-1555 | On a well-formed directory the expansion names nobody twice. |
| Messaging.Send | yourgrades/views.py:1424-1563 | An invalid form or an unfetchable target writes nothing. An empty class keeps only the Message and Sender. The outcome is the empty-class one exactly when the selector expands to a class without students. Otherwise one Message, one Sender, one Recipient and one unread inbox entry per user, and exactly one sent row with the label. Every table keeps its old rows as a prefix. |
| Messaging.SendKeepsOneSender | gradesbook/models.py:157-158 | With keys below the counter, a send keeps each Message with at most one Sender. |
| Messaging.SendFanOut | yourgrades/views.py:1452-1562 | After a delivered send, the new inbox entries are exactly those for the new message, each owned by its user, unread, and from the one sender. |
| Messaging.CreateMessage | yourgrades/views.py:1424-1563 | An invalid form is refused and a prefix outside 1..7 is UnboundLocalError with nothing written. With a valid form, a decoding error is returned as it is, and a decoded selector gives exactly the send of that selector. |
| Messaging.EmptyClassLeavesThread | yourgrades/views.py:1441-1449 | For an existing class without students, the Message and Sender are committed, and no Recipient, inbox entry or sent row is written. |
| Messaging.MissingTargetWritesNothing | yourgrades/views.py:1434-1437 | A selector whose target is missing fails and writes nothing. |
| Ledger.FindGrade | yourgrades/views.py:818-821 | The grade found has the requested id, and none is found exactly when no grade has it. |
| Ledger.WithoutAbsent | yourgrades/views.py:845 | Deleting an id no grade carries leaves the table as it was. |
| Ledger.WithoutPresent | yourgrades/views.py:845 | With unique ids, the delete removes exactly one row and keeps the ids unique. |
| Ledger.Notify | yourgrades/views.py:1309-1330 | A notification appends one Message, a Sender for the actor naming that message, one Recipient for the student and one unread inbox entry. The entry points at that message, sender and recipient. Old rows are kept as a prefix, and no sent row is written. |
| Ledger.NotifyKeepsOneSender | gradesbook/models.py:157-158 | With keys below the counter, a notification keeps each Message with at most one Sender. |
| Ledger.NotifyReachesStudent | yourgrades/views.py:870-880 | The notification's entry is owned by the student, and ids stay below the counter. |
| Ledger.AddGrade | yourgrades/views.py:851-889 | It fails exactly when the value is outside 1..5 (Invalid) or the subject or student is missing (404). Otherwise it appends one grade with the value, student, subject, today's date and the manager flag. It writes one new-grade notice whose Sender is the acting user and whose inbox entry belongs to the student, and no sent row. The entry points at the new Message and Sender, one Recipient row is added, and the old messages, senders, recipients and inbox entries are kept as a prefix. |
| Ledger.AddGradeKeepsOneSender | gradesbook/models.py:157-158 | With keys below the counter, adding a grade keeps each Message with at most one Sender. |
| Ledger.CancelGrade | yourgrades/views.py:816-849 | An unknown id is a 404. A grade whose value fails the copy's `full_clean` is refused. Both refusals come before any write. Otherwise the grade is copied with the same value, student and subject, dated today, and the live grade is gone. The student gets one cancellation notice: the acting user is its Sender and the grade's student owns its inbox entry. The entry points at the new Message and Sender, one Recipient row is added, and the old messages, senders, recipients and inbox entries are kept as a prefix. |
| Ledger.CancelGradeKeepsOneSender | gradesbook/models.py:157-158 | With keys below the counter, cancelling a grade keeps each Message with at most one Sender. |
| Ledger.AddGradePreserves | gradesbook/models.py:118-140 | Adding a grade keeps values in 1..5, grade ids unique and ids below the counter. |
| Ledger.CancelGradePreserves | gradesbook/models.py:118-140 | Cancelling a grade keeps the same invariant. |
| Ledger.CancelTwice | yourgrades/views.py:818-821 | A cancelled grade cannot be cancelled again: the second attempt is a 404. |
| Ledger.CancelConserves | yourgrades/views.py:822-845 | With unique ids, the live and cancelled tables together keep their size: a cancel moves a grade. |
| Ledger.AddThenCancel | yourgrades/views.py:816-889 | Cancelling the grade just added restores the live grades and files the same value, student and subject as cancelled. |
| Accounts.NextFree | yourgrades/views.py:307-317 | The search from k returns a free number at least k, with every number from 2 below it taken. |
| Accounts.LeastFreeUnique | yourgrades/views.py:307-317 | Only one number is free with every smaller number from 2 taken. |
| Accounts.FreeBeyondTaken | yourgrades/views.py:307-317 | A free number lies beyond any taken one whose predecessors from 2 are all taken. |
| Accounts.Allocate | yourgrades/views.py:300-317 | The username is never taken; it is the bare name exactly when that is free, and otherwise the least free numbered variant from 2. |
| Accounts.FindFreeUsername | yourgrades/views.py:300-317 | The loop terminates and returns the same username as the allocation. |
| Accounts.NewAccount | yourgrades/views.py:300-327 | The username is the bare name and surname when no account has it. Otherwise it is that name followed by the least number from 2 whose variant is free. It is the name `Allocate` picks, and it is fresh. The password is that username plus the role's suffix, and the account holds just the role. |
| Accounts.CreateGradebookUser | yourgrades/views.py:279-327 | It fails exactly for a person other than student, parent1 and parent2: ValueError, or UnboundLocalError for 'teacher'. Each person gets its name fields, suffix and role, and the username `Allocate` picks for its name and surname against the current users. |
| Accounts.AppendFreshUsername | yourgrades/views.py:300-305 | Adding an account with a free username keeps usernames unique. |
| Accounts.WithAccounts | yourgrades/views.py:331-359 | Accounts allocated one after another all get names not taken before, and usernames stay unique. |
| Accounts.EnrollmentAccounts | yourgrades/views.py:331-359 | Enrolment saves the student's account with the first fresh id, then the first parent's with the next, then the second parent's when entered. Each carries that person's names, its role and a password with the role's suffix. Its username is the one `Allocate` picks for that person's name and surname against the users saved before it, the earlier accounts of the same enrolment included. |
| Accounts.Enrolled | yourgrades/views.py:354-358 | The student and first parent always get accounts; the second parent only when both its fields are filled. |
| Accounts.EnrollStudent | yourgrades/views.py:329-367 | An invalid form is Invalid and a missing class is a 404, with nothing written. Otherwise it writes two or three fresh accounts: the student's, then the first parent's, then the second parent's when entered. Each username is the one `Allocate` picks against the users saved before that account. Each account carries that person's name and surname, the role, and a password made of its username and the role's suffix. It also writes the student row in the class and one or two parent rows. Each parent row is that parent's account pointing at the new student. Nothing else changes and usernames stay unique. |
| Accounts.AddTeacherAsWritten | yourgrades/views.py:476-520 | The account as written: the username is the one `Allocate` picks for the name and surname. The bare username gets the '234' suffix, a numbered one gets '123'. |
| Accounts.NumberedTeacherGetsStudentSuffix | yourgrades/views.py:490-498 | A second "Ivan Petrenko" teacher gets the password "IvanPetrenko2123" as written, and "IvanPetrenko2234" in the corrected version. |
| Accounts.AddTeacher | yourgrades/views.py:476-520 | The teacher gets the username `Allocate` picks for the name and surname (so a fresh one), password username + '234', the teacher role and a teacher row; usernames stay unique. |
| Accounts.SaveUser | yourgrades/views.py:988 | Saving keeps the table's length. It replaces every row with the user's id by the saved row and keeps every other row at its place. The saved row is present afterwards exactly when its id was. |
| Accounts.ResetUsername | yourgrades/views.py:968-986 | The reset takes the bare name when it is free, keeps the current username when the account holding the bare name is the user itself, and otherwise gives the least free numbered variant. |
| Accounts.ResetUser | yourgrades/views.py:966-1001 | It fails exactly when the user is missing, or when the role row for prefix 123/234/345 is missing. Otherwise only that user's account changes, keeping its roles, and its password is the new username plus the prefix. The role row for the prefix gets `first_login` again. The other role tables, classes, subjects and teacher rows are unchanged. |
| Accounts.ResetFindsSaved | yourgrades/views.py:966-988 | After a reset, the lookup by id finds the user's row with the username the reset chose and the password made of it and the prefix; the other fields are the old ones. |
| Accounts.ResetNameFree | yourgrades/views.py:968-986 | No other account holds the username a reset gives. |
| Accounts.ResetKeepsUsernamesUnique | yourgrades/views.py:968-988 | A reset keeps usernames unique. |
| Accounts.SavedUserFound | yourgrades/views.py:988 | After saving, the lookup by id finds the saved row. |
| Accounts.SaveUserTwice | yourgrades/views.py:988 | Saving the same row twice is saving it once. |
| Accounts.RelogStudents | yourgrades/views.py:989-992 | The table keeps its length. A row has `first_login` set exactly when it had it or belongs to the user. Nothing else in any row changes. |
| Accounts.RelogStudentsTwice | yourgrades/views.py:989-992 | Setting `first_login` again on student rows is idempotent and keeps the row findable. |
| Accounts.RelogTeachersTwice | yourgrades/views.py:993-996 | The same for teacher rows. |
| Accounts.RelogParentsTwice | yourgrades/views.py:997-1000 | The same for parent rows. |
| Accounts.ResetBareName | yourgrades/views.py:969-972 | A user whose username is its bare name keeps it on reset, and the password is that name plus the prefix. |
| Accounts.ResetTwiceBareName | yourgrades/views.py:966-1001 | For such a user, resetting twice is resetting once. |
| Accounts.ResetRenumbers | yourgrades/views.py:974-983 | Suppose the user holds numbered variant n, another account holds the bare name, and every smaller variant is taken. Then a reset moves the user to a larger number, because its own current name counts as taken. |
| Accounts.ResetRenumbersBack | yourgrades/views.py:974-983 | From that state a second reset also succeeds, and it moves the user back to variant n, which the first reset freed. |
| Timetable.PyIndex | yourgrades/views.py:614 | List indexing: an index from -n to -1 counts from the end (i + n), 0..n-1 is itself, and anything else has no value. |
| Timetable.DayColumn | yourgrades/views.py:608-614 | A valid day code lands in its own column; an unknown code falls through to the last column. |
| Timetable.DayFromNumber | yourgrades/views.py:680-681 | Day numbers 0..6 give a valid code (0 gives 'St'); larger numbers are an IndexError. |
| Timetable.DayNumberRoundTrip | yourgrades/views.py:680-681 | For numbers 1..6 and valid codes, the day number and the grid column are inverse. |
| Timetable.Slot | yourgrades/views.py:614 | A row lands in a cell exactly when the lesson number can index the 8 rows. |
| Timetable.SlotOfValid | gradesbook/models.py:97-110 | A valid row lands in cell (lesson - 1, column of its day). |
| Timetable.SlotGrid | yourgrades/views.py:606-615 | The grid is 8 x 6; a cell is marked exactly when some row lands in it; a lesson number out of range is an IndexError. |
| Timetable.TimetableGrid | yourgrades/views.py:735-746 | The grid is 8 x 6 and fails (IndexError) exactly when a row's lesson cannot index it. Each cell equals the per-cell reference `CellOf`: empty when no row lands there, otherwise the subject of the last row landing there. |
| Timetable.CellOf | yourgrades/views.py:735-746 | The reference cell is empty exactly when no row lands in it. |
| Timetable.CellOfWitness | yourgrades/views.py:735-746 | A filled reference cell names the subject of a row landing in it. |
| Timetable.CellOfLastWins | yourgrades/views.py:735-746 | A row landing in a cell with no later row landing there decides the cell: the later assignment overwrites the earlier ones. |
| Timetable.GridsAgree | yourgrades/views.py:735-746 | The subject grid and the timetable grid mark the same cells. |
| Timetable.ValidRowsGrid | yourgrades/views.py:606-615 | On valid rows the grid is built, and a cell is marked exactly when a row has that lesson and day. |
| Timetable.Dedupe | yourgrades/views.py:730-734 | The subjects are kept once each, and the same set of subjects is kept. |
| Timetable.DedupeFirstSeen | yourgrades/views.py:730-734 | The kept subjects are in the order of their first occurrence, as the keys of a Python dict are. |
| Timetable.DatesOf | yourgrades/views.py:730-734 | The rows collected are exactly those of the listed subjects. |
| Timetable.DatesOfGrouped | yourgrades/views.py:730-737 | With each subject listed once, the rows come grouped subject by subject, in the order the subjects are listed. |
| Timetable.DatesOfTableOrder | yourgrades/views.py:731-738 | Each listed subject's rows appear exactly as in the table, in table order. |
| Timetable.DatesOfSubjectAppend | yourgrades/views.py:732-734 | Filtering the rows by subject commutes with concatenating tables. |
| Timetable.CellOfAppend | yourgrades/views.py:737-745 | A cell of two tables in sequence is decided by the second when one of its rows lands there, otherwise by the first. |
| Timetable.ShownCellWinner | yourgrades/views.py:730-745 | Over rows collected subject by subject, a filled cell shows the subject listed last among those with a row in that cell. |
| Timetable.SubjectsOfClass | yourgrades/views.py:718-720 | The codes listed are exactly those of the subjects of the class. |
| Timetable.TaughtSubjects | yourgrades/views.py:723-728 | The codes listed are exactly the subjects of the teacher's teacher rows whose subject exists and whose class is active. |
| Timetable.StudentClass | yourgrades/views.py:711-717 | A student sees its own class. A user without a student row sees the class of its first parent row's child, or a 404 when that child has no student row. With neither row it is a 404. |
| Timetable.TimetableSubjects | yourgrades/views.py:709-728 | 'student' gives exactly the subjects of the class. 'teacher' gives exactly the subjects of the teacher's rows whose class is active, or a 404 without a teacher row. Any other value is UnboundLocalError. |
| Timetable.Timetable | yourgrades/views.py:707-748 | It fails with the subject lookup's error when that fails. Otherwise it fails, with an IndexError, exactly when a row of one of the person's subjects has a lesson that cannot index the grid. When it succeeds, every row of the person's subjects fills its cell. A cell is empty exactly when no such row lands in it. A filled cell names the subject of a row that lands in it. That subject is the one listed last, in first-seen order, among the person's subjects with a row in that cell. |
| Timetable.SubjectGrid | yourgrades/views.py:594-615 | It fails for a missing subject or class, or an unindexable lesson. Otherwise a cell is marked exactly when a row of the subject lands in it. |
| Timetable.Matching | yourgrades/views.py:655-659 | The lookup finds exactly the rows with the day, lesson and (when given) subject, in increasing order. |
| Timetable.AddSubjectDate | yourgrades/views.py:653-672 | A slot the subject already has is reported as existing and nothing is written. Two such rows raise; an invalid form or a missing subject fails. Otherwise exactly one new row is appended. |
| Timetable.AddKeepsSlotsUnique | yourgrades/views.py:653-672 | With distinct slots per subject, adding never raises MultipleObjectsReturned and keeps slots distinct. |
| Timetable.DeleteSubjectDateAsWritten | yourgrades/views.py:679-684 | As written, the delete fails unless exactly one row, of any subject, has the day and lesson. That row is removed, and the rows left are the old ones less that one. Nothing else changes. |
| Timetable.DeleteReachesOtherSubject | yourgrades/views.py:683-684 | From subject A's page the link deletes subject B's Monday first lesson; when A and B share the slot, it raises MultipleObjectsReturned. |
| Timetable.DeleteSubjectDate | yourgrades/views.py:679-684 | Scoped to the page's subject, the delete removes the one row of that subject with the day and lesson, and the rows left are the old ones less that one. Every other subject's rows and the subject's other slots stay. |
| Timetable.AddThenDelete | yourgrades/views.py:653-684 | With distinct slots, deleting the slot just added restores the rows. |
| TemplateTags.ElementsNumber | gradesbook/templatetags/gradesbooktags.py:6-11 | A sized value renders its length; an unsized one renders blank. |
| TemplateTags.KeyValue | gradesbook/templatetags/gradesbooktags.py:14-19 | A present key renders its value; a missing key renders blank and never fails. |
| TemplateTags.UpdateVariable | gradesbook/templatetags/gradesbooktags.py:22-24 | The tag returns its argument unchanged. |

## Left out

- Request plumbing: login, logout, sessions, redirects, the `test_func` role gates, template rendering and context building.
- Pagination, password hashing (passwords are kept as the clear text handed to `create_user`/`set_password`), and the `ContentType`/`Permission` lookups (the role is recorded directly).
- Cascade deletes and the views that only delete or (de)activate rows (students, subjects, teachers, classes).
- The clock: "today" and "now" are parameters. Ids burned by rolled-back inserts are not modelled; the counter only advances on kept rows.
- Localised message subjects and texts: a message records which notice it is (new grade or cancelled grade, with subject code and value), and the wording is left out.
- Birthdays and e-mail addresses: carried by the source but used by none of the modelled logic.
- Python `int()` leniency for URL codes: `Decimal.Parse` accepts only non-empty digit strings, so signs, spaces or underscores in a user-id code are treated as a ValueError.
- Messaging.Send: `MailboxSent.recipient` is 64 characters wide and the label is not truncated or checked against it.
- Foreign-key integrity: rows may reference missing rows; the lookups treat a dangling reference as not found.
- Ledger.CancelGrade: the copy, the notice and the delete are separate writes in the code; the model returns the final state and does not model a failure between them.
- Accounts.ResetRenumbers: this documents a quirk of the code rather than a promise, so no corrected version is given.
- Forms: strings are the cleaned values, with surrounding whitespace already stripped.

## Findings

| source | as written | input that shows it | evidently intended | confidence | as-written member | corrected member |
|---|---|---|---|---|---|---|
| yourgrades/views.py:490-498 | A numbered teacher username gets the password suffix '123', the student suffix | A teacher "Ivan Petrenko" added while "IvanPetrenko" exists gets username "IvanPetrenko2" and password "IvanPetrenko2123" | Every teacher gets the teacher suffix '234', as on the bare-name path and in the reset link for teachers | not executed | Accounts.AddTeacherAsWritten, Accounts.NumberedTeacherGetsStudentSuffix | Accounts.AddTeacher |
| yourgrades/views.py:683 | The delete looks up the slot by day and lesson only, ignoring the subject in the URL | Rows [B on Mo lesson 1]: the link from subject A's page for Mo lesson 1 deletes B's row; rows [A Mo 1, B Mo 1] raise MultipleObjectsReturned | Only the page's subject's row for the slot is deleted | not executed | Timetable.DeleteSubjectDateAsWritten, Timetable.DeleteReachesOtherSubject | Timetable.DeleteSubjectDate |

=== FILE: accounts.dfy ===
/** Accounts: choosing a free username, creating the student, parent and
    teacher accounts, and a manager's password reset.

    A new account's username is its owner's name and surname run together;
    when that is taken the first of name+surname+"2", "3", ... that is free
    is used instead. The initial password is the username followed by a
    role suffix ("123" student, "234" teacher, "345" parent), the same
    suffix a reset appends. */
module Accounts {
  import opened Base
  import Roles
  import opened Models
  import opened Directory
  import opened Database
  import Decimal
  import Forms

  const StudentSuffix := "123"
  const TeacherSuffix := "234"
  const ParentSuffix := "345"

  /** Usernames are unique (`auth_user.username` is a unique column). */
  predicate UniqueUsernames(users: seq<User>) {
    forall i, j :: 0 <= i < j < |users| ==> users[i].username != users[j].username
  }

  // ---------------------------------------------------------------------
  // The numbered search
  // ---------------------------------------------------------------------

  /** Every numbered variant base2 .. base(k-1) is taken. */
  predicate AllTaken(base: string, taken: set<string>, k: nat) {
    forall j: nat :: 2 <= j < k ==> base + Decimal.Str(j) in taken
  }

  /** The numbered variants tried before `k`. */
  ghost function Tried(base: string, k: nat): set<string> {
    set j: nat | 2 <= j < k :: base + Decimal.Str(j)
  }

  lemma NotTriedYet(base: string, k: nat)
    ensures base + Decimal.Str(k) !in Tried(base, k)
  {
    forall j: nat | 2 <= j < k ensures base + Decimal.Str(j) != base + Decimal.Str(k) {
      Decimal.SuffixInjective(base, j, k);
    }
  }

  lemma {:induction false} TriedCard(base: string, k: nat)
    requires k >= 2
    ensures |Tried(base, k)| == k - 2
  {
    if k == 2 {
      assert Tried(base, 2) == {};
    } else {
      TriedCard(base, k - 1);
      NotTriedYet(base, k - 1);
      assert Tried(base, k) == Tried(base, k - 1) + {base + Decimal.Str(k - 1)};
    }
  }

  lemma {:induction false} SubsetCard<T>(a: set<T>, b: set<T>)
    requires a <= b
    ensures |a| <= |b|
  {
    if a != {} {
      var x :| x in a;
      SubsetCard(a - {x}, b - {x});
    }
  }

  /** Only as many numbers can be taken as there are taken names: this
      bounds the search. */
  lemma TakenBound(base: string, taken: set<string>, k: nat)
    requires k >= 2 && AllTaken(base, taken, k)
    ensures k - 2 <= |taken|
  {
    TriedCard(base, k);
    SubsetCard(Tried(base, k), taken);
  }

  /** The first free numbered variant from `k` on. */
  function NextFree(base: string, taken: set<string>, k: nat): (n: nat)
    requires k >= 2 && AllTaken(base, taken, k)
    ensures n >= k
    ensures base + Decimal.Str(n) !in taken
    ensures AllTaken(base, taken, n)
    decreases |taken| - (k - 2)
  {
    if base + Decimal.Str(k) !in taken then k
    else
      TakenBound(base, taken, k + 1);
      NextFree(base, taken, k + 1)
  }

  /** Only one number is free with every smaller one from 2 taken. */
  lemma LeastFreeUnique(base: string, taken: set<string>, n: nat, m: nat)
    requires 2 <= n && AllTaken(base, taken, n) && base + Decimal.Str(n) !in taken
    requires 2 <= m && AllTaken(base, taken, m) && base + Decimal.Str(m) !in taken
    ensures n == m
  {
    assert n < m ==> base + Decimal.Str(n) in taken;
    assert m < n ==> base + Decimal.Str(m) in taken;
  }

  /** The username an account with this name and surname gets. */
  function Allocate(base: string, taken: set<string>): (name: string)
    ensures name !in taken
    ensures name == base <==> base !in taken
    ensures base in taken ==>
              exists n: nat :: n >= 2 && name == base + Decimal.Str(n) && AllTaken(base, taken, n)
  {
    if base !in taken then base
    else
      var n := NextFree(base, taken, 2);
      assert base + Decimal.Str(n) != base by {
        assert |Decimal.Str(n)| >= 1;
      }
      base + Decimal.Str(n)
  }

  /** The search loop of the views, counting up from 2. */
  method FindFreeUsername(base: string, taken: set<string>) returns (name: string)
    ensures name !in taken
    ensures name == base <==> base !in taken
    ensures base in taken ==>
              exists n: nat :: n >= 2 && name == base + Decimal.Str(n) && AllTaken(base, taken, n)
    ensures name == Allocate(base, taken)
  {
    if base !in taken {
      return base;
    }
    var k: nat := 2;
    while base + Decimal.Str(k) in taken
      invariant k >= 2 && AllTaken(base, taken, k)
      decreases |taken| - (k - 2)
    {
      TakenBound(base, taken, k + 1);
      k := k + 1;
    }
    assert |Decimal.Str(k)| >= 1;
    name := base + Decimal.Str(k);
    LeastFreeUnique(base, taken, k, NextFree(base, taken, 2));
  }

  // ---------------------------------------------------------------------
  // Creating accounts
  // ---------------------------------------------------------------------

  /** `create_user` with a freshly allocated username, then the role's
      permission and the owner's names. */
  function NewAccount(users: seq<User>, id: UserId, name: string, surname: string, suffix: string, role: Roles.Role)
    : (u: User)
    ensures u.username !in Usernames(users)
    ensures u.username == name + surname <==> name + surname !in Usernames(users)
    ensures name + surname in Usernames(users) ==>
              exists n: nat :: n >= 2 && u.username == name + surname + Decimal.Str(n)
                               && AllTaken(name + surname, Usernames(users), n)
    ensures u.username == Allocate(name + surname, Usernames(users))
    ensures u.password == u.username + suffix
    ensures u.id == id && u.perms == {role} && u.firstName == name && u.lastName == surname
  {
    var username := Allocate(name + surname, Usernames(users));
    User(id, username, username + suffix, name, surname, {role})
  }

  /** `EditSchoolClassView.create_gradebook_user`. The guard admits
      'teacher' but no branch handles it, so the name field it reads next is
      unbound. */
  function CreateGradebookUser(users: seq<User>, id: UserId, form: Forms.StudentForm, person: string): (r: Result<User>)
    ensures r.Err? <==> person !in {"student", "parent1", "parent2"}
    ensures r.Err? ==> r.error == (if person == "teacher" then UnboundLocal else ValueError)
    ensures r.Ok? ==> r.value.username !in Usernames(users) && r.value.id == id
    ensures r.Ok? ==> r.value.username == Allocate(BaseName(form, person), Usernames(users))
    ensures person == "student" ==>
              (&& r.Ok? && r.value.perms == {Roles.Student}
               && r.value.firstName == form.name && r.value.lastName == form.surname
               && r.value.password == r.value.username + StudentSuffix)
    ensures person == "parent1" ==>
              (&& r.Ok? && r.value.perms == {Roles.Parent}
               && r.value.firstName == form.firstParentName && r.value.lastName == form.firstParentSurname
               && r.value.password == r.value.username + ParentSuffix)
    ensures person == "parent2" ==>
              (&& r.Ok? && r.value.perms == {Roles.Parent}
               && r.value.firstName == form.secondParentName && r.value.lastName == form.secondParentSurname
               && r.value.password == r.value.username + ParentSuffix)
  {
    if person !in {"student", "parent1", "parent2", "teacher"} then Err(ValueError)
    else if person == "student" then Ok(NewAccount(users, id, form.name, form.surname, StudentSuffix, Roles.Student))
    else if person == "parent1" then
      Ok(NewAccount(users, id, form.firstParentName, form.firstParentSurname, ParentSuffix, Roles.Parent))
    else if person == "parent2" then
      Ok(NewAccount(users, id, form.secondParentName, form.secondParentSurname, ParentSuffix, Roles.Parent))
    else Err(UnboundLocal)
  }

  /** The name and surname an enrolment account's username is built from. */
  function BaseName(form: Forms.StudentForm, person: string): string {
    if person == "student" then form.name + form.surname
    else if person == "parent1" then form.firstParentName + form.firstParentSurname
    else form.secondParentName + form.secondParentSurname
  }

  /** Appending an account whose username is not taken keeps usernames
      unique. */
  lemma AppendFreshUsername(users: seq<User>, u: User)
    requires UniqueUsernames(users)
    requires u.username !in Usernames(users)
    ensures UniqueUsernames(users + [u])
  {
    var all := users + [u];
    forall i, j | 0 <= i < j < |all| ensures all[i].username != all[j].username {
      if j == |users| {
        assert all[i] in users;
      } else {
        assert all[i] == users[i] && all[j] == users[j];
      }
    }
  }

  /** Whether the second parent is entered: both of its fields are filled. */
  predicate HasSecondParent(form: Forms.StudentForm) {
    form.secondParentName != "" && form.secondParentSurname != ""
  }

  /** The account `create_gradebook_user` makes for a person of the
      enrolment form: its role, the names from the form, and the password
      made of the username and the role's suffix. */
  predicate AccountFor(u: User, form: Forms.StudentForm, person: string) {
    if person == "student" then
      && u.perms == {Roles.Student} && u.firstName == form.name && u.lastName == form.surname
      && u.password == u.username + StudentSuffix
    else if person == "parent1" then
      && u.perms == {Roles.Parent} && u.firstName == form.firstParentName && u.lastName == form.firstParentSurname
      && u.password == u.username + ParentSuffix
    else
      && person == "parent2"
      && u.perms == {Roles.Parent} && u.firstName == form.secondParentName && u.lastName == form.secondParentSurname
      && u.password == u.username + ParentSuffix
  }

  /** `create_gradebook_user` followed by the account's save. */
  function WithAccount(users: seq<User>, id: UserId, form: Forms.StudentForm, person: string): (r: seq<User>)
    requires person in {"student", "parent1", "parent2"}
    ensures |r| == |users| + 1 && r[..|users|] == users
    ensures r[|users|].username !in Usernames(users) && r[|users|].id == id
    ensures r[|users|].username == Allocate(BaseName(form, person), Usernames(users))
    ensures AccountFor(r[|users|], form, person)
    ensures UniqueUsernames(users) ==> UniqueUsernames(r)
  {
    var u := CreateGradebookUser(users, id, form, person).value;
    assert UniqueUsernames(users) ==> UniqueUsernames(users + [u]) by {
      if UniqueUsernames(users) {
        AppendFreshUsername(users, u);
      }
    }
    users + [u]
  }

  /** The accounts one after another, each allocated against the accounts
      saved before it, with consecutive ids. */
  function WithAccounts(users: seq<User>, id: UserId, form: Forms.StudentForm, persons: seq<string>)
    : (r: seq<User>)
    requires forall p :: p in persons ==> p in {"student", "parent1", "parent2"}
    ensures |r| == |users| + |persons| && r[..|users|] == users
    ensures forall i :: |users| <= i < |r| ==> r[i].username !in Usernames(users)
    ensures UniqueUsernames(users) ==> UniqueUsernames(r)
    decreases |persons|
  {
    if |persons| == 0 then users
    else
      assert persons[0] in persons;
      assert forall p :: p in persons[1..] ==> p in persons;
      var next := WithAccount(users, id, form, persons[0]);
      var r := WithAccounts(next, id + 1, form, persons[1..]);
      ExtendAccounts(users, next, r);
      r
  }

  /** One step of the allocation: the first account, then the rest
      allocated against it. */
  lemma WithAccountsCons(users: seq<User>, id: UserId, form: Forms.StudentForm, persons: seq<string>)
    requires forall p :: p in persons ==> p in {"student", "parent1", "parent2"}
    requires |persons| > 0
    ensures persons[0] in {"student", "parent1", "parent2"}
    ensures forall p :: p in persons[1..] ==> p in {"student", "parent1", "parent2"}
    ensures var next := WithAccount(users, id, form, persons[0]);
            var r := WithAccounts(next, id + 1, form, persons[1..]);
            && WithAccounts(users, id, form, persons) == r
            && r[|users|] == next[|users|]
  {
    assert persons[0] in persons;
    assert forall p :: p in persons[1..] ==> p in persons;
    var next := WithAccount(users, id, form, persons[0]);
    var r := WithAccounts(next, id + 1, form, persons[1..]);
    assert r[..|next|] == next;
    assert r[|users|] == r[..|next|][|users|];
  }

  /** One account followed by more: what holds of each step holds of the
      whole. */
  lemma ExtendAccounts(users: seq<User>, next: seq<User>, r: seq<User>)
    requires |next| == |users| + 1 && next[..|users|] == users
    requires next[|users|].username !in Usernames(users)
    requires |r| >= |next| && r[..|next|] == next
    requires forall i :: |next| <= i < |r| ==> r[i].username !in Usernames(next)
    ensures r[..|users|] == users
    ensures forall i :: |users| <= i < |r| ==> r[i].username !in Usernames(users)
  {
    assert r[..|users|] == r[..|next|][..|users|];
    assert Usernames(users) <= Usernames(next) by {
      forall n | n in Usernames(users) ensures n in Usernames(next) {
        var u :| u in users && u.username == n;
        assert u in next;
      }
    }
    assert r[|users|] == next[|users|];
  }

  /** Whose accounts enrolment creates: the student, the first parent, and
      the second parent when both its names are given. */
  function Enrolled(form: Forms.StudentForm): (persons: seq<string>)
    ensures |persons| == 3 <==> HasSecondParent(form)
    ensures |persons| == 2 <==> !HasSecondParent(form)
    ensures persons[..2] == ["student", "parent1"]
  {
    if HasSecondParent(form) then ["student", "parent1", "parent2"] else ["student", "parent1"]
  }

  /** The Parent rows enrolment writes, both pointing at the new student. */
  function ParentRows(form: Forms.StudentForm, student: UserId): (rows: seq<Parent>)
    ensures |rows| == |Enrolled(form)| - 1
    ensures forall p :: p in rows ==> p.student == student && p.person.firstLogin
    ensures rows[0] == Parent(student + 1, Person(form.firstParentName, form.firstParentSurname, true), student)
    ensures HasSecondParent(form) ==>
              rows[1] == Parent(student + 2, Person(form.secondParentName, form.secondParentSurname, true), student)
  {
    var first := Parent(student + 1, Person(form.firstParentName, form.firstParentSurname, true), student);
    if HasSecondParent(form) then
      [first, Parent(student + 2, Person(form.secondParentName, form.secondParentSurname, true), student)]
    else [first]
  }

  /** The accounts enrolment appends after `before`: the student's with id
      `id`, the first parent's with `id + 1`, and the second parent's with
      `id + 2` when it is entered. Each username is allocated against the
      users saved before that account. */
  predicate EnrolledAccounts(before: seq<User>, after: seq<User>, id: UserId, form: Forms.StudentForm) {
    var n := |before|;
    && |after| >= n + 2
    && after[n].id == id && AccountFor(after[n], form, "student")
    && after[n].username == Allocate(form.name + form.surname, Usernames(before))
    && after[n + 1].id == id + 1 && AccountFor(after[n + 1], form, "parent1")
    && after[n + 1].username == Allocate(form.firstParentName + form.firstParentSurname, Usernames(after[..n + 1]))
    && (HasSecondParent(form) ==>
          && |after| >= n + 3 && after[n + 2].id == id + 2 && AccountFor(after[n + 2], form, "parent2")
          && after[n + 2].username
             == Allocate(form.secondParentName + form.secondParentSurname, Usernames(after[..n + 2])))
  }

  lemma EnrollmentAccounts(users: seq<User>, id: UserId, form: Forms.StudentForm)
    ensures EnrolledAccounts(users, WithAccounts(users, id, form, Enrolled(form)), id, form)
  {
    var persons := Enrolled(form);
    WithAccountsCons(users, id, form, persons);
    var first := WithAccount(users, id, form, "student");
    WithAccountsCons(first, id + 1, form, persons[1..]);
    var second := WithAccount(first, id + 1, form, "parent1");
    assert second[|users|] == first[|users|];
    if HasSecondParent(form) {
      WithAccountsCons(second, id + 2, form, persons[2..]);
      var third := WithAccount(second, id + 2, form, "parent2");
      assert third[|users|] == first[|users|];
      assert third[|users| + 1] == second[|users| + 1];
    }
  }

  /** The parent rows enrolment appends after `before`: the first parent's
      row for account `id + 1`, and the second's for `id + 2` when entered,
      both pointing at the student `id`. */
  predicate EnrolledParents(before: seq<Parent>, after: seq<Parent>, id: UserId, form: Forms.StudentForm) {
    var n := |before|;
    && |after| == n + (if HasSecondParent(form) then 2 else 1)
    && after[..n] == before
    && after[n] == Parent(id + 1, Person(form.firstParentName, form.firstParentSurname, true), id)
    && (HasSecondParent(form) ==>
          after[n + 1] == Parent(id + 2, Person(form.secondParentName, form.secondParentSurname, true), id))
  }

  /** `EditSchoolClassView.form_valid`: the student's account and row, the
      first parent's, and the second parent's when both its names are given.
      An unknown class is a 404 inside the transaction, so nothing stays. */
  function EnrollStudent(st: Store, classCode: string, form: Forms.StudentForm): (r: Result<Store>)
    ensures r.Err? <==> !Forms.StudentFormValid(form) || FindClass(st.dir.classes, classCode).None?
    ensures r.Err? ==> r.error == (if Forms.StudentFormValid(form) then NotFound else Invalid)
    ensures r.Ok? ==> |r.value.dir.users| == |st.dir.users| + (if HasSecondParent(form) then 3 else 2)
    ensures r.Ok? ==> r.value.dir.users[..|st.dir.users|] == st.dir.users
    ensures r.Ok? ==> forall i :: |st.dir.users| <= i < |r.value.dir.users| ==>
                        r.value.dir.users[i].username !in Usernames(st.dir.users)
    ensures r.Ok? ==> EnrolledAccounts(st.dir.users, r.value.dir.users, st.nextId, form)
    ensures r.Ok? ==> r.value.dir.students == st.dir.students + [Student(st.nextId, Person(form.name, form.surname, true), classCode)]
    ensures r.Ok? ==> EnrolledParents(st.dir.parents, r.value.dir.parents, st.nextId, form)
    ensures r.Ok? ==> r.value.nextId == st.nextId + |Enrolled(form)|
    ensures r.Ok? ==> r.value == st.(dir := st.dir.(users := r.value.dir.users, students := r.value.dir.students,
                                                    parents := r.value.dir.parents), nextId := r.value.nextId)
    ensures r.Ok? && UniqueUsernames(st.dir.users) ==> UniqueUsernames(r.value.dir.users)
  {
    if !Forms.StudentFormValid(form) then Err(Invalid)
    else if FindClass(st.dir.classes, classCode).None? then Err(NotFound)
    else
      var persons := Enrolled(form);
      var users := WithAccounts(st.dir.users, st.nextId, form, persons);
      EnrollmentAccounts(st.dir.users, st.nextId, form);
      var student := Student(st.nextId, Person(form.name, form.surname, true), classCode);
      var parents := st.dir.parents + ParentRows(form, st.nextId);
      EnrollmentParents(st.dir.parents, st.nextId, form);
      Ok(st.(dir := st.dir.(users := users, students := st.dir.students + [student], parents := parents),
             nextId := st.nextId + |persons|))
  }

  lemma EnrollmentParents(parents: seq<Parent>, id: UserId, form: Forms.StudentForm)
    ensures EnrolledParents(parents, parents + ParentRows(form, id), id, form)
  {
    var rows := ParentRows(form, id);
    assert (parents + rows)[|parents|] == rows[0];
    if HasSecondParent(form) {
      assert (parents + rows)[|parents| + 1] == rows[1];
    }
  }

  /** Every parent row enrolment writes points at the new student. */
  lemma EnrolledParentsPointAtStudent(before: seq<Parent>, after: seq<Parent>, id: UserId, form: Forms.StudentForm)
    requires EnrolledParents(before, after, id, form)
    ensures forall i :: |before| <= i < |after| ==> after[i].student == id
  {
  }

  /** The account and row `AddTeacherView.form_valid` writes, given the
      password it chose. */
  function TeacherAccount(st: Store, form: Forms.TeacherForm, username: string, password: string): Store {
    var u := User(st.nextId, username, password, form.name, form.surname, {Roles.Teacher});
    var t := Teacher(st.nextId, Person(form.name, form.surname, true), true);
    st.(dir := st.dir.(users := st.dir.users + [u], teachers := st.dir.teachers + [t]), nextId := st.nextId + 1)
  }

  /** `AddTeacherView.form_valid` as written: the bare username gets the
      teacher suffix, a numbered one the student suffix. */
  function AddTeacherAsWritten(st: Store, form: Forms.TeacherForm): (r: Result<Store>)
    ensures r.Err? <==> !Forms.TeacherFormValid(form)
    ensures r.Ok? ==> |r.value.dir.users| == |st.dir.users| + 1
    ensures r.Ok? ==> var u := r.value.dir.users[|st.dir.users|];
                      && u.username !in Usernames(st.dir.users)
                      && u.username == Allocate(form.name + form.surname, Usernames(st.dir.users))
                      && u.password == u.username + (if form.name + form.surname in Usernames(st.dir.users)
                                                     then StudentSuffix else TeacherSuffix)
  {
    if !Forms.TeacherFormValid(form) then Err(Invalid)
    else
      var base := form.name + form.surname;
      var taken := Usernames(st.dir.users);
      var username := Allocate(base, taken);
      var suffix := if base !in taken then TeacherSuffix else StudentSuffix;
      Ok(TeacherAccount(st, form, username, username + suffix))
  }

  /** `AddTeacherView.form_valid` with the teacher suffix on both paths. */
  function AddTeacher(st: Store, form: Forms.TeacherForm): (r: Result<Store>)
    ensures r.Err? <==> !Forms.TeacherFormValid(form)
    ensures r.Err? ==> r.error == Invalid
    ensures r.Ok? ==> |r.value.dir.users| == |st.dir.users| + 1 && r.value.dir.users[..|st.dir.users|] == st.dir.users
    ensures r.Ok? ==> var u := r.value.dir.users[|st.dir.users|];
                      && u.username !in Usernames(st.dir.users)
                      && u.username == Allocate(form.name + form.surname, Usernames(st.dir.users))
                      && u.password == u.username + TeacherSuffix
                      && u.perms == {Roles.Teacher} && u.firstName == form.name && u.lastName == form.surname
                      && r.value.dir.teachers == st.dir.teachers + [Teacher(u.id, Person(form.name, form.surname, true), true)]
    ensures r.Ok? && UniqueUsernames(st.dir.users) ==> UniqueUsernames(r.value.dir.users)
  {
    if !Forms.TeacherFormValid(form) then Err(Invalid)
    else
      var username := Allocate(form.name + form.surname, Usernames(st.dir.users));
      var after := TeacherAccount(st, form, username, username + TeacherSuffix);
      assert UniqueUsernames(st.dir.users) ==> UniqueUsernames(after.dir.users) by {
        if UniqueUsernames(st.dir.users) {
          AppendFreshUsername(st.dir.users, after.dir.users[|st.dir.users|]);
        }
      }
      Ok(after)
  }

  /** The discrepancy: a second teacher with an existing teacher's name and
      surname gets a password ending in the student suffix. */
  lemma NumberedTeacherGetsStudentSuffix()
    ensures var st := Store(Directory([User(0, "IvanPetrenko", "IvanPetrenko234", "Ivan", "Petrenko", {Roles.Teacher})],
                                      [], [], [], [], [], []), [], [], [], [], [], [], [], [], 1);
            var form := Forms.TeacherForm("Ivan", "Petrenko");
            && AddTeacherAsWritten(st, form).Ok?
            && AddTeacherAsWritten(st, form).value.dir.users[1].username == "IvanPetrenko2"
            && AddTeacherAsWritten(st, form).value.dir.users[1].password == "IvanPetrenko2123"
            && AddTeacher(st, form).value.dir.users[1].password == "IvanPetrenko2234"
  {
    var taken := Usernames([User(0, "IvanPetrenko", "IvanPetrenko234", "Ivan", "Petrenko", {Roles.Teacher})]);
    assert taken == {"IvanPetrenko"};
    assert Decimal.Str(2) == "2";
    assert "IvanPetrenko" + Decimal.Str(2) !in taken;
    assert NextFree("IvanPetrenko", taken, 2) == 2;
    assert Allocate("IvanPetrenko", taken) == "IvanPetrenko2";
    var st := Store(Directory([User(0, "IvanPetrenko", "IvanPetrenko234", "Ivan", "Petrenko", {Roles.Teacher})],
                              [], [], [], [], [], []), [], [], [], [], [], [], [], [], 1);
    var form := Forms.TeacherForm("Ivan", "Petrenko");
    assert Forms.TeacherFormValid(form);
    assert form.name + form.surname == "IvanPetrenko";
    assert "IvanPetrenko" + Decimal.Str(2) == "IvanPetrenko2";
    assert Usernames(st.dir.users) == taken;
    assert AddTeacherAsWritten(st, form) == Ok(TeacherAccount(st, form, "IvanPetrenko2", "IvanPetrenko2" + StudentSuffix));
    assert AddTeacher(st, form) == Ok(TeacherAccount(st, form, "IvanPetrenko2", "IvanPetrenko2" + TeacherSuffix));
  }

  // ---------------------------------------------------------------------
  // Reset
  // ---------------------------------------------------------------------

  /** The rows of a table keyed by `userId` with `first_login` set again:
      the table keeps its length and order, `first_login` is the only field
      that changes, and it becomes true exactly on the user's rows (staying
      as it was elsewhere). */
  function RelogStudents(students: seq<Student>, userId: UserId): (r: seq<Student>)
    ensures |r| == |students|
    ensures forall s :: s in r && s.user == userId ==> s.person.firstLogin
    ensures forall i :: 0 <= i < |r| ==> r[i].person.firstLogin == (students[i].person.firstLogin || students[i].user == userId)
    ensures forall i :: 0 <= i < |r| ==> r[i].(person := r[i].person.(firstLogin := students[i].person.firstLogin)) == students[i]
  {
    seq(|students|, i requires 0 <= i < |students| =>
      if students[i].user == userId then students[i].(person := students[i].person.(firstLogin := true)) else students[i])
  }

  function RelogTeachers(teachers: seq<Teacher>, userId: UserId): (r: seq<Teacher>)
    ensures |r| == |teachers|
    ensures forall t :: t in r && t.user == userId ==> t.person.firstLogin
    ensures forall i :: 0 <= i < |r| ==> r[i].person.firstLogin == (teachers[i].person.firstLogin || teachers[i].user == userId)
    ensures forall i :: 0 <= i < |r| ==> r[i].(person := r[i].person.(firstLogin := teachers[i].person.firstLogin)) == teachers[i]
  {
    seq(|teachers|, i requires 0 <= i < |teachers| =>
      if teachers[i].user == userId then teachers[i].(person := teachers[i].person.(firstLogin := true)) else teachers[i])
  }

  function RelogParents(parents: seq<Parent>, userId: UserId): (r: seq<Parent>)
    ensures |r| == |parents|
    ensures forall p :: p in r && p.user == userId ==> p.person.firstLogin
    ensures forall i :: 0 <= i < |r| ==> r[i].person.firstLogin == (parents[i].person.firstLogin || parents[i].user == userId)
    ensures forall i :: 0 <= i < |r| ==> r[i].(person := r[i].person.(firstLogin := parents[i].person.firstLogin)) == parents[i]
  {
    seq(|parents|, i requires 0 <= i < |parents| =>
      if parents[i].user == userId then parents[i].(person := parents[i].person.(firstLogin := true)) else parents[i])
  }

  /** `user.save()`: an UPDATE of the rows with the user's id. The saved
      row replaces them, and every other row stays, in its place. */
  function SaveUser(users: seq<User>, u: User): (r: seq<User>)
    ensures |r| == |users|
    ensures forall w :: w in r ==> w == u || (w in users && w.id != u.id)
    ensures (exists w :: w in users && w.id == u.id) ==> u in r
    ensures forall i :: 0 <= i < |r| && users[i].id != u.id ==> r[i] == users[i]
  {
    var r := seq(|users|, i requires 0 <= i < |users| => if users[i].id == u.id then u else users[i]);
    assert forall w :: w in r ==> w == u || (w in users && w.id != u.id) by {
      forall w | w in r ensures w == u || (w in users && w.id != u.id) {
        var i :| 0 <= i < |r| && r[i] == w;
        assert users[i] in users;
      }
    }
    assert (exists w :: w in users && w.id == u.id) ==> u in r by {
      if exists w :: w in users && w.id == u.id {
        var w :| w in users && w.id == u.id;
        var k :| 0 <= k < |users| && users[k] == w;
        assert r[k] == u;
      }
    }
    r
  }

  /** The username a reset gives: the owner's name and surname when that
      name is free or already the user's own, otherwise the first free
      numbered variant, the user's current name counting as taken. */
  function ResetUsername(users: seq<User>, u: User): (name: string)
    ensures var base := u.firstName + u.lastName;
            && (FindUserByName(users, base).Some? && FindUserByName(users, base).value.id == u.id ==> name == u.username)
            && (FindUserByName(users, base).None? ==> name == base)
            && (FindUserByName(users, base).Some? && FindUserByName(users, base).value.id != u.id ==>
                  name !in Usernames(users)
                  && exists n: nat :: n >= 2 && name == base + Decimal.Str(n) && AllTaken(base, Usernames(users), n))
  {
    var base := u.firstName + u.lastName;
    match FindUserByName(users, base)
    case None => base
    case Some(e) =>
      if e.id == u.id then u.username
      else base + Decimal.Str(NextFree(base, Usernames(users), 2))
  }

  /** `ManagerResetUserView.get`. The password becomes the (possibly new)
      username followed by the decimal `prefix`; 123, 234 and 345 also set
      `first_login` on the student, teacher or parent row, and a missing row
      is a 404 that rolls the user's save back. */
  function ResetUser(dir: Directory, prefix: nat, userId: UserId): (r: Result<Directory>)
    ensures r.Err? <==> || FindUser(dir.users, userId).None?
                        || (prefix == 123 && FindStudent(dir.students, userId).None?)
                        || (prefix == 234 && FindTeacher(dir.teachers, userId).None?)
                        || (prefix == 345 && FindParent(dir.parents, userId).None?)
    ensures r.Err? ==> r.error == NotFound
    ensures r.Ok? ==> |r.value.users| == |dir.users|
    ensures r.Ok? ==> forall i :: 0 <= i < |dir.users| && dir.users[i].id != userId ==> r.value.users[i] == dir.users[i]
    ensures r.Ok? ==> forall i :: 0 <= i < |dir.users| && dir.users[i].id == userId ==>
                        && r.value.users[i].password == r.value.users[i].username + Decimal.Str(prefix)
                        && r.value.users[i].perms == FindUser(dir.users, userId).value.perms
    ensures r.Ok? && prefix == 123 ==>
              r.value.students == RelogStudents(dir.students, userId) && r.value.teachers == dir.teachers && r.value.parents == dir.parents
    ensures r.Ok? && prefix == 234 ==>
              r.value.students == dir.students && r.value.teachers == RelogTeachers(dir.teachers, userId) && r.value.parents == dir.parents
    ensures r.Ok? && prefix == 345 ==>
              r.value.students == dir.students && r.value.teachers == dir.teachers && r.value.parents == RelogParents(dir.parents, userId)
    ensures r.Ok? && prefix !in {123, 234, 345} ==>
              r.value.students == dir.students && r.value.teachers == dir.teachers && r.value.parents == dir.parents
    ensures r.Ok? ==> r.value.classes == dir.classes && r.value.subjects == dir.subjects
                      && r.value.subjectTeachers == dir.subjectTeachers
  {
    match FindUser(dir.users, userId)
    case None => Err(NotFound)
    case Some(u) =>
      var name := ResetUsername(dir.users, u);
      var saved := dir.(users := SaveUser(dir.users, u.(username := name, password := name + Decimal.Str(prefix))));
      if prefix == 123 then
        if FindStudent(dir.students, userId).None? then Err(NotFound)
        else Ok(saved.(students := RelogStudents(dir.students, userId)))
      else if prefix == 234 then
        if FindTeacher(dir.teachers, userId).None? then Err(NotFound)
        else Ok(saved.(teachers := RelogTeachers(dir.teachers, userId)))
      else if prefix == 345 then
        if FindParent(dir.parents, userId).None? then Err(NotFound)
        else Ok(saved.(parents := RelogParents(dir.parents, userId)))
      else Ok(saved)
  }

  /** Under unique keys one index holds a given id, and under unique
      usernames one index holds a given username. */
  lemma SameIdSameIndex(users: seq<User>, i: nat, k: nat)
    requires UniqueUserKeys(users) && i < |users| && k < |users|
    ensures users[i].id == users[k].id ==> i == k
  {
  }

  lemma SameNameSameIndex(users: seq<User>, i: nat, k: nat)
    requires UniqueUsernames(users) && i < |users| && k < |users|
    ensures users[i].username == users[k].username ==> i == k
  {
  }

  /** Proof step: ResetUser's users table is SaveUser applied to the
      user's row with the new username and password. */
  lemma ResetSaves(dir: Directory, prefix: nat, userId: UserId)
    requires ResetUser(dir, prefix, userId).Ok?
    ensures var u := FindUser(dir.users, userId).value;
            var name := ResetUsername(dir.users, u);
            ResetUser(dir, prefix, userId).value.users == SaveUser(dir.users, u.(username := name, password := name + Decimal.Str(prefix)))
  {
  }

  /** After a reset the lookup by id finds the user's row carrying the new
      username and the password made of it and the prefix. */
  lemma ResetFindsSaved(dir: Directory, prefix: nat, userId: UserId)
    requires ResetUser(dir, prefix, userId).Ok?
    ensures var u := FindUser(dir.users, userId).value;
            var name := ResetUsername(dir.users, u);
            FindUser(ResetUser(dir, prefix, userId).value.users, userId)
              == Some(u.(username := name, password := name + Decimal.Str(prefix)))
  {
    var u := FindUser(dir.users, userId).value;
    var name := ResetUsername(dir.users, u);
    ResetSaves(dir, prefix, userId);
    SavedUserFound(dir.users, u.(username := name, password := name + Decimal.Str(prefix)));
  }

  /** No other account holds the name a reset gives. */
  lemma ResetNameFree(users: seq<User>, k: nat, o: nat)
    requires UniqueUsernames(users)
    requires k < |users| && o < |users| && users[o].id != users[k].id
    ensures users[o].username != ResetUsername(users, users[k])
  {
    var u := users[k];
    var base := u.firstName + u.lastName;
    assert users[o] in users;
    SameNameSameIndex(users, o, k);
  }

  /** A reset keeps usernames unique. */
  lemma ResetKeepsUsernamesUnique(dir: Directory, prefix: nat, userId: UserId)
    requires UniqueUsernames(dir.users) && UniqueUserKeys(dir.users)
    requires ResetUser(dir, prefix, userId).Ok?
    ensures UniqueUsernames(ResetUser(dir, prefix, userId).value.users)
  {
    var users := dir.users;
    var u := FindUser(users, userId).value;
    var name := ResetUsername(users, u);
    ResetSaves(dir, prefix, userId);
    var after := SaveUser(users, u.(username := name, password := name + Decimal.Str(prefix)));
    var k :| 0 <= k < |users| && users[k] == u;
    forall i, j | 0 <= i < j < |after| ensures after[i].username != after[j].username {
      SameIdSameIndex(users, i, k);
      SameIdSameIndex(users, j, k);
      if users[i].id == userId {
        ResetNameFree(users, k, j);
      } else if users[j].id == userId {
        ResetNameFree(users, k, i);
      }
    }
  }

  /** Saving a user makes it the row found by its id. */
  lemma {:induction false} SavedUserFound(users: seq<User>, v: User)
    requires exists w :: w in users && w.id == v.id
    ensures FindUser(SaveUser(users, v), v.id) == Some(v)
  {
    var saved := SaveUser(users, v);
    if users[0].id != v.id {
      assert saved[1..] == SaveUser(users[1..], v);
      var w :| w in users && w.id == v.id;
      assert w in users[1..];
      SavedUserFound(users[1..], v);
    }
  }

  /** ... and by its username, when no other account holds that name. */
  lemma {:induction false} SavedUserFoundByName(users: seq<User>, v: User)
    requires exists w :: w in users && w.id == v.id
    requires forall w :: w in users && w.username == v.username ==> w.id == v.id
    ensures FindUserByName(SaveUser(users, v), v.username) == Some(v)
  {
    var saved := SaveUser(users, v);
    if users[0].id != v.id {
      assert saved[1..] == SaveUser(users[1..], v);
      var w :| w in users && w.id == v.id;
      assert w in users[1..];
      assert forall x :: x in users[1..] ==> x in users;
      SavedUserFoundByName(users[1..], v);
    }
  }

  lemma SaveUserTwice(users: seq<User>, v: User)
    ensures SaveUser(SaveUser(users, v), v) == SaveUser(users, v)
  {
    var once := SaveUser(users, v);
    assert forall i :: 0 <= i < |once| ==> SaveUser(once, v)[i] == once[i];
  }

  /** Setting `first_login` again is idempotent and keeps the row findable. */
  lemma RelogStudentsTwice(students: seq<Student>, userId: UserId)
    ensures RelogStudents(RelogStudents(students, userId), userId) == RelogStudents(students, userId)
    ensures FindStudent(students, userId).Some? ==> FindStudent(RelogStudents(students, userId), userId).Some?
  {
    var once := RelogStudents(students, userId);
    assert forall i :: 0 <= i < |once| ==> RelogStudents(once, userId)[i] == once[i];
    if FindStudent(students, userId).Some? {
      var i :| 0 <= i < |students| && students[i] == FindStudent(students, userId).value;
      assert once[i] in once;
    }
  }

  lemma RelogTeachersTwice(teachers: seq<Teacher>, userId: UserId)
    ensures RelogTeachers(RelogTeachers(teachers, userId), userId) == RelogTeachers(teachers, userId)
    ensures FindTeacher(teachers, userId).Some? ==> FindTeacher(RelogTeachers(teachers, userId), userId).Some?
  {
    var once := RelogTeachers(teachers, userId);
    assert forall i :: 0 <= i < |once| ==> RelogTeachers(once, userId)[i] == once[i];
    if FindTeacher(teachers, userId).Some? {
      var i :| 0 <= i < |teachers| && teachers[i] == FindTeacher(teachers, userId).value;
      assert once[i] in once;
    }
  }

  lemma RelogParentsTwice(parents: seq<Parent>, userId: UserId)
    ensures RelogParents(RelogParents(parents, userId), userId) == RelogParents(parents, userId)
    ensures FindParent(parents, userId).Some? ==> FindParent(RelogParents(parents, userId), userId).Some?
  {
    var once := RelogParents(parents, userId);
    assert forall i :: 0 <= i < |once| ==> RelogParents(once, userId)[i] == once[i];
    if FindParent(parents, userId).Some? {
      var i :| 0 <= i < |parents| && parents[i] == FindParent(parents, userId).value;
      assert once[i] in once;
    }
  }

  /** The first reset of a user whose username is its name and surname
      keeps the username and leaves that user findable by id and name. */
  lemma ResetBareName(dir: Directory, prefix: nat, userId: UserId)
    requires UniqueUsernames(dir.users) && UniqueUserKeys(dir.users)
    requires ResetUser(dir, prefix, userId).Ok?
    requires var u := FindUser(dir.users, userId).value; u.username == u.firstName + u.lastName
    ensures var u := FindUser(dir.users, userId).value;
            var v := u.(password := u.username + Decimal.Str(prefix));
            var once := ResetUser(dir, prefix, userId).value;
            && once.users == SaveUser(dir.users, v)
            && FindUser(once.users, userId) == Some(v)
            && FindUserByName(once.users, v.username) == Some(v)
  {
    var users := dir.users;
    var u := FindUser(users, userId).value;
    var base := u.firstName + u.lastName;
    var k :| 0 <= k < |users| && users[k] == u;
    var e := FindUserByName(users, base).value;
    var ke :| 0 <= ke < |users| && users[ke] == e;
    SameNameSameIndex(users, ke, k);
    assert ResetUsername(users, u) == base;
    var v := u.(password := base + Decimal.Str(prefix));
    assert v == u.(username := base, password := base + Decimal.Str(prefix));
    assert u in users;
    SavedUserFound(users, v);
    forall w | w in users && w.username == v.username ensures w.id == v.id {
      var kw :| 0 <= kw < |users| && users[kw] == w;
      SameNameSameIndex(users, kw, k);
    }
    SavedUserFoundByName(users, v);
  }

  /** Resetting twice is resetting once, for a user whose username is
      already its name and surname. */
  lemma ResetTwiceBareName(dir: Directory, prefix: nat, userId: UserId)
    requires UniqueUsernames(dir.users) && UniqueUserKeys(dir.users)
    requires ResetUser(dir, prefix, userId).Ok?
    requires var u := FindUser(dir.users, userId).value; u.username == u.firstName + u.lastName
    ensures var once := ResetUser(dir, prefix, userId).value;
            ResetUser(once, prefix, userId) == Ok(once)
  {
    var u := FindUser(dir.users, userId).value;
    var v := u.(password := u.username + Decimal.Str(prefix));
    var once := ResetUser(dir, prefix, userId).value;
    ResetBareName(dir, prefix, userId);
    assert ResetUsername(once.users, v) == v.username;
    assert v.(username := v.username, password := v.username + Decimal.Str(prefix)) == v;
    SaveUserTwice(dir.users, v);
    RelogStudentsTwice(dir.students, userId);
    RelogTeachersTwice(dir.teachers, userId);
    RelogParentsTwice(dir.parents, userId);
  }

  /** Under unique keys two different rows have different ids. */
  lemma DistinctRowsDistinctIds(users: seq<User>, a: User, b: User)
    requires UniqueUserKeys(users) && a in users && b in users
    ensures a != b ==> a.id != b.id
  {
    var ka :| 0 <= ka < |users| && users[ka] == a;
    var kb :| 0 <= kb < |users| && users[kb] == b;
    SameIdSameIndex(users, ka, kb);
  }

  /** A free number lies beyond a taken one whose predecessors are all
      taken. */
  lemma FreeBeyondTaken(base: string, taken: set<string>, n: nat, m: nat)
    requires 2 <= n && 2 <= m && AllTaken(base, taken, n)
    requires base + Decimal.Str(n) in taken && base + Decimal.Str(m) !in taken
    ensures m > n
  {
  }

  /** A user holding numbered variant `n`, with the bare name held by
      another account and every smaller variant taken, is moved by a reset
      to a larger number: its own current name counts as taken, so the
      search moves past it. */
  lemma ResetRenumbers(dir: Directory, prefix: nat, userId: UserId, n: nat)
    requires UniqueUserKeys(dir.users)
    requires ResetUser(dir, prefix, userId).Ok?
    requires var u := FindUser(dir.users, userId).value;
             var base := u.firstName + u.lastName;
             && n >= 2 && u.username == base + Decimal.Str(n)
             && AllTaken(base, Usernames(dir.users), n)
             && exists w :: w in dir.users && w.username == base
    ensures var u := FindUser(dir.users, userId).value;
            var base := u.firstName + u.lastName;
            var after := ResetUser(dir, prefix, userId).value;
            exists i, m: nat :: 0 <= i < |after.users| && after.users[i].id == userId && m > n
                                && after.users[i].username == base + Decimal.Str(m)
  {
    var users := dir.users;
    var u := FindUser(users, userId).value;
    var base := u.firstName + u.lastName;
    var m := RenumberedName(users, u, n);
    var k :| 0 <= k < |users| && users[k] == u;
    var after := ResetUser(dir, prefix, userId).value;
    ResetSaves(dir, prefix, userId);
    assert after.users[k].id == userId && after.users[k].username == base + Decimal.Str(m);
  }

  /** The reset after that moves the user back: once it has left the
      numbered variant it held, that variant is the least free one again. */
  lemma ResetRenumbersBack(dir: Directory, prefix: nat, userId: UserId, n: nat)
    requires UniqueUserKeys(dir.users) && UniqueUsernames(dir.users)
    requires ResetUser(dir, prefix, userId).Ok?
    requires var u := FindUser(dir.users, userId).value;
             var base := u.firstName + u.lastName;
             && n >= 2 && u.username == base + Decimal.Str(n)
             && AllTaken(base, Usernames(dir.users), n)
             && exists w :: w in dir.users && w.username == base
    ensures var u := FindUser(dir.users, userId).value;
            var once := ResetUser(dir, prefix, userId).value;
            && ResetUser(once, prefix, userId).Ok?
            && var twice := ResetUser(once, prefix, userId).value;
               && FindUser(twice.users, userId).Some?
               && FindUser(twice.users, userId).value.username == u.firstName + u.lastName + Decimal.Str(n)
  {
    var users := dir.users;
    var u := FindUser(users, userId).value;
    var base := u.firstName + u.lastName;
    var m := RenumberedName(users, u, n);
    var v := u.(username := base + Decimal.Str(m), password := base + Decimal.Str(m) + Decimal.Str(prefix));
    var once := ResetUser(dir, prefix, userId).value;
    ResetSaves(dir, prefix, userId);
    ResetFindsSaved(dir, prefix, userId);
    assert FindUser(once.users, userId) == Some(v);
    RelogStudentsTwice(dir.students, userId);
    RelogTeachersTwice(dir.teachers, userId);
    RelogParentsTwice(dir.parents, userId);
    assert ResetUser(once, prefix, userId).Ok?;
    RenumberedNameBack(users, u, n, m, v);
    ResetFindsSaved(once, prefix, userId);
  }

  /** The name part of that: with the user's row renamed to variant `m`,
      variant `n` is free again and every smaller one is still taken. */
  lemma RenumberedNameBack(users: seq<User>, u: User, n: nat, m: nat, v: User)
    requires UniqueUserKeys(users) && UniqueUsernames(users) && u in users
    requires n >= 2 && m > n && u.username == u.firstName + u.lastName + Decimal.Str(n)
    requires AllTaken(u.firstName + u.lastName, Usernames(users), n)
    requires exists w :: w in users && w.username == u.firstName + u.lastName
    requires v == u.(username := u.firstName + u.lastName + Decimal.Str(m), password := v.password)
    ensures ResetUsername(SaveUser(users, v), v) == u.firstName + u.lastName + Decimal.Str(n)
  {
    var base := u.firstName + u.lastName;
    var after := SaveUser(users, v);
    var taken := Usernames(after);
    var e := FindUserByName(users, base).value;
    assert |Decimal.Str(n)| >= 1;
    assert e.username != u.username;
    DistinctRowsDistinctIds(users, e, u);
    KeptBySave(users, v, e);
    var e2 := FindUserByName(after, base).value;
    assert |Decimal.Str(m)| >= 1;
    assert e2.username != v.username;
    assert e2.id != v.id;
    forall j: nat | 2 <= j < n ensures base + Decimal.Str(j) in taken {
      var w :| w in users && w.username == base + Decimal.Str(j);
      Decimal.SuffixInjective(base, j, n);
      DistinctRowsDistinctIds(users, w, u);
      KeptBySave(users, v, w);
    }
    forall w | w in after ensures w.username != base + Decimal.Str(n) {
      Decimal.SuffixInjective(base, m, n);
      if w != v {
        var kw :| 0 <= kw < |users| && users[kw] == w;
        var ku :| 0 <= ku < |users| && users[ku] == u;
        SameNameSameIndex(users, kw, ku);
      }
    }
    var k := NextFree(base, taken, 2);
    LeastFreeUnique(base, taken, n, k);
  }

  /** A row whose id differs from the saved one survives the save. */
  lemma KeptBySave(users: seq<User>, v: User, w: User)
    requires w in users && w.id != v.id
    ensures w in SaveUser(users, v)
  {
    var k :| 0 <= k < |users| && users[k] == w;
    assert SaveUser(users, v)[k] == w;
  }

  /** The name part of that: the new number is larger than the old one. */
  lemma RenumberedName(users: seq<User>, u: User, n: nat) returns (m: nat)
    requires UniqueUserKeys(users) && u in users
    requires n >= 2 && u.username == u.firstName + u.lastName + Decimal.Str(n)
    requires AllTaken(u.firstName + u.lastName, Usernames(users), n)
    requires exists w :: w in users && w.username == u.firstName + u.lastName
    ensures m > n && ResetUsername(users, u) == u.firstName + u.lastName + Decimal.Str(m)
  {
    var base := u.firstName + u.lastName;
    var taken := Usernames(users);
    var e := FindUserByName(users, base).value;
    assert |Decimal.Str(n)| >= 1;
    assert e.username != u.username;
    DistinctRowsDistinctIds(users, e, u);
    m := NextFree(base, taken, 2);
    assert base + Decimal.Str(n) in taken;
    FreeBeyondTaken(base, taken, n, m);
  }
}

=== FILE: base.dfy ===
/** Failure-carrying results and the error kinds the views surface.
    Each error is named after what the Python code raises; none of them is
    retried, and every failing operation leaves the store as it found it
    unless its own contract says otherwise. */
module Base {

  datatype Option<+T> = None | Some(value: T)

  datatype Error =
    | NotFound                 // Http404 from get_object_or_404 / get_list_or_404
    | Invalid                  // a form that does not validate, or a ValidationError from full_clean
    | ValueError               // an explicit `raise ValueError`
    | UnboundLocal             // a local read on a path that never assigned it
    | MultipleObjectsReturned  // `.get()` matched more than one row
    | IndexError               // a list index out of range

  datatype Result<+T> = Ok(value: T) | Err(error: Error) {
    predicate IsFailure() {
      Err?
    }

    function PropagateFailure<U>(): Result<U>
      requires Err?
    {
      Err(error)
    }

    function Extract(): T
      requires Ok?
    {
      value
    }
  }

  /** No element occurs twice. */
  predicate NoDuplicates<T(==)>(s: seq<T>) {
    forall i, j :: 0 <= i < j < |s| ==> s[i] != s[j]
  }

  /** Putting a new element in front keeps a list free of repeats. */
  lemma ConsDistinct<T>(x: T, rest: seq<T>)
    requires NoDuplicates(rest) && x !in rest
    ensures NoDuplicates([x] + rest)
  {
    var r := [x] + rest;
    forall i, j | 0 <= i < j < |r| ensures r[i] != r[j] {
      if i == 0 {
        assert r[j] == rest[j - 1];
      } else {
        assert r[i] == rest[i - 1] && r[j] == rest[j - 1];
      }
    }
  }
}

=== FILE: database.dfy ===
/** The whole persistent state the core reads and writes: the identity
    directory plus the timetable, grade and mail tables. Every operation of
    the model is a pure transition from one `Store` to the next. Row ids
    come from one counter, so a freshly written row never shares its id
    with an older one. */
module Database {
  import opened Models
  import opened Directory

  datatype Store = Store(
    dir: Directory,
    dates: seq<SubjectDate>,
    grades: seq<Grade>,
    canceled: seq<CanceledGrade>,
    messages: seq<Message>,
    senders: seq<Sender>,
    recipients: seq<Recipient>,
    received: seq<MailboxReceived>,
    sent: seq<MailboxSent>,
    nextId: nat)

  /** Every id stored in an id-keyed row, its own key or a reference to
      another row, was allocated before the counter's current value. */
  predicate IdsBelow(st: Store) {
    && (forall d :: d in st.dates ==> d.id < st.nextId)
    && (forall g :: g in st.grades ==> g.id < st.nextId)
    && (forall c :: c in st.canceled ==> c.id < st.nextId)
    && (forall m :: m in st.messages ==> m.id < st.nextId)
    && (forall s :: s in st.senders ==> s.id < st.nextId && s.message < st.nextId)
    && (forall r :: r in st.recipients ==> r.id < st.nextId && r.message < st.nextId)
    && (forall e :: e in st.received ==>
          e.id < st.nextId && e.sender < st.nextId && e.recipient < st.nextId && e.message < st.nextId)
    && (forall e :: e in st.sent ==> e.id < st.nextId && e.sender < st.nextId && e.message < st.nextId)
  }

  /** The tables an operation of the mail or grade components never touches
      are the same in both stores. */
  predicate SameDirectoryAndTimetable(a: Store, b: Store) {
    a.dir == b.dir && a.dates == b.dates
  }
}

=== FILE: decimal.dfy ===
/** Decimal rendering of natural numbers, as Python's `str(n)` produces it
    for the numbered usernames, password suffixes and URL codes, and the
    inverse parse used where a URL segment names a user id. */
module Decimal {
  import opened Base

  predicate IsDigit(c: char) {
    '0' <= c <= '9'
  }

  predicate AllDigits(s: string) {
    forall i :: 0 <= i < |s| ==> IsDigit(s[i])
  }

  function DigitChar(d: nat): (c: char)
    requires d < 10
    ensures IsDigit(c)
    ensures c as int - '0' as int == d
  {
    ('0' as int + d) as char
  }

  /** `str(n)`: most significant digit first, no leading zeros. */
  function Str(n: nat): (s: string)
    ensures AllDigits(s)
    ensures 1 <= |s|
    ensures |s| == 1 <==> n < 10
    ensures n >= 10 ==> s[0] != '0'
  {
    if n < 10 then [DigitChar(n)] else Str(n / 10) + [DigitChar(n % 10)]
  }

  /** Value of a digit string (the empty string is worth 0). */
  function Value(s: string): nat
    requires AllDigits(s)
  {
    if |s| == 0 then 0
    else Value(s[..|s| - 1]) * 10 + (s[|s| - 1] as int - '0' as int)
  }

  /** Parse of a URL segment into a user id: only non-empty digit strings. */
  function Parse(s: string): (r: Option<nat>)
    ensures r.Some? <==> |s| > 0 && AllDigits(s)
  {
    if |s| > 0 && AllDigits(s) then Some(Value(s)) else None
  }

  lemma {:induction false} ValueOfStr(n: nat)
    ensures Value(Str(n)) == n
    decreases n
  {
    if n >= 10 {
      var s := Str(n);
      assert s[..|s| - 1] == Str(n / 10);
      ValueOfStr(n / 10);
    }
  }

  /** Rendering then parsing gives the number back. */
  lemma ParseStr(n: nat)
    ensures Parse(Str(n)) == Some(n)
  {
    ValueOfStr(n);
  }

  /** Distinct numbers render differently, so `base + str(k)` names differ for distinct k. */
  lemma StrInjective(n: nat, m: nat)
    ensures Str(n) == Str(m) ==> n == m
  {
    ValueOfStr(n);
    ValueOfStr(m);
  }

  lemma SuffixInjective(base: string, n: nat, m: nat)
    ensures base + Str(n) == base + Str(m) ==> n == m
  {
    if base + Str(n) == base + Str(m) {
      assert Str(n) == (base + Str(n))[|base|..];
      assert Str(m) == (base + Str(m))[|base|..];
      StrInjective(n, m);
    }
  }
}

=== FILE: directory.dfy ===
/** Read-only identity tables and the lookups the views make over them:
    find a row by its key, list the students of a class, the parents of a
    student, the teachers of a subject and the holders of the manager
    permission. Listings keep table order (the source queries have no
    `order_by`, so the database's order is the table's). */
module Directory {
  import opened Base
  import opened Roles
  import opened Models

  datatype Directory = Directory(
    users: seq<User>,
    classes: seq<SchoolClass>,
    students: seq<Student>,
    parents: seq<Parent>,
    teachers: seq<Teacher>,
    subjects: seq<Subject>,
    subjectTeachers: seq<SubjectTeachers>)

  // ---------------------------------------------------------------------
  // Lookups by key (get / get_object_or_404)
  // ---------------------------------------------------------------------

  function FindUser(users: seq<User>, id: UserId): (r: Option<User>)
    ensures r.Some? ==> r.value in users && r.value.id == id
    ensures r.None? <==> forall u :: u in users ==> u.id != id
  {
    if |users| == 0 then None
    else if users[0].id == id then Some(users[0])
    else FindUser(users[1..], id)
  }

  function FindUserByName(users: seq<User>, username: string): (r: Option<User>)
    ensures r.Some? ==> r.value in users && r.value.username == username
    ensures r.None? <==> forall u :: u in users ==> u.username != username
  {
    if |users| == 0 then None
    else if users[0].username == username then Some(users[0])
    else FindUserByName(users[1..], username)
  }

  function FindClass(classes: seq<SchoolClass>, code: string): (r: Option<SchoolClass>)
    ensures r.Some? ==> r.value in classes && r.value.uniqueCode == code
    ensures r.None? <==> forall c :: c in classes ==> c.uniqueCode != code
  {
    if |classes| == 0 then None
    else if classes[0].uniqueCode == code then Some(classes[0])
    else FindClass(classes[1..], code)
  }

  function FindStudent(students: seq<Student>, user: UserId): (r: Option<Student>)
    ensures r.Some? ==> r.value in students && r.value.user == user
    ensures r.None? <==> forall s :: s in students ==> s.user != user
  {
    if |students| == 0 then None
    else if students[0].user == user then Some(students[0])
    else FindStudent(students[1..], user)
  }

  function FindTeacher(teachers: seq<Teacher>, user: UserId): (r: Option<Teacher>)
    ensures r.Some? ==> r.value in teachers && r.value.user == user
    ensures r.None? <==> forall t :: t in teachers ==> t.user != user
  {
    if |teachers| == 0 then None
    else if teachers[0].user == user then Some(teachers[0])
    else FindTeacher(teachers[1..], user)
  }

  function FindParent(parents: seq<Parent>, user: UserId): (r: Option<Parent>)
    ensures r.Some? ==> r.value in parents && r.value.user == user
    ensures r.None? <==> forall p :: p in parents ==> p.user != user
  {
    if |parents| == 0 then None
    else if parents[0].user == user then Some(parents[0])
    else FindParent(parents[1..], user)
  }

  function FindSubject(subjects: seq<Subject>, code: string): (r: Option<Subject>)
    ensures r.Some? ==> r.value in subjects && r.value.uniqueCode == code
    ensures r.None? <==> forall s :: s in subjects ==> s.uniqueCode != code
  {
    if |subjects| == 0 then None
    else if subjects[0].uniqueCode == code then Some(subjects[0])
    else FindSubject(subjects[1..], code)
  }

  function FindSubjectTeachers(rows: seq<SubjectTeachers>, code: string): (r: Option<SubjectTeachers>)
    ensures r.Some? ==> r.value in rows && r.value.subject == code
    ensures r.None? <==> forall t :: t in rows ==> t.subject != code
  {
    if |rows| == 0 then None
    else if rows[0].subject == code then Some(rows[0])
    else FindSubjectTeachers(rows[1..], code)
  }

  // ---------------------------------------------------------------------
  // Listings (filter)
  // ---------------------------------------------------------------------

  /** `Student.objects.filter(school_class=...)`, as user ids. */
  function StudentsOfClass(students: seq<Student>, code: string): (r: seq<UserId>)
    ensures |r| <= |students|
    ensures forall s :: s in students && s.schoolClass == code ==> s.user in r
    ensures forall u :: u in r ==> exists s :: s in students && s.schoolClass == code && s.user == u
  {
    if |students| == 0 then []
    else
      var rest := StudentsOfClass(students[1..], code);
      assert forall s :: s in students[1..] ==> s in students;
      if students[0].schoolClass == code then [students[0].user] + rest else rest
  }

  /** `Parent.objects.filter(student=...)`, as user ids. */
  function ParentsOf(parents: seq<Parent>, student: UserId): (r: seq<UserId>)
    ensures |r| <= |parents|
    ensures forall p :: p in parents && p.student == student ==> p.user in r
    ensures forall u :: u in r ==> exists p :: p in parents && p.student == student && p.user == u
  {
    if |parents| == 0 then []
    else
      var rest := ParentsOf(parents[1..], student);
      assert forall p :: p in parents[1..] ==> p in parents;
      if parents[0].student == student then [parents[0].user] + rest else rest
  }

  /** The parents of each listed student in turn, concatenated. */
  function ParentsOfAll(parents: seq<Parent>, students: seq<UserId>): (r: seq<UserId>)
    ensures forall p :: p in parents && p.student in students ==> p.user in r
    ensures forall u :: u in r ==> exists p :: p in parents && p.student in students && p.user == u
  {
    if |students| == 0 then []
    else
      var first := ParentsOf(parents, students[0]);
      var rest := ParentsOfAll(parents, students[1..]);
      assert forall x :: x in students[1..] ==> x in students;
      assert forall p :: p in parents && p.student in students ==> p.student == students[0] || p.student in students[1..];
      first + rest
  }

  /** `User.objects.filter(user_permissions=manager)`: the users holding the
      manager permission directly. */
  function Managers(users: seq<User>): (r: seq<UserId>)
    ensures |r| <= |users|
    ensures forall u :: u in users && Manager in u.perms ==> u.id in r
    ensures forall id :: id in r ==> exists u :: u in users && Manager in u.perms && u.id == id
  {
    if |users| == 0 then []
    else
      var rest := Managers(users[1..]);
      assert forall u :: u in users[1..] ==> u in users;
      if Manager in users[0].perms then [users[0].id] + rest else rest
  }

  /** `SubjectTeachers.objects.filter(subject=...)`: the teacher rows of a
      subject (the code creates at most one, the schema allows more). */
  function SubjectTeacherRows(rows: seq<SubjectTeachers>, code: string): (r: seq<SubjectTeachers>)
    ensures |r| <= |rows|
    ensures forall t :: t in r <==> t in rows && t.subject == code
  {
    if |rows| == 0 then []
    else
      var rest := SubjectTeacherRows(rows[1..], code);
      assert forall t :: t in rows <==> t == rows[0] || t in rows[1..];
      if rows[0].subject == code then [rows[0]] + rest else rest
  }

  /** The usernames already taken. */
  function Usernames(users: seq<User>): (r: set<string>)
    ensures forall u :: u in users ==> u.username in r
    ensures forall n :: n in r ==> exists u :: u in users && u.username == n
  {
    set u | u in users :: u.username
  }

  // ---------------------------------------------------------------------
  // Keys
  // ---------------------------------------------------------------------

  predicate UniqueStudentKeys(students: seq<Student>) {
    forall i, j :: 0 <= i < j < |students| ==> students[i].user != students[j].user
  }

  predicate UniqueParentKeys(parents: seq<Parent>) {
    forall i, j :: 0 <= i < j < |parents| ==> parents[i].user != parents[j].user
  }

  predicate UniqueUserKeys(users: seq<User>) {
    forall i, j :: 0 <= i < j < |users| ==> users[i].id != users[j].id
  }

  /** What the schema guarantees of the identity tables: primary keys are
      unique and a many-to-many list never repeats a teacher. */
  predicate Wellformed(dir: Directory) {
    && UniqueUserKeys(dir.users)
    && UniqueStudentKeys(dir.students)
    && UniqueParentKeys(dir.parents)
    && (forall row :: row in dir.subjectTeachers ==> NoDuplicates(row.teachers))
  }

  /** Listing the students of a class names no student twice when student
      keys are unique. */
  lemma {:induction false} StudentsOfClassDistinct(students: seq<Student>, code: string)
    requires UniqueStudentKeys(students)
    ensures NoDuplicates(StudentsOfClass(students, code))
  {
    if |students| > 0 {
      StudentsOfClassDistinct(students[1..], code);
      var rest := StudentsOfClass(students[1..], code);
      if students[0].schoolClass == code {
        forall u | u in rest ensures u != students[0].user {
          var s :| s in students[1..] && s.schoolClass == code && s.user == u;
          var k :| 0 <= k < |students[1..]| && students[1..][k] == s;
          assert students[k + 1] == s;
        }
        ConsDistinct(students[0].user, rest);
      }
    }
  }

  /** Listing the parents of a student names no parent twice when parent
      keys are unique. */
  lemma {:induction false} ParentsOfDistinct(parents: seq<Parent>, student: UserId)
    requires UniqueParentKeys(parents)
    ensures NoDuplicates(ParentsOf(parents, student))
  {
    if |parents| > 0 {
      ParentsOfDistinct(parents[1..], student);
      var rest := ParentsOf(parents[1..], student);
      if parents[0].student == student {
        forall u | u in rest ensures u != parents[0].user {
          var p :| p in parents[1..] && p.student == student && p.user == u;
          var k :| 0 <= k < |parents[1..]| && parents[1..][k] == p;
          assert parents[k + 1] == p;
        }
        ConsDistinct(parents[0].user, rest);
      }
    }
  }

  /** The manager listing names no user twice when user keys are unique. */
  lemma {:induction false} ManagersDistinct(users: seq<User>)
    requires UniqueUserKeys(users)
    ensures NoDuplicates(Managers(users))
  {
    if |users| > 0 {
      ManagersDistinct(users[1..]);
      var rest := Managers(users[1..]);
      if Manager in users[0].perms {
        forall id | id in rest ensures id != users[0].id {
          var u :| u in users[1..] && Manager in u.perms && u.id == id;
          var k :| 0 <= k < |users[1..]| && users[1..][k] == u;
          assert users[k + 1] == u;
        }
        ConsDistinct(users[0].id, rest);
      }
    }
  }

  /** Two parent rows with the same key are the same row. */
  lemma ParentKeyDetermines(parents: seq<Parent>, p: Parent, q: Parent)
    requires UniqueParentKeys(parents)
    requires p in parents && q in parents
    ensures p.user == q.user ==> p == q
  {
    var i :| 0 <= i < |parents| && parents[i] == p;
    var j :| 0 <= j < |parents| && parents[j] == q;
  }

  /** The parents of distinct students form a list without repeats: a parent
      row names exactly one student. */
  lemma {:induction false} ParentsOfAllDistinct(parents: seq<Parent>, students: seq<UserId>)
    requires UniqueParentKeys(parents)
    requires NoDuplicates(students)
    ensures NoDuplicates(ParentsOfAll(parents, students))
  {
    if |students| > 0 {
      var first := ParentsOf(parents, students[0]);
      var tail := students[1..];
      var rest := ParentsOfAll(parents, tail);
      ParentsOfDistinct(parents, students[0]);
      ParentsOfAllDistinct(parents, tail);
      assert students[0] !in tail by {
        forall k | 0 <= k < |tail| ensures tail[k] != students[0] {
          assert tail[k] == students[k + 1];
        }
      }
      forall u | u in first ensures u !in rest {
        var p :| p in parents && p.student == students[0] && p.user == u;
        forall q | q in parents && q.student in tail ensures q.user != u {
          ParentKeyDetermines(parents, p, q);
        }
      }
      var r := first + rest;
      forall i, j | 0 <= i < j < |r| ensures r[i] != r[j] {
        if j < |first| {
          assert r[i] == first[i] && r[j] == first[j];
        } else if i >= |first| {
          assert r[i] == rest[i - |first|] && r[j] == rest[j - |first|];
        } else {
          assert r[i] in first && r[j] in rest;
        }
      }
    }
  }
}

=== FILE: forms.dfy ===
/** The field constraints of the gradebook's forms, as predicates over the
    cleaned field values (Django strips surrounding whitespace before any
    check). A view's `form_valid` runs only when its form's predicate holds;
    otherwise the view re-renders the form and writes nothing. */
module Forms {
  import opened Base
  import opened Models

  /** A `CharField` on its cleaned value. An empty value is accepted only
      when the field is optional, and then no length check runs. */
  predicate CharFieldValid(s: string, required: bool, minLength: nat, maxLength: Option<nat>) {
    if s == "" then !required
    else minLength <= |s| && (maxLength.Some? ==> |s| <= maxLength.value)
  }

  // ---------------------------------------------------------------------
  // SchoolClassForm: name and year from the model, unique_code overridden
  // ---------------------------------------------------------------------

  datatype SchoolClassForm = SchoolClassForm(name: string, year: int, uniqueCode: string)

  /** The overridden `unique_code` field: optional, at most 7 characters,
      and the same pattern as the model when given. */
  predicate ClassCodeFieldValid(s: string) {
    CharFieldValid(s, false, 0, Some(7)) && (s != "" ==> ClassCodeMatches(s))
  }

  predicate SchoolClassFormValid(f: SchoolClassForm) {
    && CharFieldValid(f.name, true, 0, Some(10))
    && YearValid(f.year)
    && ClassCodeFieldValid(f.uniqueCode)
  }

  /** A code the form accepts is one the model's validator accepts, and
      every six-character model code passes the form. */
  lemma ClassCodeFieldAgreesWithModel(s: string)
    ensures ClassCodeFieldValid(s) && s != "" ==> ClassCodeMatches(s)
    ensures ClassCodeCore(s) ==> ClassCodeFieldValid(s)
    ensures ClassCodeFieldValid("")
  {
  }

  // ---------------------------------------------------------------------
  // CreateStudentForm / CreateTeacherForm
  // ---------------------------------------------------------------------

  datatype StudentForm = StudentForm(
    name: string,
    surname: string,
    birthday: Option<Stamp>,
    firstParentName: string,
    firstParentSurname: string,
    secondParentName: string,
    secondParentSurname: string)

  /** The student's and first parent's names are required, the second
      parent's optional; every name is at most 64 characters. */
  predicate StudentFormValid(f: StudentForm) {
    && CharFieldValid(f.name, true, 0, Some(64))
    && CharFieldValid(f.surname, true, 0, Some(64))
    && f.birthday.Some?
    && CharFieldValid(f.firstParentName, true, 0, Some(64))
    && CharFieldValid(f.firstParentSurname, true, 0, Some(64))
    && CharFieldValid(f.secondParentName, false, 0, Some(64))
    && CharFieldValid(f.secondParentSurname, false, 0, Some(64))
  }

  datatype TeacherForm = TeacherForm(name: string, surname: string)

  predicate TeacherFormValid(f: TeacherForm) {
    CharFieldValid(f.name, true, 0, Some(64)) && CharFieldValid(f.surname, true, 0, Some(64))
  }

  // ---------------------------------------------------------------------
  // CreateSubjectForm
  // ---------------------------------------------------------------------

  datatype SubjectForm = SubjectForm(name: string, shortcut: string, teachers: seq<UserId>)

  /** `teachers` may be empty; every chosen teacher must be an active one. */
  predicate SubjectFormValid(f: SubjectForm, teachers: seq<Teacher>) {
    && CharFieldValid(f.name, true, 0, Some(128))
    && CharFieldValid(f.shortcut, true, 0, Some(2))
    && (forall u :: u in f.teachers ==> exists t :: t in teachers && t.user == u && t.active)
  }

  // ---------------------------------------------------------------------
  // AddGradeForm, AddSubjectDateForm, MessageForm
  // ---------------------------------------------------------------------

  /** AddGradeForm exposes only `grade`; its range comes from the model field. */
  predicate GradeFormValid(value: int) {
    GradeValueValid(value)
  }

  predicate SubjectDateFormValid(day: string, lesson: int) {
    DayValid(day) && LessonValid(lesson)
  }

  /** Subject line at most 128 characters, text at most 1024; both required. */
  predicate MessageFormValid(subject: string, text: string) {
    CharFieldValid(subject, true, 0, Some(128)) && CharFieldValid(text, true, 0, Some(1024))
  }

  // ---------------------------------------------------------------------
  // LoginForm / FirstLoginForm
  // ---------------------------------------------------------------------

  predicate LoginFormValid(username: string, password: string) {
    CharFieldValid(username, true, 0, None) && CharFieldValid(password, true, 5, None)
  }

  /** Both passwords need five characters; that they agree is checked by the
      view, not the form. */
  predicate FirstLoginFormValid(username: string, password: string, confirm: string) {
    && CharFieldValid(username, true, 0, None)
    && CharFieldValid(password, true, 5, None)
    && CharFieldValid(confirm, true, 5, None)
  }

  /** A password field with `min_length=5` accepts exactly the passwords of
      five characters or more. */
  lemma PasswordFieldBound(username: string, password: string, confirm: string)
    ensures LoginFormValid(username, password) <==> username != "" && |password| >= 5
    ensures FirstLoginFormValid(username, password, confirm) <==>
              username != "" && |password| >= 5 && |confirm| >= 5
  {
  }

  /** Leaving out the second parent never invalidates a student form. */
  lemma SecondParentOptional(f: StudentForm)
    requires StudentFormValid(f)
    ensures StudentFormValid(f.(secondParentName := "", secondParentSurname := ""))
  {
  }
}

=== FILE: ledger.dfy ===
/** The grade ledger: adding a grade (teacher and manager paths) and a
    manager cancelling one. Either way the student is told through one
    unread inbox entry from the acting user. */
module Ledger {
  import opened Base
  import opened Models
  import opened Directory
  import opened Database
  import opened Mailbox

  /** Grade ids are keys of their table. */
  predicate UniqueGradeIds(grades: seq<Grade>) {
    forall i, j :: 0 <= i < j < |grades| ==> grades[i].id != grades[j].id
  }

  /** What the ledger keeps true: ids are below the counter, grade ids are
      unique, and every live or cancelled grade is in 1..5. */
  predicate LedgerValid(st: Store) {
    && IdsBelow(st)
    && UniqueGradeIds(st.grades)
    && (forall g :: g in st.grades ==> GradeValueValid(g.value))
    && (forall c :: c in st.canceled ==> GradeValueValid(c.value))
  }

  // ---------------------------------------------------------------------
  // Lookup and removal by id
  // ---------------------------------------------------------------------

  /** `get_object_or_404(Grades, id=...)` without the 404. */
  function FindGrade(grades: seq<Grade>, id: Id): (r: Option<Grade>)
    ensures r.Some? ==> r.value in grades && r.value.id == id
    ensures r.None? <==> forall g :: g in grades ==> g.id != id
  {
    if |grades| == 0 then None
    else if grades[0].id == id then Some(grades[0])
    else
      assert forall g :: g in grades[1..] ==> g in grades;
      FindGrade(grades[1..], id)
  }

  /** `grade.delete()`: the table without the rows carrying that id. */
  function Without(grades: seq<Grade>, id: Id): (r: seq<Grade>)
    ensures forall g :: g in r <==> g in grades && g.id != id
    ensures |r| <= |grades|
  {
    if |grades| == 0 then []
    else
      var rest := Without(grades[1..], id);
      assert forall g :: g in grades <==> g == grades[0] || g in grades[1..];
      if grades[0].id == id then rest else [grades[0]] + rest
  }

  /** Removing an id no row carries changes nothing. */
  lemma {:induction false} WithoutAbsent(grades: seq<Grade>, id: Id)
    requires forall g :: g in grades ==> g.id != id
    ensures Without(grades, id) == grades
  {
    if |grades| > 0 {
      assert grades[0] in grades;
      assert forall g :: g in grades[1..] ==> g in grades;
      WithoutAbsent(grades[1..], id);
      assert [grades[0]] + grades[1..] == grades;
    }
  }

  /** Removing a key present once drops exactly one row, and what is left
      keeps unique keys. */
  lemma {:induction false} WithoutPresent(grades: seq<Grade>, id: Id)
    requires UniqueGradeIds(grades)
    requires exists g :: g in grades && g.id == id
    ensures |Without(grades, id)| == |grades| - 1
    ensures UniqueGradeIds(Without(grades, id))
  {
    var tail := grades[1..];
    UniqueTail(grades);
    if grades[0].id == id {
      WithoutAbsent(tail, id);
    } else {
      var g :| g in grades && g.id == id;
      assert g in tail;
      WithoutPresent(tail, id);
      ConsUniqueIds(grades[0], Without(tail, id));
    }
  }

  /** The rows after the first keep unique keys, none of them the first's. */
  lemma UniqueTail(grades: seq<Grade>)
    requires UniqueGradeIds(grades) && |grades| > 0
    ensures UniqueGradeIds(grades[1..])
    ensures forall g :: g in grades[1..] ==> g.id != grades[0].id
  {
    var tail := grades[1..];
    forall i, j | 0 <= i < j < |tail| ensures tail[i].id != tail[j].id {
      assert tail[i] == grades[i + 1] && tail[j] == grades[j + 1];
    }
    forall g | g in tail ensures g.id != grades[0].id {
      var k :| 0 <= k < |tail| && tail[k] == g;
      assert grades[k + 1] == g;
    }
  }

  /** A row whose key no other row carries can go in front. */
  lemma ConsUniqueIds(x: Grade, rest: seq<Grade>)
    requires UniqueGradeIds(rest)
    requires forall h :: h in rest ==> h.id != x.id
    ensures UniqueGradeIds([x] + rest)
  {
    var r := [x] + rest;
    forall i, j | 0 <= i < j < |r| ensures r[i].id != r[j].id {
      assert r[j] == rest[j - 1];
      if i == 0 {
        assert r[j] in rest;
      } else {
        assert r[i] == rest[i - 1];
      }
    }
  }

  // ---------------------------------------------------------------------
  // Adding
  // ---------------------------------------------------------------------

  /** A grade's notification: Message and Sender from the actor, then one
      Recipient and one unread inbox entry for the student. No sent row is
      written. */
  function Notify(st: Store, actor: UserId, student: UserId, content: Content, now: Stamp): (r: Store)
    ensures r.messages == st.messages + [Message(st.nextId, content, now)]
    ensures |r.senders| == |st.senders| + 1 && r.senders[..|st.senders|] == st.senders
    ensures r.senders[|st.senders|].user == actor && r.senders[|st.senders|].message == st.nextId
    ensures |r.recipients| == |st.recipients| + 1 && r.recipients[..|st.recipients|] == st.recipients
    ensures r.recipients[|st.recipients|].user == student && r.recipients[|st.recipients|].message == st.nextId
    ensures |r.received| == |st.received| + 1 && r.received[..|st.received|] == st.received
    ensures !r.received[|st.received|].read && r.received[|st.received|].message == st.nextId
    ensures r.received[|st.received|].sender == r.senders[|st.senders|].id
    ensures r.received[|st.received|].recipient == r.recipients[|st.recipients|].id
    ensures r.sent == st.sent && r.grades == st.grades && r.canceled == st.canceled
    ensures r.dir == st.dir && r.dates == st.dates
    ensures r.nextId > st.nextId
  {
    var t := Post(st, actor, content, now);
    Deliver(t.st, t.sender, t.message, [student])
  }

  /** The notification is addressed to the student and keeps the ids below
      the counter. */
  lemma NotifyReachesStudent(st: Store, actor: UserId, student: UserId, content: Content, now: Stamp)
    requires IdsBelow(st)
    ensures var r := Notify(st, actor, student, content, now);
            IdsBelow(r) && OwnedBy(r, r.received[|st.received|], student)
  {
    var t := Post(st, actor, content, now);
    DeliverPreservesIds(t.st, t.sender, t.message, [student]);
    DeliveredToAudience(t.st, t.sender, t.message, [student], 0);
  }

  /** `form_valid` of the teacher's subject page (`managerMode` false) and
      of the manager's student page (`managerMode` true): both fetch the
      subject and the student, save the grade dated today and notify the
      student. Neither checks that the student is in the subject's class. */
  function AddGrade(st: Store, actor: UserId, subjectCode: string, student: UserId, value: int,
                    managerMode: bool, now: Stamp): (r: Result<Store>)
    ensures r.Err? <==> (|| !GradeValueValid(value)
                         || FindSubject(st.dir.subjects, subjectCode).None?
                         || FindStudent(st.dir.students, student).None?)
    ensures r.Err? ==> r.error == (if GradeValueValid(value) then NotFound else Invalid)
    ensures r.Ok? ==> |r.value.grades| == |st.grades| + 1 && r.value.grades[..|st.grades|] == st.grades
    ensures r.Ok? ==> var g := r.value.grades[|st.grades|];
                      && g.value == value && g.student == student && g.subject == subjectCode
                      && g.date == now && g.managerMode == managerMode
                      && (IdsBelow(st) ==> forall h :: h in st.grades ==> h.id != g.id)
    ensures r.Ok? ==> r.value.canceled == st.canceled && r.value.sent == st.sent
    ensures r.Ok? ==> SameDirectoryAndTimetable(st, r.value)
    ensures r.Ok? ==> |r.value.messages| == |st.messages| + 1
                      && r.value.messages[..|st.messages|] == st.messages
                      && r.value.messages[|st.messages|].content == NewGrade(subjectCode, value)
    ensures r.Ok? ==> |r.value.received| == |st.received| + 1
                      && r.value.received[..|st.received|] == st.received
                      && !r.value.received[|st.received|].read
    ensures r.Ok? ==> |r.value.senders| == |st.senders| + 1 && r.value.senders[|st.senders|].user == actor
                      && r.value.senders[..|st.senders|] == st.senders
    ensures r.Ok? ==> |r.value.recipients| == |st.recipients| + 1
                      && r.value.recipients[..|st.recipients|] == st.recipients
    ensures r.Ok? ==> && r.value.received[|st.received|].message == r.value.messages[|st.messages|].id
                      && r.value.received[|st.received|].sender == r.value.senders[|st.senders|].id
                      && r.value.senders[|st.senders|].message == r.value.messages[|st.messages|].id
    ensures r.Ok? && IdsBelow(st) ==> OwnedBy(r.value, r.value.received[|st.received|], student)
  {
    if !GradeValueValid(value) then Err(Invalid)
    else if FindSubject(st.dir.subjects, subjectCode).None? then Err(NotFound)
    else if FindStudent(st.dir.students, student).None? then Err(NotFound)
    else
      var g := Grade(st.nextId, value, student, subjectCode, now, managerMode);
      var withGrade := st.(grades := st.grades + [g], nextId := st.nextId + 1);
      NoticeAfterGrade(st, g, actor, NewGrade(subjectCode, value), now);
      Ok(Notify(withGrade, actor, student, NewGrade(subjectCode, value), now))
  }

  /** The notice written after a new grade row reaches the grade's student. */
  lemma NoticeAfterGrade(st: Store, g: Grade, actor: UserId, content: Content, now: Stamp)
    requires g.id == st.nextId
    ensures var withGrade := st.(grades := st.grades + [g], nextId := st.nextId + 1);
            var r := Notify(withGrade, actor, g.student, content, now);
            IdsBelow(st) ==> OwnedBy(r, r.received[|st.received|], g.student)
  {
    if IdsBelow(st) {
      IdsBelowAfterGrade(st, g);
      NotifyReachesStudent(st.(grades := st.grades + [g], nextId := st.nextId + 1), actor, g.student, content, now);
    }
  }

  // ---------------------------------------------------------------------
  // Cancelling
  // ---------------------------------------------------------------------

  /** The `del_grade` branch of the manager's student page: the grade is
      copied to the cancelled table (its date re-stamped to today), the
      student is notified and the grade is deleted. An unknown id is a 404
      before anything is written. A copy whose value is out of range fails
      its `full_clean` (a ValidationError), and as the copy is the first
      write nothing is written then either. */
  function CancelGrade(st: Store, actor: UserId, gradeId: Id, now: Stamp): (r: Result<Store>)
    ensures r.Err? <==> || (forall g :: g in st.grades ==> g.id != gradeId)
                        || (FindGrade(st.grades, gradeId).Some? && !GradeValueValid(FindGrade(st.grades, gradeId).value.value))
    ensures r.Err? ==> r.error == (if FindGrade(st.grades, gradeId).None? then NotFound else Invalid)
    ensures (forall g :: g in st.grades ==> GradeValueValid(g.value)) ==>
              (r.Err? <==> forall g :: g in st.grades ==> g.id != gradeId)
    ensures r.Ok? ==> forall g :: g in r.value.grades <==> g in st.grades && g.id != gradeId
    ensures r.Ok? ==> |r.value.canceled| == |st.canceled| + 1 && r.value.canceled[..|st.canceled|] == st.canceled
    ensures r.Ok? ==> |r.value.messages| == |st.messages| + 1 && r.value.messages[..|st.messages|] == st.messages
    ensures r.Ok? ==> var c := r.value.canceled[|st.canceled|];
                      exists g :: g in st.grades && g.id == gradeId
                                  && c.value == g.value && c.student == g.student && c.subject == g.subject
                                  && c.date == now
                                  && r.value.messages[|st.messages|].content == GradeCanceled(g.subject, g.value)
    ensures r.Ok? ==> |r.value.received| == |st.received| + 1
                      && r.value.received[..|st.received|] == st.received
                      && !r.value.received[|st.received|].read
    ensures r.Ok? ==> r.value.sent == st.sent && SameDirectoryAndTimetable(st, r.value)
    ensures r.Ok? ==> |r.value.senders| == |st.senders| + 1 && r.value.senders[|st.senders|].user == actor
                      && r.value.senders[..|st.senders|] == st.senders
    ensures r.Ok? ==> |r.value.recipients| == |st.recipients| + 1
                      && r.value.recipients[..|st.recipients|] == st.recipients
    ensures r.Ok? ==> && r.value.received[|st.received|].message == r.value.messages[|st.messages|].id
                      && r.value.received[|st.received|].sender == r.value.senders[|st.senders|].id
                      && r.value.senders[|st.senders|].message == r.value.messages[|st.messages|].id
    ensures r.Ok? && IdsBelow(st) ==>
              OwnedBy(r.value, r.value.received[|st.received|], FindGrade(st.grades, gradeId).value.student)
  {
    match FindGrade(st.grades, gradeId)
    case None => Err(NotFound)
    case Some(g) =>
      if !GradeValueValid(g.value) then Err(Invalid)
      else
        NoticeAfterCopy(st, g, actor, now);
        Ok(CancelWrites(st, actor, g, now))
  }

  /** The cancellation notice reaches the cancelled grade's student. */
  lemma NoticeAfterCopy(st: Store, g: Grade, actor: UserId, now: Stamp)
    ensures var r := CancelWrites(st, actor, g, now);
            IdsBelow(st) ==> OwnedBy(r, r.received[|st.received|], g.student)
  {
    if IdsBelow(st) {
      var c := CanceledGrade(st.nextId, g.value, g.student, g.subject, now);
      IdsBelowAfterCopy(st, c);
      NotifyReachesStudent(st.(canceled := st.canceled + [c], nextId := st.nextId + 1), actor, g.student,
                           GradeCanceled(g.subject, g.value), now);
    }
  }

  /** The writes of a cancellation: the dated copy, the notice to the
      student, then the deletion of the grade row. */
  function CancelWrites(st: Store, actor: UserId, g: Grade, now: Stamp): Store
  {
    var c := CanceledGrade(st.nextId, g.value, g.student, g.subject, now);
    var withCopy := st.(canceled := st.canceled + [c], nextId := st.nextId + 1);
    var notified := Notify(withCopy, actor, g.student, GradeCanceled(g.subject, g.value), now);
    notified.(grades := Without(notified.grades, g.id))
  }

  // ---------------------------------------------------------------------
  // Properties
  // ---------------------------------------------------------------------

  /** Both operations keep the ledger invariant. */
  lemma AddGradePreserves(st: Store, actor: UserId, subjectCode: string, student: UserId, value: int,
                          managerMode: bool, now: Stamp)
    requires LedgerValid(st)
    requires AddGrade(st, actor, subjectCode, student, value, managerMode, now).Ok?
    ensures LedgerValid(AddGrade(st, actor, subjectCode, student, value, managerMode, now).value)
  {
    var g := Grade(st.nextId, value, student, subjectCode, now, managerMode);
    GradeKeepsValid(st, g);
    var withGrade := st.(grades := st.grades + [g], nextId := st.nextId + 1);
    NotifyKeepsValid(withGrade, actor, student, NewGrade(subjectCode, value), now);
  }

  lemma GradeKeepsValid(st: Store, g: Grade)
    requires LedgerValid(st) && g.id == st.nextId && GradeValueValid(g.value)
    ensures LedgerValid(st.(grades := st.grades + [g], nextId := st.nextId + 1))
  {
    IdsBelowAfterGrade(st, g);
    AppendFreshKeepsUnique(st.grades, g);
  }

  lemma CancelGradePreserves(st: Store, actor: UserId, gradeId: Id, now: Stamp)
    requires LedgerValid(st)
    requires CancelGrade(st, actor, gradeId, now).Ok?
    ensures LedgerValid(CancelGrade(st, actor, gradeId, now).value)
  {
    var g := FindGrade(st.grades, gradeId).value;
    CancelStepsValid(st, actor, g, now);
  }

  /** The three writes of a cancellation each keep the ledger valid. */
  lemma CancelStepsValid(st: Store, actor: UserId, g: Grade, now: Stamp)
    requires LedgerValid(st) && g in st.grades
    ensures LedgerValid(CancelWrites(st, actor, g, now))
  {
    var c := CanceledGrade(st.nextId, g.value, g.student, g.subject, now);
    CopyKeepsValid(st, c);
    var withCopy := st.(canceled := st.canceled + [c], nextId := st.nextId + 1);
    NotifyKeepsValid(withCopy, actor, g.student, GradeCanceled(g.subject, g.value), now);
    WithoutKeepsValid(Notify(withCopy, actor, g.student, GradeCanceled(g.subject, g.value), now), g.id);
  }

  lemma CopyKeepsValid(st: Store, c: CanceledGrade)
    requires LedgerValid(st) && c.id == st.nextId && GradeValueValid(c.value)
    ensures LedgerValid(st.(canceled := st.canceled + [c], nextId := st.nextId + 1))
  {
    IdsBelowAfterCopy(st, c);
  }

  lemma NotifyKeepsValid(st: Store, actor: UserId, student: UserId, content: Content, now: Stamp)
    requires LedgerValid(st)
    ensures LedgerValid(Notify(st, actor, student, content, now))
  {
    NotifyReachesStudent(st, actor, student, content, now);
  }

  /** Deleting the row with a present id keeps the ledger valid. */
  lemma WithoutKeepsValid(st: Store, gradeId: Id)
    requires LedgerValid(st)
    requires exists g :: g in st.grades && g.id == gradeId
    ensures LedgerValid(st.(grades := Without(st.grades, gradeId)))
  {
    WithoutPresent(st.grades, gradeId);
  }

  lemma AppendFreshKeepsUnique(grades: seq<Grade>, g: Grade)
    requires UniqueGradeIds(grades)
    requires forall h :: h in grades ==> h.id != g.id
    ensures UniqueGradeIds(grades + [g])
  {
    var all := grades + [g];
    forall i, j | 0 <= i < j < |all| ensures all[i].id != all[j].id {
      if j == |grades| {
        assert all[i] in grades;
      } else {
        assert all[i] == grades[i] && all[j] == grades[j];
      }
    }
  }

  lemma IdsBelowAfterGrade(st: Store, g: Grade)
    requires IdsBelow(st) && g.id == st.nextId
    ensures IdsBelow(st.(grades := st.grades + [g], nextId := st.nextId + 1))
  {
  }

  lemma IdsBelowAfterCopy(st: Store, c: CanceledGrade)
    requires IdsBelow(st) && c.id == st.nextId
    ensures IdsBelow(st.(canceled := st.canceled + [c], nextId := st.nextId + 1))
  {
  }

  /** A notice's Sender row is the only one for its Message. */
  lemma NotifyKeepsOneSender(st: Store, actor: UserId, student: UserId, content: Content, now: Stamp)
    requires IdsBelow(st) && OneSenderPerMessage(st.senders)
    ensures OneSenderPerMessage(Notify(st, actor, student, content, now).senders)
  {
    AppendSenderKeepsOne(st.senders, Notify(st, actor, student, content, now).senders);
  }

  /** Adding a grade keeps Sender one-to-one with Message. */
  lemma AddGradeKeepsOneSender(st: Store, actor: UserId, subjectCode: string, student: UserId, value: int,
                               managerMode: bool, now: Stamp)
    requires IdsBelow(st) && OneSenderPerMessage(st.senders)
    ensures var r := AddGrade(st, actor, subjectCode, student, value, managerMode, now);
            r.Ok? ==> OneSenderPerMessage(r.value.senders)
  {
    var g := Grade(st.nextId, value, student, subjectCode, now, managerMode);
    IdsBelowAfterGrade(st, g);
    NotifyKeepsOneSender(st.(grades := st.grades + [g], nextId := st.nextId + 1), actor, student,
                         NewGrade(subjectCode, value), now);
  }

  /** Cancelling a grade keeps Sender one-to-one with Message. */
  lemma CancelGradeKeepsOneSender(st: Store, actor: UserId, gradeId: Id, now: Stamp)
    requires IdsBelow(st) && OneSenderPerMessage(st.senders)
    ensures var r := CancelGrade(st, actor, gradeId, now);
            r.Ok? ==> OneSenderPerMessage(r.value.senders)
  {
    if FindGrade(st.grades, gradeId).Some? {
      var g := FindGrade(st.grades, gradeId).value;
      var c := CanceledGrade(st.nextId, g.value, g.student, g.subject, now);
      IdsBelowAfterCopy(st, c);
      NotifyKeepsOneSender(st.(canceled := st.canceled + [c], nextId := st.nextId + 1), actor, g.student,
                           GradeCanceled(g.subject, g.value), now);
    }
  }

  /** A cancelled grade is gone: cancelling it again is a 404. */
  lemma CancelTwice(st: Store, actor: UserId, gradeId: Id, now: Stamp, later: Stamp)
    requires CancelGrade(st, actor, gradeId, now).Ok?
    ensures CancelGrade(CancelGrade(st, actor, gradeId, now).value, actor, gradeId, later) == Err(NotFound)
  {
  }

  /** Cancelling moves a grade rather than dropping it: with unique ids the
      live and cancelled tables together keep their size. */
  lemma CancelConserves(st: Store, actor: UserId, gradeId: Id, now: Stamp)
    requires UniqueGradeIds(st.grades)
    requires CancelGrade(st, actor, gradeId, now).Ok?
    ensures var after := CancelGrade(st, actor, gradeId, now).value;
            |after.grades| + |after.canceled| == |st.grades| + |st.canceled|
  {
    WithoutPresent(st.grades, gradeId);
  }

  /** Cancelling the grade just added restores the live grades and files
      the same grade among the cancelled ones. */
  lemma AddThenCancel(st: Store, actor: UserId, subjectCode: string, student: UserId, value: int,
                      managerMode: bool, now: Stamp, later: Stamp)
    requires IdsBelow(st)
    requires AddGrade(st, actor, subjectCode, student, value, managerMode, now).Ok?
    ensures var added := AddGrade(st, actor, subjectCode, student, value, managerMode, now).value;
            var r := CancelGrade(added, actor, st.nextId, later);
            && r.Ok?
            && r.value.grades == st.grades
            && r.value.canceled == st.canceled + [CanceledGrade(added.nextId, value, student, subjectCode, later)]
  {
    var added := AddGrade(st, actor, subjectCode, student, value, managerMode, now).value;
    var g := added.grades[|st.grades|];
    assert added.grades == st.grades + [g];
    assert g in added.grades;
    assert FindGrade(added.grades, st.nextId) == Some(g) by {
      FindGradeLast(st.grades, g);
    }
    assert Without(added.grades, st.nextId) == st.grades by {
      WithoutLast(st.grades, g);
    }
  }

  lemma {:induction false} FindGradeLast(grades: seq<Grade>, g: Grade)
    requires forall h :: h in grades ==> h.id != g.id
    ensures FindGrade(grades + [g], g.id) == Some(g)
  {
    if |grades| > 0 {
      assert (grades + [g])[1..] == grades[1..] + [g];
      assert grades[0] in grades;
      assert forall h :: h in grades[1..] ==> h in grades;
      FindGradeLast(grades[1..], g);
    }
  }

  lemma {:induction false} WithoutLast(grades: seq<Grade>, g: Grade)
    requires forall h :: h in grades ==> h.id != g.id
    ensures Without(grades + [g], g.id) == grades
  {
    if |grades| == 0 {
      assert [g][1..] == [];
    } else {
      assert (grades + [g])[1..] == grades[1..] + [g];
      assert grades[0] in grades;
      assert forall h :: h in grades[1..] ==> h in grades;
      WithoutLast(grades[1..], g);
      assert [grades[0]] + grades[1..] == grades;
    }
  }
}

=== FILE: mailbox.dfy ===
/** The mail rows every sending path writes, the unread counter shown on
    every page, and opening a mail. */
module Mailbox {
  import opened Base
  import opened Models
  import opened Database

  // ---------------------------------------------------------------------
  // Resolving an inbox entry to its owner (recipient__user)
  // ---------------------------------------------------------------------

  /** The user of the Recipient row with key `rid`. */
  function RecipientUser(recipients: seq<Recipient>, rid: Id): (r: Option<UserId>)
    ensures r.Some? ==> exists x :: x in recipients && x.id == rid && x.user == r.value
    ensures r.None? <==> forall x :: x in recipients ==> x.id != rid
  {
    if |recipients| == 0 then None
    else if recipients[0].id == rid then Some(recipients[0].user)
    else RecipientUser(recipients[1..], rid)
  }

  lemma {:induction false} RecipientUserFirstMatch(recipients: seq<Recipient>, i: nat)
    requires i < |recipients|
    requires forall k :: 0 <= k < i ==> recipients[k].id != recipients[i].id
    ensures RecipientUser(recipients, recipients[i].id) == Some(recipients[i].user)
  {
    if i > 0 {
      RecipientUserFirstMatch(recipients[1..], i - 1);
    }
  }

  /** True when the entry is addressed to `user`. */
  predicate OwnedBy(st: Store, e: MailboxReceived, user: UserId) {
    RecipientUser(st.recipients, e.recipient) == Some(user)
  }

  // ---------------------------------------------------------------------
  // Writing
  // ---------------------------------------------------------------------

  /** A saved Message and its Sender. */
  datatype Thread = Thread(st: Store, message: Id, sender: Id)

  /** Saves the message and the acting user as its one sender. */
  function Post(st: Store, actor: UserId, content: Content, now: Stamp): (t: Thread)
    ensures t.st.messages == st.messages + [Message(t.message, content, now)]
    ensures t.st.senders == st.senders + [Sender(t.sender, actor, t.message)]
    ensures t.st.recipients == st.recipients && t.st.received == st.received && t.st.sent == st.sent
    ensures t.st.dir == st.dir && t.st.dates == st.dates
    ensures t.st.grades == st.grades && t.st.canceled == st.canceled
    ensures IdsBelow(st) ==> IdsBelow(t.st)
    ensures IdsBelow(st) ==> forall m :: m in st.messages ==> m.id != t.message
    ensures IdsBelow(st) ==> forall e :: e in st.received ==> e.message != t.message
    ensures st.nextId <= t.message < t.sender < t.st.nextId
  {
    var m := st.nextId;
    Thread(
      st.(messages := st.messages + [Message(m, content, now)],
          senders := st.senders + [Sender(m + 1, actor, m)],
          nextId := m + 2),
      m, m + 1)
  }

  /** The one-to-one link of Sender to Message: no message has two
      senders. */
  predicate OneSenderPerMessage(senders: seq<Sender>) {
    forall i, j :: 0 <= i < j < |senders| ==> senders[i].message != senders[j].message
  }

  /** A sender row for a message no earlier sender names keeps the link
      one-to-one. */
  lemma AppendSenderKeepsOne(before: seq<Sender>, after: seq<Sender>)
    requires OneSenderPerMessage(before)
    requires |after| == |before| + 1 && after[..|before|] == before
    requires forall s :: s in before ==> s.message != after[|before|].message
    ensures OneSenderPerMessage(after)
  {
    forall i, j | 0 <= i < j < |after| ensures after[i].message != after[j].message {
      assert after[i] == before[i];
      if j < |before| {
        assert after[j] == before[j];
      } else {
        assert before[i] in before;
      }
    }
  }

  /** Posting a message under the id counter gives it its only sender. */
  lemma PostKeepsOneSender(st: Store, actor: UserId, content: Content, now: Stamp)
    requires IdsBelow(st) && OneSenderPerMessage(st.senders)
    ensures OneSenderPerMessage(Post(st, actor, content, now).st.senders)
  {
    var t := Post(st, actor, content, now);
    assert t.st.senders[..|st.senders|] == st.senders;
    AppendSenderKeepsOne(st.senders, t.st.senders);
  }

  /** The Recipient rows of a fan-out: the i-th user gets key `first + 2i`. */
  function FanOutRecipients(first: Id, message: Id, users: seq<UserId>): (r: seq<Recipient>)
    ensures |r| == |users|
  {
    seq(|users|, i requires 0 <= i < |users| => Recipient(first + 2 * i, users[i], message))
  }

  /** The inbox rows of a fan-out: the i-th one, key `first + 2i + 1`,
      points at the i-th Recipient row. */
  function FanOutEntries(first: Id, sender: Id, message: Id, n: nat): (r: seq<MailboxReceived>)
    ensures |r| == n
  {
    seq(n, i requires 0 <= i < n => MailboxReceived(first + 2 * i + 1, sender, first + 2 * i, message, false))
  }

  /** One Recipient row and one unread MailboxReceived row for each listed
      user, in order, all bound to the same sender and message; nothing else
      changes. */
  function Deliver(st: Store, sender: Id, message: Id, users: seq<UserId>): (r: Store)
    ensures r.nextId == st.nextId + 2 * |users|
    ensures |r.recipients| == |st.recipients| + |users|
    ensures |r.received| == |st.received| + |users|
    ensures r.recipients[..|st.recipients|] == st.recipients
    ensures r.received[..|st.received|] == st.received
    ensures forall i :: |st.received| <= i < |r.received| ==>
              && !r.received[i].read
              && r.received[i].sender == sender
              && r.received[i].message == message
    ensures r == st.(recipients := r.recipients, received := r.received, nextId := r.nextId)
  {
    st.(recipients := st.recipients + FanOutRecipients(st.nextId, message, users),
        received := st.received + FanOutEntries(st.nextId, sender, message, |users|),
        nextId := st.nextId + 2 * |users|)
  }

  /** Every delivered entry is addressed to the user it was written for:
      its recipient row resolves to that user. */
  lemma DeliveredToAudience(st: Store, sender: Id, message: Id, users: seq<UserId>, i: nat)
    requires IdsBelow(st)
    requires i < |users|
    ensures var r := Deliver(st, sender, message, users);
            OwnedBy(r, r.received[|st.received| + i], users[i])
  {
    var r := Deliver(st, sender, message, users);
    var recs := r.recipients;
    var added := FanOutRecipients(st.nextId, message, users);
    assert recs == st.recipients + added;
    var j := |st.recipients| + i;
    assert recs[j] == added[i];
    forall k | 0 <= k < j ensures recs[k].id != recs[j].id {
      if k < |st.recipients| {
        assert recs[k] == st.recipients[k];
        assert st.recipients[k] in st.recipients;
      } else {
        assert recs[k] == added[k - |st.recipients|];
      }
    }
    RecipientUserFirstMatch(recs, j);
    assert r.received[|st.received| + i] == FanOutEntries(st.nextId, sender, message, |users|)[i];
  }

  /** Delivery with a known sender and message keeps every id below the
      counter. */
  lemma DeliverPreservesIds(st: Store, sender: Id, message: Id, users: seq<UserId>)
    requires IdsBelow(st)
    requires sender < st.nextId && message < st.nextId
    ensures IdsBelow(Deliver(st, sender, message, users))
  {
    var r := Deliver(st, sender, message, users);
    var added := FanOutRecipients(st.nextId, message, users);
    var entries := FanOutEntries(st.nextId, sender, message, |users|);
    forall x | x in r.recipients ensures x.id < r.nextId && x.message < r.nextId {
      if x !in st.recipients {
        assert x in added;
      }
    }
    forall e | e in r.received
      ensures e.id < r.nextId && e.sender < r.nextId && e.recipient < r.nextId && e.message < r.nextId
    {
      if e !in st.received {
        assert e in entries;
      }
    }
  }

  // ---------------------------------------------------------------------
  // Unread counter
  // ---------------------------------------------------------------------

  function CountUnread(received: seq<MailboxReceived>, recipients: seq<Recipient>, user: UserId): (n: nat)
    ensures n <= |received|
  {
    if |received| == 0 then 0
    else
      CountUnread(received[..|received| - 1], recipients, user)
      + (var e := received[|received| - 1];
         if !e.read && RecipientUser(recipients, e.recipient) == Some(user) then 1 else 0)
  }

  /** The positions of the user's unread entries. */
  ghost function UnreadAt(received: seq<MailboxReceived>, recipients: seq<Recipient>, user: UserId): set<nat>
  {
    set i: nat | i < |received| && !received[i].read && RecipientUser(recipients, received[i].recipient) == Some(user)
  }

  /** The number shown as `unread`: the user's inbox entries with `read` still false. */
  function UnreadCount(st: Store, user: UserId): (n: nat)
    ensures n == |UnreadAt(st.received, st.recipients, user)|
    ensures n > 0 <==> exists e :: e in st.received && !e.read && OwnedBy(st, e, user)
    ensures n <= |st.received|
    ensures n == 0 <== forall e :: e in st.received ==> e.read
  {
    UnreadLemma(st.received, st.recipients, user);
    CountUnreadExact(st.received, st.recipients, user);
    UnreadSomewhere(st, user);
    CountUnread(st.received, st.recipients, user)
  }

  /** The counter counts exactly the positions of the user's unread entries. */
  lemma {:induction false} CountUnreadExact(received: seq<MailboxReceived>, recipients: seq<Recipient>, user: UserId)
    ensures CountUnread(received, recipients, user) == |UnreadAt(received, recipients, user)|
  {
    if |received| > 0 {
      var last := |received| - 1;
      var init := received[..last];
      CountUnreadExact(init, recipients, user);
      UnreadAtSnocCount(received, recipients, user);
    }
  }

  /** The size of that step: one more position exactly when the last entry
      is the user's and unread. */
  lemma UnreadAtSnocCount(received: seq<MailboxReceived>, recipients: seq<Recipient>, user: UserId)
    requires |received| > 0
    ensures var last := |received| - 1;
            var e := received[last];
            |UnreadAt(received, recipients, user)|
              == |UnreadAt(received[..last], recipients, user)|
                 + (if !e.read && RecipientUser(recipients, e.recipient) == Some(user) then 1 else 0)
  {
    var last := |received| - 1;
    var e := received[last];
    UnreadAtSnoc(received, recipients, user);
    if !e.read && RecipientUser(recipients, e.recipient) == Some(user) {
      AddFreshCard(UnreadAt(received[..last], recipients, user), last);
    }
  }

  lemma AddFreshCard(s: set<nat>, x: nat)
    requires x !in s
    ensures |s + {x}| == |s| + 1
  {
  }

  /** One more entry adds its own position when it is the user's and unread. */
  lemma UnreadAtSnoc(received: seq<MailboxReceived>, recipients: seq<Recipient>, user: UserId)
    requires |received| > 0
    ensures var last := |received| - 1;
            var e := received[last];
            && last !in UnreadAt(received[..last], recipients, user)
            && UnreadAt(received, recipients, user)
               == UnreadAt(received[..last], recipients, user)
                  + (if !e.read && RecipientUser(recipients, e.recipient) == Some(user) then {last} else {})
  {
    var last := |received| - 1;
    var init := received[..last];
    forall i: nat | i < last ensures received[i] == init[i] { }
  }

  /** Some position is counted exactly when some unread entry is the user's. */
  lemma UnreadSomewhere(st: Store, user: UserId)
    ensures (|UnreadAt(st.received, st.recipients, user)| > 0) <==> (exists e :: e in st.received && !e.read && OwnedBy(st, e, user))
  {
    var at := UnreadAt(st.received, st.recipients, user);
    if |at| > 0 {
      var i :| i in at;
      assert st.received[i] in st.received;
    }
    if exists e :: e in st.received && !e.read && OwnedBy(st, e, user) {
      var e :| e in st.received && !e.read && OwnedBy(st, e, user);
      var i :| 0 <= i < |st.received| && st.received[i] == e;
      assert i in at;
    }
  }

  lemma {:induction false} UnreadLemma(received: seq<MailboxReceived>, recipients: seq<Recipient>, user: UserId)
    ensures (forall e :: e in received ==> e.read) ==> CountUnread(received, recipients, user) == 0
  {
    if |received| > 0 {
      var init := received[..|received| - 1];
      assert forall e :: e in init ==> e in received;
      UnreadLemma(init, recipients, user);
    }
  }

  // ---------------------------------------------------------------------
  // Opening a mail
  // ---------------------------------------------------------------------

  /** Sets `read` on every inbox row with key `id` (the UPDATE of `save`). */
  function MarkRead(received: seq<MailboxReceived>, id: Id): (r: seq<MailboxReceived>)
    ensures |r| == |received|
    ensures forall i :: 0 <= i < |r| ==>
              r[i] == (if received[i].id == id then received[i].(read := true) else received[i])
  {
    if |received| == 0 then []
    else MarkRead(received[..|received| - 1], id)
         + [var e := received[|received| - 1]; if e.id == id then e.(read := true) else e]
  }

  /** Opening mail `id` from the received list (`mailboxType` 1) or the sent
      list (2). A received mail is marked read; nothing checks that
      `requester` owns it. A sent mail, or any other mailbox type, changes
      nothing. */
  function OpenMail(st: Store, requester: UserId, mailboxType: int, id: Id): (r: Result<Store>)
    ensures r.Err? <==>
              || (mailboxType == 1 && forall e :: e in st.received ==> e.id != id)
              || (mailboxType == 2 && forall e :: e in st.sent ==> e.id != id)
    ensures r.Err? ==> r.error == NotFound
    ensures r.Ok? ==> r.value == st.(received := r.value.received)
    ensures r.Ok? ==> |r.value.received| == |st.received|
    ensures r.Ok? ==> forall i :: 0 <= i < |st.received| ==>
              && r.value.received[i].(read := st.received[i].read) == st.received[i]
              && (st.received[i].read ==> r.value.received[i].read)
              && (mailboxType == 1 && st.received[i].id == id ==> r.value.received[i].read)
              && (r.value.received[i].read != st.received[i].read ==> mailboxType == 1 && st.received[i].id == id)
  {
    if mailboxType == 1 then
      if exists e :: e in st.received && e.id == id then Ok(st.(received := MarkRead(st.received, id)))
      else Err(NotFound)
    else if mailboxType == 2 then
      if exists e :: e in st.sent && e.id == id then Ok(st)
      else Err(NotFound)
    else Ok(st)
  }

  /** Who asks makes no difference: any user may open any received mail. */
  lemma OpenMailIgnoresRequester(st: Store, a: UserId, b: UserId, mailboxType: int, id: Id)
    ensures OpenMail(st, a, mailboxType, id) == OpenMail(st, b, mailboxType, id)
  {
  }

  /** Re-opening an opened mail changes nothing. */
  lemma OpenMailIdempotent(st: Store, requester: UserId, mailboxType: int, id: Id)
    requires OpenMail(st, requester, mailboxType, id).Ok?
    ensures OpenMail(OpenMail(st, requester, mailboxType, id).value, requester, mailboxType, id)
            == OpenMail(st, requester, mailboxType, id)
  {
    var s1 := OpenMail(st, requester, mailboxType, id).value;
    if mailboxType == 1 {
      var e :| e in st.received && e.id == id;
      var k :| 0 <= k < |st.received| && st.received[k] == e;
      assert s1.received[k].id == id;
      assert s1.received[k] in s1.received;
      assert MarkRead(s1.received, id) == s1.received;
    }
  }

  /** Entries of `received` with key `id` that are unread and owned by `user`. */
  function CountUnreadWithId(received: seq<MailboxReceived>, recipients: seq<Recipient>, user: UserId, id: Id): nat {
    if |received| == 0 then 0
    else
      CountUnreadWithId(received[..|received| - 1], recipients, user, id)
      + (var e := received[|received| - 1];
         if e.id == id && !e.read && RecipientUser(recipients, e.recipient) == Some(user) then 1 else 0)
  }

  lemma {:induction false} MarkReadCount(received: seq<MailboxReceived>, recipients: seq<Recipient>, user: UserId, id: Id)
    ensures CountUnread(MarkRead(received, id), recipients, user) + CountUnreadWithId(received, recipients, user, id)
            == CountUnread(received, recipients, user)
  {
    if |received| > 0 {
      var init := received[..|received| - 1];
      var m := MarkRead(received, id);
      assert m[..|m| - 1] == MarkRead(init, id);
      MarkReadCount(init, recipients, user, id);
    }
  }

  lemma {:induction false} CountUnreadWithIdAtMostOne(received: seq<MailboxReceived>, recipients: seq<Recipient>, user: UserId, id: Id)
    requires forall i, j :: 0 <= i < j < |received| ==> received[i].id != received[j].id
    ensures CountUnreadWithId(received, recipients, user, id) <= 1
    ensures CountUnreadWithId(received, recipients, user, id) == 1 <==>
              exists e :: e in received && e.id == id && !e.read && RecipientUser(recipients, e.recipient) == Some(user)
  {
    if |received| > 0 {
      var init := received[..|received| - 1];
      CountUnreadWithIdAtMostOne(init, recipients, user, id);
      var last := received[|received| - 1];
      if last.id == id {
        forall e | e in init ensures e.id != id {
          var k :| 0 <= k < |init| && init[k] == e;
          assert received[k] == e;
        }
        assert CountUnreadWithId(init, recipients, user, id) == 0;
      }
      assert forall e :: e in received <==> e in init || e == last;
    }
  }

  /** Opening a mail lowers a user's unread count by the number of unread
      entries with that key the user owns, and never raises it. */
  lemma OpenMailUnread(st: Store, requester: UserId, mailboxType: int, id: Id, user: UserId)
    requires OpenMail(st, requester, mailboxType, id).Ok?
    ensures var after := OpenMail(st, requester, mailboxType, id).value;
            && UnreadCount(after, user) <= UnreadCount(st, user)
            && (mailboxType == 1 ==>
                  UnreadCount(after, user) + CountUnreadWithId(st.received, st.recipients, user, id)
                  == UnreadCount(st, user))
  {
    if mailboxType == 1 {
      MarkReadCount(st.received, st.recipients, user, id);
    }
  }

  /** With unique inbox keys, opening an unread mail the user owns lowers the
      user's count by exactly one, and leaves it as it was otherwise. */
  lemma OpenOwnUnreadMail(st: Store, requester: UserId, id: Id, user: UserId)
    requires forall i, j :: 0 <= i < j < |st.received| ==> st.received[i].id != st.received[j].id
    requires OpenMail(st, requester, 1, id).Ok?
    ensures var after := OpenMail(st, requester, 1, id).value;
            UnreadCount(after, user) ==
              if exists e :: e in st.received && e.id == id && !e.read && OwnedBy(st, e, user)
              then UnreadCount(st, user) - 1
              else UnreadCount(st, user)
  {
    MarkReadCount(st.received, st.recipients, user, id);
    CountUnreadWithIdAtMostOne(st.received, st.recipients, user, id);
  }
}

=== FILE: messaging.dfy ===
/** Sending a message: the seven recipient selectors, their expansion into
    users and a title over the directory, and the rows one send writes
    (one Message, one Sender, a Recipient and an unread MailboxReceived per
    user, then one MailboxSent carrying the title). */
module Messaging {
  import opened Base
  import opened Roles
  import opened Models
  import opened Directory
  import opened Database
  import opened Mailbox
  import Decimal
  import Forms

  /** The audience of a message. The URL spells it as a prefix 1..7 and a
      code: a class code for 1 and 2, a subject code for 3, a user id for
      4, 5 (the student's, not the parents') and 7, nothing for 6. */
  datatype Selector =
    | ClassStudents(classCode: string)     // 1: every student of the class
    | ClassParents(classCode: string)      // 2: every parent of every student of the class
    | SubjectStaff(subjectCode: string)    // 3: every teacher of the subject
    | OneStudent(student: UserId)          // 4: that student
    | StudentParents(student: UserId)      // 5: every parent of that student
    | AllManagers                          // 6: every holder of the manager permission
    | OneTeacher(teacher: UserId)          // 7: that teacher

  // ---------------------------------------------------------------------
  // URL form
  // ---------------------------------------------------------------------

  /** The (prefix, code) pair the mailbox links put in the URL. */
  function Encode(sel: Selector): (int, string) {
    match sel
    case ClassStudents(c) => (1, c)
    case ClassParents(c) => (2, c)
    case SubjectStaff(c) => (3, c)
    case OneStudent(u) => (4, Decimal.Str(u))
    case StudentParents(u) => (5, Decimal.Str(u))
    case AllManagers => (6, "None")
    case OneTeacher(u) => (7, Decimal.Str(u))
  }

  /** How the view reads the URL. A user-id code that is not a number makes
      the id lookup raise ValueError; a prefix outside 1..7 leaves the
      audience title unassigned, which fails when the sent row is built. */
  function Decode(prefix: int, code: string): (r: Result<Selector>)
    ensures r.Ok? ==> Encode(r.value).0 == prefix
    ensures r.Err? <==> !(1 <= prefix <= 7) || (prefix in {4, 5, 7} && Decimal.Parse(code).None?)
    ensures r.Err? ==> r.error == (if 1 <= prefix <= 7 then ValueError else UnboundLocal)
    ensures r.Ok? && prefix in {1, 2, 3} ==> Encode(r.value).1 == code
    ensures r.Ok? && prefix == 4 ==> Decimal.AllDigits(code) && r.value == OneStudent(Decimal.Value(code))
    ensures r.Ok? && prefix == 5 ==> Decimal.AllDigits(code) && r.value == StudentParents(Decimal.Value(code))
    ensures r.Ok? && prefix == 7 ==> Decimal.AllDigits(code) && r.value == OneTeacher(Decimal.Value(code))
  {
    if prefix == 1 then Ok(ClassStudents(code))
    else if prefix == 2 then Ok(ClassParents(code))
    else if prefix == 3 then Ok(SubjectStaff(code))
    else if prefix == 6 then Ok(AllManagers)
    else if prefix in {4, 5, 7} then
      match Decimal.Parse(code)
      case None => Err(ValueError)
      case Some(u) =>
        Ok(if prefix == 4 then OneStudent(u) else if prefix == 5 then StudentParents(u) else OneTeacher(u))
    else Err(UnboundLocal)
  }

  /** Every selector survives the trip through its URL. */
  lemma DecodeEncode(sel: Selector)
    ensures Decode(Encode(sel).0, Encode(sel).1) == Ok(sel)
  {
    match sel {
      case OneStudent(u) => Decimal.ParseStr(u);
      case StudentParents(u) => Decimal.ParseStr(u);
      case OneTeacher(u) => Decimal.ParseStr(u);
      case _ =>
    }
  }

  // ---------------------------------------------------------------------
  // Expansion
  // ---------------------------------------------------------------------

  /** What a selector resolves to: the users to write to and the title of
      the sent row, or, for a class with no students, the early return. */
  datatype Audience = Audience(users: seq<UserId>, title: string) | NoStudents

  /** The selector's target row can be fetched: it exists, and for a
      subject exactly one teacher row lists its teachers. */
  predicate TargetExists(dir: Directory, sel: Selector) {
    match sel
    case ClassStudents(c) => FindClass(dir.classes, c).Some?
    case ClassParents(c) => FindClass(dir.classes, c).Some?
    case SubjectStaff(c) =>
      FindSubject(dir.subjects, c).Some? && |SubjectTeacherRows(dir.subjectTeachers, c)| == 1
    case OneStudent(u) => FindStudent(dir.students, u).Some?
    case StudentParents(u) => FindStudent(dir.students, u).Some?
    case AllManagers => true
    case OneTeacher(u) => FindTeacher(dir.teachers, u).Some?
  }

  /** Who a selector addresses, stated over the tables directly. */
  ghost predicate Addressed(dir: Directory, sel: Selector, u: UserId) {
    match sel
    case ClassStudents(c) =>
      exists s :: s in dir.students && s.schoolClass == c && s.user == u
    case ClassParents(c) =>
      exists p, s :: p in dir.parents && s in dir.students && s.schoolClass == c && p.student == s.user && p.user == u
    case SubjectStaff(c) =>
      exists row :: row in dir.subjectTeachers && row.subject == c && u in row.teachers
    case OneStudent(id) => u == id
    case StudentParents(id) =>
      exists p :: p in dir.parents && p.student == id && p.user == u
    case AllManagers =>
      exists usr :: usr in dir.users && Manager in usr.perms && usr.id == u
    case OneTeacher(id) => u == id
  }

  predicate IsClassSelector(sel: Selector) {
    sel.ClassStudents? || sel.ClassParents?
  }

  /** The fetches and filters of `form_valid`, per prefix. */
  function Expand(dir: Directory, sel: Selector): (r: Result<Audience>)
    ensures r.Err? <==> !TargetExists(dir, sel)
    ensures r.Err? ==> r.error == (if sel.SubjectStaff? && |SubjectTeacherRows(dir.subjectTeachers, sel.subjectCode)| > 1
                                   && FindSubject(dir.subjects, sel.subjectCode).Some?
                                   then MultipleObjectsReturned else NotFound)
    ensures r.Ok? && r.value.NoStudents? <==>
              IsClassSelector(sel) && TargetExists(dir, sel)
              && forall s :: s in dir.students ==> s.schoolClass != sel.classCode
    ensures r.Ok? && r.value.Audience? ==> forall u :: u in r.value.users <==> Addressed(dir, sel, u)
  {
    match sel
    case ClassStudents(c) =>
      (match FindClass(dir.classes, c)
       case None => Err(NotFound)
       case Some(k) =>
         var students := StudentsOfClass(dir.students, c);
         if |students| == 0 then Ok(NoStudents)
         else
           assert students[0] in students;
           Ok(Audience(students, ClassLabel(k))))
    case ClassParents(c) =>
      (match FindClass(dir.classes, c)
       case None => Err(NotFound)
       case Some(k) =>
         var students := StudentsOfClass(dir.students, c);
         if |students| == 0 then Ok(NoStudents)
         else
           assert students[0] in students;
           var parents := ParentsOfAll(dir.parents, students);
           assert forall u :: u in parents <==> Addressed(dir, sel, u) by {
             forall u ensures u in parents ==> Addressed(dir, sel, u) {
               if u in parents {
                 var p :| p in dir.parents && p.student in students && p.user == u;
                 var s :| s in dir.students && s.schoolClass == c && s.user == p.student;
               }
             }
           }
           Ok(Audience(parents, ClassLabel(k) + " parents")))
    case SubjectStaff(c) =>
      (match FindSubject(dir.subjects, c)
       case None => Err(NotFound)
       case Some(subject) =>
         var rows := SubjectTeacherRows(dir.subjectTeachers, c);
         if |rows| == 0 then Err(NotFound)
         else if |rows| > 1 then Err(MultipleObjectsReturned)
         else
           assert forall row :: row in dir.subjectTeachers && row.subject == c ==> row == rows[0];
           Ok(Audience(rows[0].teachers, SubjectLabel(subject) + " teachers")))
    case OneStudent(u) =>
      (match FindStudent(dir.students, u)
       case None => Err(NotFound)
       case Some(s) => Ok(Audience([u], StudentLabel(s))))
    case StudentParents(u) =>
      (match FindStudent(dir.students, u)
       case None => Err(NotFound)
       case Some(s) => Ok(Audience(ParentsOf(dir.parents, u), StudentLabel(s) + " parents")))
    case AllManagers =>
      Ok(Audience(Managers(dir.users), "Managers"))
    case OneTeacher(u) =>
      (match FindTeacher(dir.teachers, u)
       case None => Err(NotFound)
       case Some(t) => Ok(Audience([u], TeacherLabel(t))))
  }

  /** The title the sent row records for each selector. */
  lemma ExpandLabel(dir: Directory, sel: Selector)
    requires Expand(dir, sel).Ok? && Expand(dir, sel).value.Audience?
    ensures var title := Expand(dir, sel).value.title;
            match sel
            case ClassStudents(c) => title == FindClass(dir.classes, c).value.name
            case ClassParents(c) => title == FindClass(dir.classes, c).value.name + " parents"
            case SubjectStaff(c) => title == FindSubject(dir.subjects, c).value.name + " teachers"
            case OneStudent(u) => title == PersonLabel(FindStudent(dir.students, u).value.person)
            case StudentParents(u) => title == PersonLabel(FindStudent(dir.students, u).value.person) + " parents"
            case AllManagers => title == "Managers"
            case OneTeacher(u) => title == PersonLabel(FindTeacher(dir.teachers, u).value.person)
  {
  }

  /** On a well-formed directory the expansion names nobody twice, so each
      addressed user gets exactly one inbox entry. */
  lemma ExpandDistinct(dir: Directory, sel: Selector)
    requires Wellformed(dir)
    requires Expand(dir, sel).Ok? && Expand(dir, sel).value.Audience?
    ensures NoDuplicates(Expand(dir, sel).value.users)
  {
    match sel {
      case ClassStudents(c) =>
        StudentsOfClassDistinct(dir.students, c);
      case ClassParents(c) =>
        StudentsOfClassDistinct(dir.students, c);
        ParentsOfAllDistinct(dir.parents, StudentsOfClass(dir.students, c));
      case SubjectStaff(c) =>
        var rows := SubjectTeacherRows(dir.subjectTeachers, c);
        assert rows[0] in dir.subjectTeachers;
      case StudentParents(u) =>
        ParentsOfDistinct(dir.parents, u);
      case AllManagers =>
        ManagersDistinct(dir.users);
      case OneStudent(_) =>
      case OneTeacher(_) =>
    }
  }

  // ---------------------------------------------------------------------
  // Sending
  // ---------------------------------------------------------------------

  datatype Outcome = Delivered | NoStudentsInClass

  datatype Sent = Sent(st: Store, outcome: Outcome)

  /** `CreateMessageView.form_valid` for a decoded selector. Message and
      Sender are saved first; a fetch that fails inside the transaction
      rolls them back, while the early return for a class without students
      commits them and writes nothing else. */
  function Send(st: Store, actor: UserId, subject: string, text: string, sel: Selector, now: Stamp): (r: Result<Sent>)
    ensures r.Err? <==> !Forms.MessageFormValid(subject, text) || Expand(st.dir, sel).Err?
    ensures r.Err? ==> r.error == (if Forms.MessageFormValid(subject, text) then Expand(st.dir, sel).error else Invalid)
    ensures r.Ok? ==>
              && Expand(st.dir, sel).Ok?
              && (r.value.outcome == NoStudentsInClass <==> Expand(st.dir, sel).value.NoStudents?)
    ensures r.Ok? ==>
              && |r.value.st.messages| == |st.messages| + 1
              && |r.value.st.senders| == |st.senders| + 1
              && r.value.st.messages[|st.messages|].content == Written(subject, text)
              && r.value.st.senders[|st.senders|].user == actor
              && r.value.st.senders[|st.senders|].message == r.value.st.messages[|st.messages|].id
              && r.value.st.messages[..|st.messages|] == st.messages
              && r.value.st.senders[..|st.senders|] == st.senders
              && r.value.st.dir == st.dir && r.value.st.dates == st.dates
              && r.value.st.grades == st.grades && r.value.st.canceled == st.canceled
    ensures r.Ok? && r.value.outcome == NoStudentsInClass ==>
              && IsClassSelector(sel)
              && r.value.st.recipients == st.recipients
              && r.value.st.received == st.received
              && r.value.st.sent == st.sent
    ensures r.Ok? && r.value.outcome == Delivered ==>
              && Expand(st.dir, sel).Ok? && Expand(st.dir, sel).value.Audience?
              && |r.value.st.sent| == |st.sent| + 1
              && r.value.st.sent[..|st.sent|] == st.sent
              && r.value.st.sent[|st.sent|].recipient == Expand(st.dir, sel).value.title
              && r.value.st.sent[|st.sent|].message == r.value.st.messages[|st.messages|].id
              && r.value.st.sent[|st.sent|].sender == r.value.st.senders[|st.senders|].id
              && |r.value.st.received| == |st.received| + |Expand(st.dir, sel).value.users|
              && r.value.st.received[..|st.received|] == st.received
              && |r.value.st.recipients| == |st.recipients| + |Expand(st.dir, sel).value.users|
              && r.value.st.recipients[..|st.recipients|] == st.recipients
  {
    if !Forms.MessageFormValid(subject, text) then Err(Invalid)
    else
      match Expand(st.dir, sel)
      case Err(e) => Err(e)
      case Ok(NoStudents) =>
        var t := Post(st, actor, Written(subject, text), now);
        Ok(Sent(t.st, NoStudentsInClass))
      case Ok(Audience(users, title)) =>
        Ok(Sent(Broadcast(st, actor, Written(subject, text), users, title, now), Delivered))
  }

  /** The writes of a delivered send: the message and its sender, one
      recipient row and one inbox entry per user, then the outbox row
      labelled with the audience's title. */
  function Broadcast(st: Store, actor: UserId, content: Content, users: seq<UserId>, title: string, now: Stamp): Store
  {
    var t := Post(st, actor, content, now);
    var d := Deliver(t.st, t.sender, t.message, users);
    d.(sent := d.sent + [MailboxSent(d.nextId, t.sender, t.message, title)], nextId := d.nextId + 1)
  }

  /** The inbox side of a delivered send: the new entries are exactly the
      rows of the new message, one per expanded user and owned by that
      user, unread, from the new sender; every older entry belongs to an
      older message. */
  lemma SendFanOut(st: Store, actor: UserId, subject: string, text: string, sel: Selector, now: Stamp)
    requires IdsBelow(st)
    requires Send(st, actor, subject, text, sel, now).Ok?
    requires Send(st, actor, subject, text, sel, now).value.outcome == Delivered
    ensures var after := Send(st, actor, subject, text, sel, now).value.st;
            var users := Expand(st.dir, sel).value.users;
            var m := after.messages[|st.messages|].id;
            && IdsBelow(after)
            && (forall i :: 0 <= i < |users| ==>
                  && OwnedBy(after, after.received[|st.received| + i], users[i])
                  && !after.received[|st.received| + i].read
                  && after.received[|st.received| + i].sender == after.senders[|st.senders|].id)
            && (forall j :: 0 <= j < |after.received| ==> (after.received[j].message == m <==> j >= |st.received|))
  {
    var a := Expand(st.dir, sel).value;
    BroadcastFanOut(st, actor, Written(subject, text), a.users, a.title, now);
  }

  lemma BroadcastFanOut(st: Store, actor: UserId, content: Content, users: seq<UserId>, title: string, now: Stamp)
    requires IdsBelow(st)
    ensures var after := Broadcast(st, actor, content, users, title, now);
            var m := after.messages[|st.messages|].id;
            && |after.messages| == |st.messages| + 1
            && |after.senders| == |st.senders| + 1
            && |after.received| == |st.received| + |users|
            && IdsBelow(after)
            && (forall i :: 0 <= i < |users| ==>
                  && OwnedBy(after, after.received[|st.received| + i], users[i])
                  && !after.received[|st.received| + i].read
                  && after.received[|st.received| + i].sender == after.senders[|st.senders|].id)
            && (forall j :: 0 <= j < |after.received| ==> (after.received[j].message == m <==> j >= |st.received|))
  {
    var t := Post(st, actor, content, now);
    var d := Deliver(t.st, t.sender, t.message, users);
    var after := Broadcast(st, actor, content, users, title, now);
    assert after.recipients == d.recipients && after.received == d.received;
    DeliverPreservesIds(t.st, t.sender, t.message, users);
    forall i | 0 <= i < |users|
      ensures OwnedBy(after, after.received[|st.received| + i], users[i])
    {
      DeliveredToAudience(t.st, t.sender, t.message, users, i);
    }
    forall j | 0 <= j < |after.received|
      ensures after.received[j].message == t.message <==> j >= |st.received|
    {
      if j < |st.received| {
        assert after.received[j] == st.received[j];
        assert st.received[j] in st.received;
      }
    }
  }

  /** `form_valid` from the URL: the form is validated first, then the
      prefix and code are read. Only the empty-class return writes without
      reaching the sent row. */
  function CreateMessage(st: Store, actor: UserId, prefix: int, code: string, subject: string, text: string, now: Stamp)
    : (r: Result<Sent>)
    ensures r.Err? ==> r.error in {Invalid, NotFound, MultipleObjectsReturned, ValueError, UnboundLocal}
    ensures !Forms.MessageFormValid(subject, text) ==> r == Err(Invalid)
    ensures Forms.MessageFormValid(subject, text) && !(1 <= prefix <= 7) ==> r == Err(UnboundLocal)
    ensures r.Ok? ==> Decode(prefix, code).Ok? && r == Send(st, actor, subject, text, Decode(prefix, code).value, now)
    ensures Forms.MessageFormValid(subject, text) && Decode(prefix, code).Ok? ==>
              r == Send(st, actor, subject, text, Decode(prefix, code).value, now)
    ensures Forms.MessageFormValid(subject, text) && Decode(prefix, code).Err? ==> r == Err(Decode(prefix, code).error)
  {
    if !Forms.MessageFormValid(subject, text) then Err(Invalid)
    else
      match Decode(prefix, code)
      case Err(e) => Err(e)
      case Ok(sel) => Send(st, actor, subject, text, sel, now)
  }

  /** Sending keeps Sender one-to-one with Message: the new message gets
      exactly one sender. */
  lemma SendKeepsOneSender(st: Store, actor: UserId, subject: string, text: string, sel: Selector, now: Stamp)
    requires IdsBelow(st) && OneSenderPerMessage(st.senders)
    ensures var r := Send(st, actor, subject, text, sel, now);
            r.Ok? ==> OneSenderPerMessage(r.value.st.senders)
  {
    PostKeepsOneSender(st, actor, Written(subject, text), now);
  }

  /** A class with no students: Message and Sender stay behind, and no
      Recipient, inbox or sent row is written. */
  lemma EmptyClassLeavesThread(st: Store, actor: UserId, subject: string, text: string, sel: Selector, now: Stamp)
    requires Forms.MessageFormValid(subject, text)
    requires IsClassSelector(sel)
    requires FindClass(st.dir.classes, sel.classCode).Some?
    requires forall s :: s in st.dir.students ==> s.schoolClass != sel.classCode
    ensures var r := Send(st, actor, subject, text, sel, now);
            && r.Ok? && r.value.outcome == NoStudentsInClass
            && |r.value.st.messages| == |st.messages| + 1
            && |r.value.st.senders| == |st.senders| + 1
            && r.value.st.recipients == st.recipients
            && r.value.st.received == st.received
            && r.value.st.sent == st.sent
  {
  }

  /** A selector whose target cannot be fetched writes nothing at all. */
  lemma MissingTargetWritesNothing(st: Store, actor: UserId, subject: string, text: string, sel: Selector, now: Stamp)
    requires !TargetExists(st.dir, sel)
    ensures Send(st, actor, subject, text, sel, now).Err?
  {
  }
}

=== FILE: models.dfy ===
/** The records of the gradebook schema, the field validators `full_clean`
    enforces on save, and the `__str__` labels the mailbox reuses.

    Rows are immutable values; every table is a sequence of them held by the
    store. A foreign key is the referenced row's key: a user id for the
    person tables (their primary key is the one-to-one `user`), a class or
    subject `unique_code` for classes and subjects, and an integer id for
    everything else. */
module Models {
  import opened Roles

  type Id = nat
  type UserId = nat

  /** A timestamp supplied by the caller's clock (`auto_now_add`). */
  type Stamp = nat

  /** An authentication account. `password` is the clear text handed to
      `create_user` / `set_password`; hashing is not modelled. Permissions
      are the ones granted directly to the user. */
  datatype User = User(
    id: UserId,
    username: string,
    password: string,
    firstName: string,
    lastName: string,
    perms: set<Role>)

  /** The fields Student, Parent and Teacher share (`PersonalData`). */
  datatype Person = Person(name: string, surname: string, firstLogin: bool)

  datatype SchoolClass = SchoolClass(uniqueCode: string, name: string, year: int, active: bool)

  /** Birthday and e-mail are carried by the source but play no part here. */
  datatype Student = Student(user: UserId, person: Person, schoolClass: string)

  /** A parent references exactly one student (its child). */
  datatype Parent = Parent(user: UserId, person: Person, student: UserId)

  datatype Teacher = Teacher(user: UserId, person: Person, active: bool)

  /** A subject belongs to exactly one class. */
  datatype Subject = Subject(uniqueCode: string, name: string, schoolClass: string)

  /** One weekly (day, lesson) slot of a subject. */
  datatype SubjectDate = SubjectDate(id: Id, subject: string, day: string, lesson: int)

  /** The many-to-many row listing the teachers of a subject. */
  datatype SubjectTeachers = SubjectTeachers(subject: string, teachers: seq<UserId>)

  datatype Grade = Grade(
    id: Id,
    value: int,
    student: UserId,
    subject: string,
    date: Stamp,
    managerMode: bool)

  datatype CanceledGrade = CanceledGrade(
    id: Id,
    value: int,
    student: UserId,
    subject: string,
    date: Stamp)

  /** What a message says. User-written messages carry their subject line
      and text; the two grade notifications carry the data their localised
      text is built from: the grade and the code of its subject, whose name
      the text spells out. */
  datatype Content =
    | Written(subject: string, text: string)
    | NewGrade(subjectCode: string, grade: int)
    | GradeCanceled(subjectCode: string, grade: int)

  datatype Message = Message(id: Id, content: Content, date: Stamp)

  /** One per message (one-to-one on `message`). */
  datatype Sender = Sender(id: Id, user: UserId, message: Id)

  /** Any number per message. */
  datatype Recipient = Recipient(id: Id, user: UserId, message: Id)

  datatype MailboxReceived = MailboxReceived(id: Id, sender: Id, recipient: Id, message: Id, read: bool)

  /** `recipient` is a plain label describing the audience, not a relation. */
  datatype MailboxSent = MailboxSent(id: Id, sender: Id, message: Id, recipient: string)

  // ---------------------------------------------------------------------
  // Field validators
  // ---------------------------------------------------------------------

  /** `grade` of Grades and CanceledGrades: MinValueValidator(1), MaxValueValidator(5). */
  predicate GradeValueValid(v: int) {
    1 <= v <= 5
  }

  /** `lesson_number` of SubjectDate: one of the choices 1..8. */
  predicate LessonValid(n: int) {
    1 <= n <= 8
  }

  /** The `day` choices of SubjectDate, in week order. */
  const DayCodes: seq<string> := ["Mo", "Tu", "We", "Th", "Fr", "St"]

  predicate DayValid(code: string) {
    code in DayCodes
  }

  predicate SubjectDateValid(d: SubjectDate) {
    DayValid(d.day) && LessonValid(d.lesson)
  }

  /** `year` of SchoolClass: MinValueValidator(1800), MaxValueValidator(9999). */
  predicate YearValid(y: int) {
    1800 <= y <= 9999
  }

  predicate IsCyrillicLower(c: char) {
    '\U{0430}' <= c <= '\U{044F}'   // the range а-я
  }

  /** The six characters `[1-9][а-я][0-9]{4}`. */
  predicate ClassCodeCore(s: string) {
    && |s| == 6
    && '1' <= s[0] <= '9'
    && IsCyrillicLower(s[1])
    && (forall i :: 2 <= i < 6 ==> '0' <= s[i] <= '9')
  }

  /** RegexValidator `^[1-9]{1}[а-я]{1}[0-9]{4}$`, applied with `re.search`:
      `$` also matches just before a final newline, so one trailing newline
      passes. */
  predicate ClassCodeMatches(s: string) {
    || ClassCodeCore(s)
    || (|s| == 7 && ClassCodeCore(s[..6]) && s[6] == '\n')
  }

  /** What `SchoolClass.full_clean` demands of a row before it is saved. */
  predicate SchoolClassValid(c: SchoolClass) {
    && ClassCodeMatches(c.uniqueCode)
    && |c.uniqueCode| <= 10
    && 0 < |c.name| <= 10
    && YearValid(c.year)
  }

  /** A class code matched by the validator always fits the column. */
  lemma ClassCodeFitsColumn(s: string)
    requires ClassCodeMatches(s)
    ensures 6 <= |s| <= 7 && |s| <= 10
  {
  }

  /** The validator accepts any well-formed code with one trailing newline,
      as Python's `$` does, but not with two. */
  lemma ClassCodeTrailingNewline(s: string)
    ensures ClassCodeCore(s) ==> ClassCodeMatches(s + "\n") && !ClassCodeMatches(s + "\n\n")
  {
    if ClassCodeCore(s) {
      assert (s + "\n")[..6] == s;
    }
  }

  // ---------------------------------------------------------------------
  // Display labels (`__str__`)
  // ---------------------------------------------------------------------

  /** Student, Parent and Teacher render as "name surname". */
  function PersonLabel(p: Person): (s: string)
    ensures |s| == |p.name| + 1 + |p.surname|
    ensures s[..|p.name|] == p.name && s[|p.name|] == ' ' && s[|p.name| + 1..] == p.surname
  {
    p.name + " " + p.surname
  }

  function StudentLabel(s: Student): string {
    PersonLabel(s.person)
  }

  function ParentLabel(p: Parent): string {
    PersonLabel(p.person)
  }

  function TeacherLabel(t: Teacher): string {
    PersonLabel(t.person)
  }

  /** SchoolClass and Subject render as their name. */
  function ClassLabel(c: SchoolClass): string {
    c.name
  }

  function SubjectLabel(s: Subject): string {
    s.name
  }
}

=== FILE: roles.dfy ===
/** The four global permissions a user can hold (the codenames of
    RightsSupport), used as the role of an account. */
module Roles {
  import opened Base

  datatype Role = Manager | Teacher | Student | Parent

  /** The permission codename stored for the role. */
  function Codename(r: Role): (c: string)
    ensures |c| > 0
  {
    match r
    case Manager => "manager"
    case Teacher => "teacher"
    case Student => "student"
    case Parent => "parent"
  }

  function FromCodename(c: string): (r: Option<Role>)
    ensures r.Some? ==> Codename(r.value) == c
  {
    if c == "manager" then Some(Manager)
    else if c == "teacher" then Some(Teacher)
    else if c == "student" then Some(Student)
    else if c == "parent" then Some(Parent)
    else None
  }

  /** Codenames identify roles: the lookup inverts the naming. */
  lemma CodenameRoundTrip(r: Role)
    ensures FromCodename(Codename(r)) == Some(r)
  {
  }
}

=== FILE: templatetags.dfy ===
/** The template helpers: a length that degrades to an empty string, a
    dictionary lookup that degrades to an empty string, and the identity
    tag templates use to name a value. */
module TemplateTags {

  /** What a tag renders: a value, or '' when the lookup failed. */
  datatype Rendered<V> = Shown(value: V) | Blank

  /** A template value `len` accepts (a list, queryset, string) or one it
      raises TypeError on (a number, None). */
  datatype Operand<T> = Sized(items: seq<T>) | Unsized

  /** `elements_number`: the length, or '' when the value has none. */
  function ElementsNumber<T>(v: Operand<T>): (r: Rendered<nat>)
    ensures r.Blank? <==> v.Unsized?
    ensures v.Sized? ==> r.value == |v.items|
  {
    match v
    case Sized(items) => Shown(|items|)
    case Unsized => Blank
  }

  /** Counting a concatenation counts both parts. */
  lemma ElementsNumberAppend<T>(a: seq<T>, b: seq<T>)
    ensures ElementsNumber(Sized(a + b)).value == ElementsNumber(Sized(a)).value + ElementsNumber(Sized(b)).value
  {
  }

  /** `key_value`: the entry for the key, or '' when the dictionary has
      none; a missing key never raises. */
  function KeyValue<K, V>(m: map<K, V>, key: K): (r: Rendered<V>)
    ensures r.Shown? <==> key in m
    ensures r.Shown? ==> r.value == m[key]
  {
    if key in m then Shown(m[key]) else Blank
  }

  /** `update_variable`: hands its argument back unchanged. */
  function UpdateVariable<T>(value: T): (r: T)
    ensures r == value
  {
    value
  }
}

=== FILE: timetable.dfy ===
/** The weekly timetable: the 8 x 6 lesson/day grid built from SubjectDate
    rows, the day code <-> number mapping of the delete link, and adding and
    deleting one (day, lesson) slot of a subject. */
module Timetable {
  import opened Base
  import opened Models
  import opened Directory
  import opened Database
  import Forms

  const Lessons := 8
  const Days := 6

  // ---------------------------------------------------------------------
  // Python list indexing
  // ---------------------------------------------------------------------

  /** `xs[i]` on a list of length n: a negative index counts from the end,
      anything else out of range raises IndexError. */
  function PyIndex(i: int, n: nat): (r: Option<nat>)
    ensures r.Some? ==> r.value < n
    ensures r.Some? <==> -(n as int) <= i < n
    ensures 0 <= i < n ==> r == Some(i)
    ensures -(n as int) <= i < 0 ==> r == Some((i + n) as nat)
  {
    if 0 <= i < n then Some(i) else if -(n as int) <= i < 0 then Some(i + n) else None
  }

  // ---------------------------------------------------------------------
  // Day codes
  // ---------------------------------------------------------------------

  /** The column loop of the grid code: walk the codes with a counter and
      stop at the match; a code not in the list leaves the counter at the
      last column. */
  function DayColumnFrom(code: string, i: nat): (c: nat)
    requires i < Days
    ensures i <= c < Days
    ensures forall k :: i <= k < c ==> DayCodes[k] != code
    ensures c < Days - 1 ==> DayCodes[c] == code
    decreases Days - i
  {
    if i == Days - 1 || DayCodes[i] == code then i else DayColumnFrom(code, i + 1)
  }

  function DayColumn(code: string): (c: nat)
    ensures c < Days
    ensures DayValid(code) ==> DayCodes[c] == code
    ensures !DayValid(code) ==> c == Days - 1
  {
    DayColumnFrom(code, 0)
  }

  /** `days[day - 1]` of the delete link (the URL's day is a non-negative
      integer). Day 0 reads index -1, Saturday. */
  function DayFromNumber(day: nat): (r: Result<string>)
    ensures r.Ok? <==> day <= Days
    ensures r.Err? ==> r.error == IndexError
    ensures r.Ok? ==> DayValid(r.value)
    ensures day == 0 ==> r == Ok("St")
  {
    assert DayCodes[Days - 1] == "St";
    match PyIndex(day - 1, Days)
    case None => Err(IndexError)
    case Some(k) =>
      assert DayCodes[k] in DayCodes;
      Ok(DayCodes[k])
  }

  /** Day numbers 1..6 and the grid's columns are inverse to each other. */
  lemma DayNumberRoundTrip(day: int, code: string)
    ensures 1 <= day <= Days ==> DayFromNumber(day).Ok? && DayColumn(DayFromNumber(day).value) == day - 1
    ensures DayValid(code) ==> DayFromNumber(DayColumn(code) + 1) == Ok(code)
  {
    if 1 <= day <= Days {
      var c := DayColumn(DayCodes[day - 1]);
      assert DayCodes[c] == DayCodes[day - 1];
    }
  }

  // ---------------------------------------------------------------------
  // The grid
  // ---------------------------------------------------------------------

  predicate IsGrid<T>(g: seq<seq<T>>) {
    |g| == Lessons && forall i :: 0 <= i < Lessons ==> |g[i]| == Days
  }

  function EmptyGrid<T>(v: T): (g: seq<seq<T>>)
    ensures IsGrid(g)
    ensures forall i, j :: 0 <= i < Lessons && 0 <= j < Days ==> g[i][j] == v
  {
    seq(Lessons, _ => seq(Days, _ => v))
  }

  function Mark<T>(g: seq<seq<T>>, row: nat, col: nat, v: T): (r: seq<seq<T>>)
    requires IsGrid(g) && row < Lessons && col < Days
    ensures IsGrid(r)
    ensures forall i, j :: 0 <= i < Lessons && 0 <= j < Days ==>
              r[i][j] == if i == row && j == col then v else g[i][j]
  {
    g[row := g[row][col := v]]
  }

  /** The cell a row lands in: `dates[lesson_number - 1][column]`. */
  function Slot(d: SubjectDate): (r: Option<(nat, nat)>)
    ensures r.Some? ==> r.value.0 < Lessons && r.value.1 < Days
    ensures r.Some? <==> -Lessons < d.lesson <= Lessons
  {
    match PyIndex(d.lesson - 1, Lessons)
    case None => None
    case Some(row) => Some((row, DayColumn(d.day)))
  }

  /** A valid row lands in the cell of its lesson and day. */
  lemma SlotOfValid(d: SubjectDate)
    requires SubjectDateValid(d)
    ensures Slot(d) == Some((d.lesson - 1, DayColumn(d.day)))
    ensures DayCodes[Slot(d).value.1] == d.day
  {
  }

  /** The manager's subject grid: a cell is marked exactly when some row
      lands in it. A lesson number the list cannot index raises. */
  function SlotGrid(dates: seq<SubjectDate>): (r: Result<seq<seq<bool>>>)
    ensures r.Err? <==> exists d :: d in dates && Slot(d).None?
    ensures r.Err? ==> r.error == IndexError
    ensures r.Ok? ==> IsGrid(r.value)
    ensures r.Ok? ==> forall i, j :: 0 <= i < Lessons && 0 <= j < Days ==>
                        (r.value[i][j] <==> exists d :: d in dates && Slot(d) == Some((i, j)))
  {
    if |dates| == 0 then Ok(EmptyGrid(false))
    else
      var init := dates[..|dates| - 1];
      var last := dates[|dates| - 1];
      assert dates == init + [last];
      assert forall d :: d in dates <==> d in init || d == last;
      match SlotGrid(init)
      case Err(e) => Err(e)
      case Ok(g) =>
        match Slot(last)
        case None => Err(IndexError)
        case Some(cell) => Ok(Mark(g, cell.0, cell.1, true))
  }

  /** The person's timetable grid: each cell holds the subject of the last
      row landing in it, or nothing. */
  function TimetableGrid(dates: seq<SubjectDate>): (r: Result<seq<seq<Option<string>>>>)
    ensures r.Err? <==> exists d :: d in dates && Slot(d).None?
    ensures r.Err? ==> r.error == IndexError
    ensures r.Ok? ==> IsGrid(r.value)
    ensures r.Ok? ==> forall i, j :: 0 <= i < Lessons && 0 <= j < Days ==>
                        && (r.value[i][j].None? <==> forall d :: d in dates ==> Slot(d) != Some((i, j)))
                        && (r.value[i][j].Some? ==>
                              exists d :: d in dates && Slot(d) == Some((i, j)) && d.subject == r.value[i][j].value)
    ensures r.Ok? && |dates| > 0 ==>
              var last := dates[|dates| - 1];
              r.value[Slot(last).value.0][Slot(last).value.1] == Some(last.subject)
    ensures r.Ok? ==> forall i, j :: 0 <= i < Lessons && 0 <= j < Days ==> r.value[i][j] == CellOf(dates, i, j)
  {
    if |dates| == 0 then Ok(EmptyGrid(None))
    else
      var init := dates[..|dates| - 1];
      var last := dates[|dates| - 1];
      assert dates == init + [last];
      assert forall d :: d in dates <==> d in init || d == last;
      match TimetableGrid(init)
      case Err(e) => Err(e)
      case Ok(g) =>
        match Slot(last)
        case None => Err(IndexError)
        case Some(cell) => Ok(Mark(g, cell.0, cell.1, Some(last.subject)))
  }

  /** One cell of the timetable on its own: the subject of the last row
      landing in it, or nothing. */
  function CellOf(dates: seq<SubjectDate>, i: nat, j: nat): (c: Option<string>)
    ensures c.None? <==> forall d :: d in dates ==> Slot(d) != Some((i, j))
  {
    if |dates| == 0 then None
    else
      var init := dates[..|dates| - 1];
      var last := dates[|dates| - 1];
      assert forall d :: d in dates <==> d in init || d == last;
      if Slot(last) == Some((i, j)) then Some(last.subject) else CellOf(init, i, j)
  }

  /** A filled cell names the subject of a row landing in it. */
  lemma {:induction false} CellOfWitness(dates: seq<SubjectDate>, i: nat, j: nat)
    ensures var c := CellOf(dates, i, j);
            c.Some? ==> exists d :: d in dates && Slot(d) == Some((i, j)) && d.subject == c.value
  {
    if |dates| > 0 {
      var init := dates[..|dates| - 1];
      var last := dates[|dates| - 1];
      assert last in dates;
      if Slot(last) != Some((i, j)) {
        CellOfWitness(init, i, j);
        assert forall d :: d in init ==> d in dates;
      }
    }
  }

  /** Rows appended later decide a cell they land in; otherwise the earlier
      rows do. */
  lemma {:induction false} CellOfAppend(a: seq<SubjectDate>, b: seq<SubjectDate>, i: nat, j: nat)
    ensures CellOf(a + b, i, j) == if CellOf(b, i, j).Some? then CellOf(b, i, j) else CellOf(a, i, j)
    decreases |b|
  {
    if |b| == 0 {
      assert a + b == a;
    } else {
      var ab := a + b;
      CellOfSnoc(ab, i, j);
      CellOfSnoc(b, i, j);
      assert ab[..|ab| - 1] == a + b[..|b| - 1];
      assert ab[|ab| - 1] == b[|b| - 1];
      if Slot(b[|b| - 1]) != Some((i, j)) {
        CellOfAppend(a, b[..|b| - 1], i, j);
      }
    }
  }

  /** CellOf unfolded once at the end. */
  lemma CellOfSnoc(dates: seq<SubjectDate>, i: nat, j: nat)
    requires |dates| > 0
    ensures CellOf(dates, i, j)
              == if Slot(dates[|dates| - 1]) == Some((i, j)) then Some(dates[|dates| - 1].subject)
                 else CellOf(dates[..|dates| - 1], i, j)
  {
  }

  /** In each cell the last row landing there wins: the cell holds that
      row's subject whatever earlier rows landed in it. */
  lemma {:induction false} CellOfLastWins(dates: seq<SubjectDate>, k: nat, i: nat, j: nat)
    requires k < |dates| && Slot(dates[k]) == Some((i, j))
    requires forall m :: k < m < |dates| ==> Slot(dates[m]) != Some((i, j))
    ensures CellOf(dates, i, j) == Some(dates[k].subject)
  {
    var init := dates[..|dates| - 1];
    if k < |dates| - 1 {
      assert init[k] == dates[k];
      forall m | k < m < |init| ensures Slot(init[m]) != Some((i, j)) {
        assert init[m] == dates[m];
      }
      CellOfLastWins(init, k, i, j);
    }
  }

  /** Some row of subject `code` lands in cell (i, j). */
  predicate HasRowAt(dates: seq<SubjectDate>, code: string, i: nat, j: nat) {
    exists d :: d in dates && d.subject == code && Slot(d) == Some((i, j))
  }

  /** Subject `k` is the one listed last among those with a row in cell
      (i, j). */
  predicate WinsAt(dates: seq<SubjectDate>, subjects: seq<string>, k: nat, i: nat, j: nat) {
    && k < |subjects|
    && HasRowAt(dates, subjects[k], i, j)
    && forall m :: k < m < |subjects| ==> !HasRowAt(dates, subjects[m], i, j)
  }

  /** With the rows collected subject by subject, a filled cell shows the
      subject listed last among those with a row in that cell. */
  lemma {:induction false} ShownCellWinner(dates: seq<SubjectDate>, subjects: seq<string>, i: nat, j: nat)
    ensures var c := CellOf(DatesOf(dates, subjects), i, j);
            c.Some? ==> exists k: nat :: WinsAt(dates, subjects, k, i, j) && subjects[k] == c.value
  {
    var c := CellOf(DatesOf(dates, subjects), i, j);
    if |subjects| > 0 && c.Some? {
      var here := DatesOfSubject(dates, subjects[0]);
      var rest := DatesOf(dates, subjects[1..]);
      assert DatesOf(dates, subjects) == here + rest;
      CellOfAppend(here, rest, i, j);
      if CellOf(rest, i, j).Some? {
        ShownCellWinner(dates, subjects[1..], i, j);
        var k: nat :| WinsAt(dates, subjects[1..], k, i, j) && subjects[1..][k] == c.value;
        WinsShift(dates, subjects, k, i, j);
      } else {
        CellOfWitness(here, i, j);
        var d :| d in here && Slot(d) == Some((i, j)) && d.subject == c.value;
        WinsFirst(dates, subjects, d, i, j);
      }
    }
  }

  lemma WinsShift(dates: seq<SubjectDate>, subjects: seq<string>, k: nat, i: nat, j: nat)
    requires |subjects| > 0 && WinsAt(dates, subjects[1..], k, i, j)
    ensures WinsAt(dates, subjects, k + 1, i, j) && subjects[k + 1] == subjects[1..][k]
  {
    forall m | k + 1 < m < |subjects| ensures !HasRowAt(dates, subjects[m], i, j) {
      assert subjects[m] == subjects[1..][m - 1];
    }
  }

  lemma WinsFirst(dates: seq<SubjectDate>, subjects: seq<string>, d: SubjectDate, i: nat, j: nat)
    requires |subjects| > 0 && d in dates && d.subject == subjects[0] && Slot(d) == Some((i, j))
    requires forall e :: e in DatesOf(dates, subjects[1..]) ==> Slot(e) != Some((i, j))
    ensures WinsAt(dates, subjects, 0, i, j)
  {
    forall m | 0 < m < |subjects| ensures !HasRowAt(dates, subjects[m], i, j) {
      assert subjects[m] in subjects[1..];
    }
  }

  /** Both grids mark the same cells. */
  lemma GridsAgree(dates: seq<SubjectDate>)
    ensures SlotGrid(dates).Ok? <==> TimetableGrid(dates).Ok?
    ensures SlotGrid(dates).Ok? ==> forall i, j :: 0 <= i < Lessons && 0 <= j < Days ==>
              (SlotGrid(dates).value[i][j] <==> TimetableGrid(dates).value[i][j].Some?)
  {
  }

  /** On valid rows the grid is built and a cell is marked exactly when a
      row has its lesson and day. */
  lemma ValidRowsGrid(dates: seq<SubjectDate>)
    requires forall d :: d in dates ==> SubjectDateValid(d)
    ensures SlotGrid(dates).Ok?
    ensures forall i, j :: 0 <= i < Lessons && 0 <= j < Days ==>
              (SlotGrid(dates).value[i][j] <==> exists d :: d in dates && d.lesson == i + 1 && d.day == DayCodes[j])
  {
    ValidRowsSlots(dates);
    var g := SlotGrid(dates).value;
    forall i, j | 0 <= i < Lessons && 0 <= j < Days
      ensures g[i][j] <==> exists d :: d in dates && d.lesson == i + 1 && d.day == DayCodes[j]
    {
      ValidCell(dates, g, i, j);
    }
  }

  lemma ValidCell(dates: seq<SubjectDate>, g: seq<seq<bool>>, i: nat, j: nat)
    requires forall d :: d in dates ==> Slot(d) == Some((d.lesson - 1, DayColumn(d.day))) && DayCodes[DayColumn(d.day)] == d.day
    requires SlotGrid(dates) == Ok(g) && i < Lessons && j < Days
    ensures g[i][j] <==> exists d :: d in dates && d.lesson == i + 1 && d.day == DayCodes[j]
  {
    if exists d :: d in dates && d.lesson == i + 1 && d.day == DayCodes[j] {
      var d :| d in dates && d.lesson == i + 1 && d.day == DayCodes[j];
      DayNumberRoundTrip(j + 1, "");
      assert Slot(d) == Some((i, j));
    }
  }

  /** Valid rows land where their lesson and day say. */
  lemma ValidRowsSlots(dates: seq<SubjectDate>)
    requires forall d :: d in dates ==> SubjectDateValid(d)
    ensures forall d :: d in dates ==> Slot(d) == Some((d.lesson - 1, DayColumn(d.day))) && DayCodes[DayColumn(d.day)] == d.day
    ensures SlotGrid(dates).Ok?
  {
    forall d | d in dates ensures Slot(d) == Some((d.lesson - 1, DayColumn(d.day))) && DayCodes[DayColumn(d.day)] == d.day {
      SlotOfValid(d);
    }
  }

  // ---------------------------------------------------------------------
  // Whose timetable
  // ---------------------------------------------------------------------

  /** Where `x` first occurs in `s`. */
  function FirstIndex<T(==)>(s: seq<T>, x: T): (k: nat)
    requires x in s
    ensures k < |s| && s[k] == x && x !in s[..k]
  {
    if s[0] == x then 0
    else
      var k := FirstIndex(s[1..], x);
      assert s[..k + 1] == [s[0]] + s[1..][..k];
      k + 1
  }

  /** Any position holding `x` with no earlier `x` is the first one. */
  lemma FirstIndexIs<T>(s: seq<T>, x: T, k: nat)
    requires k < |s| && s[k] == x && x !in s[..k]
    ensures FirstIndex(s, x) == k
  {
  }

  /** Appending keeps the first occurrence of what was already there, and
      a new value first occurs at the end. */
  lemma FirstIndexSnoc<T>(init: seq<T>, last: T, x: T)
    requires x in init + [last]
    ensures x in init ==> FirstIndex(init + [last], x) == FirstIndex(init, x)
    ensures x !in init ==> FirstIndex(init + [last], x) == |init|
  {
    var s := init + [last];
    if x in init {
      var k := FirstIndex(init, x);
      assert s[..k] == init[..k];
      FirstIndexIs(s, x, k);
    } else {
      assert s[..|init|] == init;
      FirstIndexIs(s, x, |init|);
    }
  }

  /** The distinct codes in first-seen order (the keys of the dict the
      view fills). */
  function Dedupe(codes: seq<string>): (r: seq<string>)
    ensures forall c :: c in r <==> c in codes
    ensures NoDuplicates(r)
  {
    if |codes| == 0 then []
    else
      var init := codes[..|codes| - 1];
      var last := codes[|codes| - 1];
      assert codes == init + [last];
      var d := Dedupe(init);
      if last in d then d else d + [last]
  }

  /** Dedupe keeps the codes in the order of their first occurrence. */
  lemma {:induction false} DedupeFirstSeen(codes: seq<string>)
    ensures var r := Dedupe(codes);
            forall a, b :: 0 <= a < b < |r| ==> FirstIndex(codes, r[a]) < FirstIndex(codes, r[b])
  {
    if |codes| > 0 {
      var init := codes[..|codes| - 1];
      var last := codes[|codes| - 1];
      assert codes == init + [last];
      var d := Dedupe(init);
      DedupeFirstSeen(init);
      forall a, b | 0 <= a < b < |d| ensures FirstIndex(init, d[a]) < FirstIndex(init, d[b]) {
        assert d[a] == Dedupe(init)[a];
      }
      OrderLift(init, last, d);
      if last !in d {
        forall c | c in d ensures FirstIndex(init + [last], c) < FirstIndex(init + [last], last) {
          FirstIndexSnoc(init, last, c);
          FirstIndexSnoc(init, last, last);
        }
        DedupeSnocOrder(init + [last], d, last);
      }
    }
  }

  /** First occurrences in a list are those in the list with one more
      element appended. */
  lemma OrderLift(init: seq<string>, last: string, d: seq<string>)
    requires forall c :: c in d ==> c in init
    requires forall a, b :: 0 <= a < b < |d| ==> FirstIndex(init, d[a]) < FirstIndex(init, d[b])
    ensures forall a, b :: 0 <= a < b < |d| ==> FirstIndex(init + [last], d[a]) < FirstIndex(init + [last], d[b])
  {
    forall a, b | 0 <= a < b < |d| ensures FirstIndex(init + [last], d[a]) < FirstIndex(init + [last], d[b]) {
      assert d[a] in d && d[b] in d;
      FirstIndexSnoc(init, last, d[a]);
      FirstIndexSnoc(init, last, d[b]);
    }
  }

  /** Appending a code first seen at the end keeps the order of first
      occurrences. */
  lemma DedupeSnocOrder(codes: seq<string>, d: seq<string>, last: string)
    requires last in codes && forall c :: c in d ==> c in codes
    requires forall a, b :: 0 <= a < b < |d| ==> FirstIndex(codes, d[a]) < FirstIndex(codes, d[b])
    requires forall c :: c in d ==> FirstIndex(codes, c) < FirstIndex(codes, last)
    ensures var r := d + [last];
            forall a, b :: 0 <= a < b < |r| ==> FirstIndex(codes, r[a]) < FirstIndex(codes, r[b])
  {
    var r := d + [last];
    forall a, b | 0 <= a < b < |r| ensures FirstIndex(codes, r[a]) < FirstIndex(codes, r[b]) {
      if b == |d| {
        assert r[a] == d[a] && d[a] in d;
      } else {
        assert r[a] == d[a] && r[b] == d[b];
      }
    }
  }

  /** The rows of the listed subjects, subject by subject. */
  function DatesOf(dates: seq<SubjectDate>, subjects: seq<string>): (r: seq<SubjectDate>)
    ensures forall d :: d in r <==> d in dates && d.subject in subjects
  {
    if |subjects| == 0 then []
    else
      var here := DatesOfSubject(dates, subjects[0]);
      var rest := DatesOf(dates, subjects[1..]);
      assert forall s :: s in subjects <==> s == subjects[0] || s in subjects[1..];
      here + rest
  }

  /** With each subject listed once, the rows come grouped by subject in
      the order the subjects are listed. */
  lemma {:induction false} DatesOfGrouped(dates: seq<SubjectDate>, subjects: seq<string>)
    requires NoDuplicates(subjects)
    ensures var r := DatesOf(dates, subjects);
            forall a, b :: 0 <= a < b < |r| ==> FirstIndex(subjects, r[a].subject) <= FirstIndex(subjects, r[b].subject)
  {
    var r := DatesOf(dates, subjects);
    forall a, b | 0 <= a < b < |r|
      ensures FirstIndex(subjects, r[a].subject) <= FirstIndex(subjects, r[b].subject)
    {
      DatesOfGroupedAt(dates, subjects, a, b);
    }
  }

  /** One pair of positions of DatesOfGrouped, by induction on the list. */
  lemma {:induction false} DatesOfGroupedAt(dates: seq<SubjectDate>, subjects: seq<string>, a: nat, b: nat)
    requires NoDuplicates(subjects)
    requires a < b < |DatesOf(dates, subjects)|
    ensures var r := DatesOf(dates, subjects);
            FirstIndex(subjects, r[a].subject) <= FirstIndex(subjects, r[b].subject)
  {
    var r := DatesOf(dates, subjects);
    var here := DatesOfSubject(dates, subjects[0]);
    var rest := DatesOf(dates, subjects[1..]);
    DatesOfCons(dates, subjects);
    if a >= |here| {
      var x, y := rest[a - |here|], rest[b - |here|];
      assert r[a] == x && r[b] == y;
      assert x in rest && y in rest;
      assert NoDuplicates(subjects[1..]);
      DatesOfGroupedAt(dates, subjects[1..], a - |here|, b - |here|);
      GroupedTail(subjects, x.subject, y.subject);
    } else {
      assert r[a] == here[a] && here[a] in here;
      GroupedHead(subjects, r[a].subject, r[b].subject);
    }
  }

  /** DatesOf unfolded once. */
  lemma DatesOfCons(dates: seq<SubjectDate>, subjects: seq<string>)
    requires |subjects| > 0
    ensures DatesOf(dates, subjects) == DatesOfSubject(dates, subjects[0]) + DatesOf(dates, subjects[1..])
  {
  }

  /** The head of a list is seen first. */
  lemma GroupedHead(subjects: seq<string>, x: string, y: string)
    requires |subjects| > 0 && x == subjects[0] && y in subjects
    ensures FirstIndex(subjects, x) <= FirstIndex(subjects, y)
  {
  }

  /** Past a distinct head, the order of first occurrences is that of the
      tail. */
  lemma GroupedTail(subjects: seq<string>, x: string, y: string)
    requires NoDuplicates(subjects) && |subjects| > 0 && x in subjects[1..] && y in subjects[1..]
    requires FirstIndex(subjects[1..], x) <= FirstIndex(subjects[1..], y)
    ensures FirstIndex(subjects, x) <= FirstIndex(subjects, y)
  {
    FirstIndexTail(subjects, x);
    FirstIndexTail(subjects, y);
  }

  /** Each listed subject's rows appear in DatesOf exactly as they appear
      in the table, in the same order. */
  lemma {:induction false} DatesOfTableOrder(dates: seq<SubjectDate>, subjects: seq<string>, code: string)
    requires NoDuplicates(subjects) && code in subjects
    ensures DatesOfSubject(DatesOf(dates, subjects), code) == DatesOfSubject(dates, code)
  {
    var here := DatesOfSubject(dates, subjects[0]);
    var rest := DatesOf(dates, subjects[1..]);
    assert DatesOf(dates, subjects) == here + rest;
    DatesOfSubjectAppend(here, rest, code);
    if code == subjects[0] {
      assert code !in subjects[1..];
      FilterAll(here, code);
      FilterNone(rest, code);
    } else {
      assert code in subjects[1..];
      assert NoDuplicates(subjects[1..]);
      FilterNone(here, code);
      DatesOfTableOrder(dates, subjects[1..], code);
    }
  }

  /** Filtering rows that all have the subject keeps them all. */
  lemma {:induction false} FilterAll(xs: seq<SubjectDate>, code: string)
    requires forall d :: d in xs ==> d.subject == code
    ensures DatesOfSubject(xs, code) == xs
  {
    if |xs| > 0 {
      assert forall d :: d in xs[1..] ==> d in xs;
      FilterAll(xs[1..], code);
      assert xs == [xs[0]] + xs[1..];
    }
  }

  /** Filtering rows none of which has the subject keeps nothing. */
  lemma FilterNone(xs: seq<SubjectDate>, code: string)
    requires forall d :: d in xs ==> d.subject != code
    ensures DatesOfSubject(xs, code) == []
  {
  }

  /** Past a distinct head, positions shift by one. */
  lemma FirstIndexTail<T>(s: seq<T>, x: T)
    requires NoDuplicates(s) && |s| > 0 && x in s[1..]
    ensures FirstIndex(s, x) == 1 + FirstIndex(s[1..], x)
  {
    var k :| 0 <= k < |s[1..]| && s[1..][k] == x;
    assert s[k + 1] == x;
  }

  /** Filtering by subject commutes with concatenation, so each subject's
      rows keep their table order. */
  lemma {:induction false} DatesOfSubjectAppend(a: seq<SubjectDate>, b: seq<SubjectDate>, code: string)
    ensures DatesOfSubject(a + b, code) == DatesOfSubject(a, code) + DatesOfSubject(b, code)
  {
    if |a| == 0 {
      assert a + b == b;
    } else {
      var h := if a[0].subject == code then [a[0]] else [];
      var x, y := DatesOfSubject(a[1..], code), DatesOfSubject(b, code);
      calc {
        DatesOfSubject(a + b, code);
      == { assert (a + b)[1..] == a[1..] + b && (a + b)[0] == a[0];
           DatesOfSubjectCons(a + b, code); }
        h + DatesOfSubject(a[1..] + b, code);
      == { DatesOfSubjectAppend(a[1..], b, code); }
        h + (x + y);
      ==
        (h + x) + y;
      == { DatesOfSubjectCons(a, code); }
        DatesOfSubject(a, code) + y;
      }
    }
  }

  /** DatesOfSubject unfolded once at the front. */
  lemma DatesOfSubjectCons(dates: seq<SubjectDate>, code: string)
    requires |dates| > 0
    ensures DatesOfSubject(dates, code)
              == (if dates[0].subject == code then [dates[0]] else []) + DatesOfSubject(dates[1..], code)
  {
    if dates[0].subject != code {
      assert [] + DatesOfSubject(dates[1..], code) == DatesOfSubject(dates[1..], code);
    }
  }

  /** `SubjectDate.objects.filter(subject=...)`. */
  function DatesOfSubject(dates: seq<SubjectDate>, code: string): (r: seq<SubjectDate>)
    ensures forall d :: d in r <==> d in dates && d.subject == code
    ensures |r| <= |dates|
  {
    if |dates| == 0 then []
    else
      var rest := DatesOfSubject(dates[1..], code);
      assert forall d :: d in dates <==> d == dates[0] || d in dates[1..];
      if dates[0].subject == code then [dates[0]] + rest else rest
  }

  /** The codes of a class's subjects. */
  function SubjectsOfClass(subjects: seq<Subject>, classCode: string): (r: seq<string>)
    ensures forall c :: c in r <==> exists s :: s in subjects && s.schoolClass == classCode && s.uniqueCode == c
  {
    if |subjects| == 0 then []
    else
      var rest := SubjectsOfClass(subjects[1..], classCode);
      assert forall s :: s in subjects <==> s == subjects[0] || s in subjects[1..];
      if subjects[0].schoolClass == classCode then [subjects[0].uniqueCode] + rest else rest
  }

  /** A teacher's subjects: the subject of every teacher row naming the
      teacher whose class is active. */
  function TaughtSubjects(dir: Directory, rows: seq<SubjectTeachers>, teacher: UserId): (r: seq<string>)
    ensures forall c :: c in r <==> exists row :: row in rows && teacher in row.teachers && row.subject == c && ActiveSubject(dir, c)
  {
    if |rows| == 0 then []
    else
      var rest := TaughtSubjects(dir, rows[1..], teacher);
      assert forall x :: x in rows <==> x == rows[0] || x in rows[1..];
      if teacher in rows[0].teachers && ActiveSubject(dir, rows[0].subject) then [rows[0].subject] + rest else rest
  }

  /** The subject exists and its class is active. */
  predicate ActiveSubject(dir: Directory, code: string) {
    match FindSubject(dir.subjects, code)
    case None => false
    case Some(s) => FindClass(dir.classes, s.schoolClass).Some? && FindClass(dir.classes, s.schoolClass).value.active
  }

  /** The parent rows of a user (`get_list_or_404(Parent, user=...)`). */
  function ParentRowsOf(parents: seq<Parent>, user: UserId): (r: seq<Parent>)
    ensures forall p :: p in r <==> p in parents && p.user == user
    ensures |r| > 0 <==> FindParent(parents, user).Some?
    ensures |r| > 0 ==> r[0] == FindParent(parents, user).value
  {
    if |parents| == 0 then []
    else
      var rest := ParentRowsOf(parents[1..], user);
      assert forall p :: p in parents <==> p == parents[0] || p in parents[1..];
      if parents[0].user == user then [parents[0]] + rest else rest
  }

  /** The class whose timetable a student, or a parent through its first
      child row, sees. */
  function StudentClass(dir: Directory, user: UserId): (r: Result<string>)
    ensures r.Err? ==> r.error == NotFound
    ensures FindStudent(dir.students, user).Some? ==> r == Ok(FindStudent(dir.students, user).value.schoolClass)
    ensures FindStudent(dir.students, user).None? && (forall p :: p in dir.parents ==> p.user != user) ==> r == Err(NotFound)
    ensures FindStudent(dir.students, user).None? && FindParent(dir.parents, user).Some? ==>
              var child := FindStudent(dir.students, FindParent(dir.parents, user).value.student);
              r == if child.Some? then Ok(child.value.schoolClass) else Err(NotFound)
  {
    match FindStudent(dir.students, user)
    case Some(s) => Ok(s.schoolClass)
    case None =>
      var rows := ParentRowsOf(dir.parents, user);
      if |rows| == 0 then Err(NotFound)
      else
        match FindStudent(dir.students, rows[0].student)
        case None => Err(NotFound)
        case Some(child) => Ok(child.schoolClass)
  }

  /** The subjects `TimetableView` shows for `person` 'student' or
      'teacher'; any other value leaves the subject list unassigned. */
  function TimetableSubjects(dir: Directory, person: string, user: UserId): (r: Result<seq<string>>)
    ensures person != "student" && person != "teacher" ==> r == Err(UnboundLocal)
    ensures person == "teacher" ==> (r.Err? <==> FindTeacher(dir.teachers, user).None?)
    ensures person == "teacher" && r.Ok? ==> forall c :: c in r.value <==>
              exists row :: row in dir.subjectTeachers && user in row.teachers && row.subject == c && ActiveSubject(dir, c)
    ensures person == "student" && r.Ok? ==> StudentClass(dir, user).Ok? && forall c :: c in r.value <==>
              exists s :: s in dir.subjects && s.schoolClass == StudentClass(dir, user).value && s.uniqueCode == c
  {
    if person == "student" then
      match StudentClass(dir, user)
      case Err(e) => Err(e)
      case Ok(k) => Ok(SubjectsOfClass(dir.subjects, k))
    else if person == "teacher" then
      if FindTeacher(dir.teachers, user).None? then Err(NotFound)
      else Ok(TaughtSubjects(dir, dir.subjectTeachers, user))
    else Err(UnboundLocal)
  }

  /** `TimetableView.get_context_data`: the grid over the rows of the
      person's subjects. */
  function Timetable(st: Store, person: string, user: UserId): (r: Result<seq<seq<Option<string>>>>)
    ensures r.Err? ==> r.error in {NotFound, UnboundLocal, IndexError}
    ensures TimetableSubjects(st.dir, person, user).Err? ==> r == Err(TimetableSubjects(st.dir, person, user).error)
    ensures TimetableSubjects(st.dir, person, user).Ok? ==>
              (r.Err? <==> exists d :: d in st.dates && d.subject in TimetableSubjects(st.dir, person, user).value && Slot(d).None?)
    ensures TimetableSubjects(st.dir, person, user).Ok? && r.Err? ==> r.error == IndexError
    ensures r.Ok? ==> TimetableSubjects(st.dir, person, user).Ok? && IsGrid(r.value)
    ensures r.Ok? ==> forall i, j :: 0 <= i < Lessons && 0 <= j < Days && r.value[i][j].Some? ==>
              r.value[i][j].value in TimetableSubjects(st.dir, person, user).value
    ensures r.Ok? ==> forall d :: d in st.dates && d.subject in TimetableSubjects(st.dir, person, user).value ==>
              Slot(d).Some? && r.value[Slot(d).value.0][Slot(d).value.1].Some?
    ensures r.Ok? ==> forall i, j :: 0 <= i < Lessons && 0 <= j < Days ==>
              && (r.value[i][j].None? <==>
                    forall d :: d in st.dates && d.subject in TimetableSubjects(st.dir, person, user).value ==> Slot(d) != Some((i, j)))
              && (r.value[i][j].Some? ==>
                    exists d :: d in st.dates && Slot(d) == Some((i, j)) && d.subject == r.value[i][j].value)
    ensures r.Ok? ==>
              var subjects := Dedupe(TimetableSubjects(st.dir, person, user).value);
              forall i, j :: 0 <= i < Lessons && 0 <= j < Days && r.value[i][j].Some? ==>
                exists k: nat :: WinsAt(st.dates, subjects, k, i, j) && subjects[k] == r.value[i][j].value
  {
    match TimetableSubjects(st.dir, person, user)
    case Err(e) => Err(e)
    case Ok(subjects) =>
      ShownRows(st.dates, subjects);
      ShownGridFails(st.dates, subjects);
      ShownGridSubjects(st.dates, subjects);
      ShownGridFilled(st.dates, subjects);
      ShownCells(st.dates, subjects);
      ShownGridWinners(st.dates, Dedupe(subjects));
      TimetableGrid(DatesOf(st.dates, Dedupe(subjects)))
  }

  /** The grid over the rows of `subjects` fails, with an IndexError,
      exactly on a row without a slot. */
  lemma ShownGridFails(dates: seq<SubjectDate>, subjects: seq<string>)
    requires forall d :: d in DatesOf(dates, Dedupe(subjects)) <==> d in dates && d.subject in subjects
    ensures var r := TimetableGrid(DatesOf(dates, Dedupe(subjects)));
            && (r.Err? <==> exists d :: d in dates && d.subject in subjects && Slot(d).None?)
            && (r.Err? ==> r.error == IndexError)
  {
  }

  /** A filled cell of that grid names one of `subjects`. */
  lemma ShownGridSubjects(dates: seq<SubjectDate>, subjects: seq<string>)
    requires forall d :: d in DatesOf(dates, Dedupe(subjects)) <==> d in dates && d.subject in subjects
    ensures var r := TimetableGrid(DatesOf(dates, Dedupe(subjects)));
            r.Ok? ==> forall i, j :: 0 <= i < Lessons && 0 <= j < Days && r.value[i][j].Some? ==>
                        r.value[i][j].value in subjects
  {
  }

  /** Every row of `subjects` fills its cell of that grid. */
  lemma ShownGridFilled(dates: seq<SubjectDate>, subjects: seq<string>)
    requires forall d :: d in DatesOf(dates, Dedupe(subjects)) <==> d in dates && d.subject in subjects
    ensures var r := TimetableGrid(DatesOf(dates, Dedupe(subjects)));
            r.Ok? ==> forall d :: d in dates && d.subject in subjects ==>
                        Slot(d).Some? && r.value[Slot(d).value.0][Slot(d).value.1].Some?
  {
  }

  lemma ShownRows(dates: seq<SubjectDate>, subjects: seq<string>)
    ensures forall d :: d in DatesOf(dates, Dedupe(subjects)) <==> d in dates && d.subject in subjects
  {
  }

  lemma ShownCells(dates: seq<SubjectDate>, subjects: seq<string>)
    requires forall d :: d in DatesOf(dates, Dedupe(subjects)) <==> d in dates && d.subject in subjects
    ensures var r := TimetableGrid(DatesOf(dates, Dedupe(subjects)));
            r.Ok? ==> forall i, j :: 0 <= i < Lessons && 0 <= j < Days ==>
                  && (r.value[i][j].None? <==> forall d :: d in dates && d.subject in subjects ==> Slot(d) != Some((i, j)))
                  && (r.value[i][j].Some? ==> exists d :: d in dates && Slot(d) == Some((i, j)) && d.subject == r.value[i][j].value)
  {
  }

  /** Every filled cell of the grid over DatesOf shows the subject listed
      last among those with a row in that cell. */
  lemma ShownGridWinners(dates: seq<SubjectDate>, subjects: seq<string>)
    ensures var g := TimetableGrid(DatesOf(dates, subjects));
            g.Ok? ==> forall i, j :: 0 <= i < Lessons && 0 <= j < Days && g.value[i][j].Some? ==>
                        exists k: nat :: WinsAt(dates, subjects, k, i, j) && subjects[k] == g.value[i][j].value
  {
    var g := TimetableGrid(DatesOf(dates, subjects));
    if g.Ok? {
      forall i, j | 0 <= i < Lessons && 0 <= j < Days && g.value[i][j].Some?
        ensures exists k: nat :: WinsAt(dates, subjects, k, i, j) && subjects[k] == g.value[i][j].value
      {
        ShownCellWinner(dates, subjects, i, j);
      }
    }
  }

  /** `ManagerSubjectView.get_context_data`: the grid of one subject. */
  function SubjectGrid(st: Store, classCode: string, subjectCode: string): (r: Result<seq<seq<bool>>>)
    ensures r.Err? <==> || FindSubject(st.dir.subjects, subjectCode).None?
                        || FindClass(st.dir.classes, classCode).None?
                        || exists d :: d in st.dates && d.subject == subjectCode && Slot(d).None?
    ensures r.Ok? ==> IsGrid(r.value) && forall i, j :: 0 <= i < Lessons && 0 <= j < Days ==>
              (r.value[i][j] <==> exists d :: d in st.dates && d.subject == subjectCode && Slot(d) == Some((i, j)))
  {
    if FindSubject(st.dir.subjects, subjectCode).None? || FindClass(st.dir.classes, classCode).None? then Err(NotFound)
    else SlotGrid(DatesOfSubject(st.dates, subjectCode))
  }

  // ---------------------------------------------------------------------
  // Adding and deleting slots
  // ---------------------------------------------------------------------

  /** No subject has the same (day, lesson) slot twice. */
  predicate UniqueSlots(dates: seq<SubjectDate>) {
    forall i, j :: 0 <= i < j < |dates| && dates[i].subject == dates[j].subject ==>
      (dates[i].day, dates[i].lesson) != (dates[j].day, dates[j].lesson)
  }

  /** A row the lookup for a slot matches; with no subject, any subject's. */
  predicate Hit(d: SubjectDate, day: string, lesson: int, subject: Option<string>) {
    d.day == day && d.lesson == lesson && (subject.Some? ==> d.subject == subject.value)
  }

  /** The indices of the rows the lookup for a slot matches, in order. */
  function Matching(dates: seq<SubjectDate>, day: string, lesson: int, subject: Option<string>): (r: seq<nat>)
    ensures forall k :: k in r <==> 0 <= k < |dates| && Hit(dates[k], day, lesson, subject)
    ensures forall a, b :: 0 <= a < b < |r| ==> r[a] < r[b]
  {
    if |dates| == 0 then []
    else
      var init := dates[..|dates| - 1];
      var k := |dates| - 1;
      var rest := Matching(init, day, lesson, subject);
      assert forall i :: 0 <= i < |init| ==> init[i] == dates[i];
      forall a | 0 <= a < |rest| ensures rest[a] < k {
        assert rest[a] in rest;
      }
      if Hit(dates[k], day, lesson, subject) then rest + [k] else rest
  }

  /** With no matching row the lookup finds nothing. */
  lemma NoHitNoMatch(dates: seq<SubjectDate>, day: string, lesson: int, subject: Option<string>)
    ensures (forall k :: 0 <= k < |dates| ==> !Hit(dates[k], day, lesson, subject)) ==> Matching(dates, day, lesson, subject) == []
  {
    var r := Matching(dates, day, lesson, subject);
    if |r| > 0 {
      assert r[0] in r;
    }
  }

  datatype Scheduled = Scheduled(st: Store, alreadyThere: bool)

  /** `ManagerSubjectView.form_valid`: a slot the subject already has is
      refused without a write; otherwise the row is added. */
  function AddSubjectDate(st: Store, subjectCode: string, day: string, lesson: int): (r: Result<Scheduled>)
    ensures r.Err? <==> || !Forms.SubjectDateFormValid(day, lesson)
                        || |Matching(st.dates, day, lesson, Some(subjectCode))| > 1
                        || (|Matching(st.dates, day, lesson, Some(subjectCode))| == 0
                            && FindSubject(st.dir.subjects, subjectCode).None?)
    ensures r.Ok? && r.value.alreadyThere ==>
              r.value.st == st && exists d :: d in st.dates && d.subject == subjectCode && d.day == day && d.lesson == lesson
    ensures r.Ok? && !r.value.alreadyThere ==>
              && r.value.st == st.(dates := st.dates + [SubjectDate(st.nextId, subjectCode, day, lesson)], nextId := st.nextId + 1)
              && forall d :: d in st.dates && d.subject == subjectCode ==> d.day != day || d.lesson != lesson
  {
    if !Forms.SubjectDateFormValid(day, lesson) then Err(Invalid)
    else
      var found := Matching(st.dates, day, lesson, Some(subjectCode));
      if |found| == 1 then
        assert found[0] in found;
        assert st.dates[found[0]] in st.dates;
        Ok(Scheduled(st, true))
      else if |found| > 1 then Err(MultipleObjectsReturned)
      else if FindSubject(st.dir.subjects, subjectCode).None? then Err(NotFound)
      else
        assert forall k :: 0 <= k < |st.dates| && st.dates[k].subject == subjectCode ==>
                 st.dates[k].day != day || st.dates[k].lesson != lesson by {
          forall k | 0 <= k < |st.dates| && st.dates[k].subject == subjectCode
            ensures st.dates[k].day != day || st.dates[k].lesson != lesson
          {
            assert k !in found;
          }
        }
        Ok(Scheduled(st.(dates := st.dates + [SubjectDate(st.nextId, subjectCode, day, lesson)], nextId := st.nextId + 1), false))
  }

  /** Adding keeps every subject's slots distinct, and on distinct slots
      the lookup never finds two rows. */
  lemma AddKeepsSlotsUnique(st: Store, subjectCode: string, day: string, lesson: int)
    requires UniqueSlots(st.dates)
    ensures AddSubjectDate(st, subjectCode, day, lesson) != Err(MultipleObjectsReturned)
    ensures AddSubjectDate(st, subjectCode, day, lesson).Ok? ==>
              UniqueSlots(AddSubjectDate(st, subjectCode, day, lesson).value.st.dates)
  {
    AtMostOneMatch(st.dates, day, lesson, subjectCode);
  }

  /** On distinct slots a subject's lookup matches at most one row. */
  lemma AtMostOneMatch(dates: seq<SubjectDate>, day: string, lesson: int, subjectCode: string)
    ensures UniqueSlots(dates) ==> |Matching(dates, day, lesson, Some(subjectCode))| <= 1
  {
    var found := Matching(dates, day, lesson, Some(subjectCode));
    if |found| > 1 {
      assert found[0] in found && found[1] in found;
      assert found[0] < found[1];
      assert dates[found[0]].subject == dates[found[1]].subject;
    }
  }

  /** The rows without index k. */
  function RemoveAt(dates: seq<SubjectDate>, k: nat): (r: seq<SubjectDate>)
    requires k < |dates|
    ensures |r| == |dates| - 1
    ensures forall i :: 0 <= i < k ==> r[i] == dates[i]
    ensures forall i :: k <= i < |r| ==> r[i] == dates[i + 1]
    ensures multiset(r) + multiset{dates[k]} == multiset(dates)
  {
    assert dates == dates[..k] + [dates[k]] + dates[k + 1..];
    dates[..k] + dates[k + 1..]
  }

  /** `DeleteSubjectDateView.get` as written: the lookup is by day and
      lesson only, over every subject's rows; the subject in the URL is not
      used. */
  function DeleteSubjectDateAsWritten(st: Store, subjectCode: string, dayNumber: nat, lesson: nat): (r: Result<Store>)
    ensures r.Err? <==> DayFromNumber(dayNumber).Err?
                        || |Matching(st.dates, DayFromNumber(dayNumber).value, lesson, None)| != 1
    ensures r.Ok? ==> |r.value.dates| == |st.dates| - 1 && r.value == st.(dates := r.value.dates)
    ensures r.Ok? ==> var k := Matching(st.dates, DayFromNumber(dayNumber).value, lesson, None)[0];
                      && k < |st.dates| && Hit(st.dates[k], DayFromNumber(dayNumber).value, lesson, None)
                      && multiset(r.value.dates) + multiset{st.dates[k]} == multiset(st.dates)
  {
    match DayFromNumber(dayNumber)
    case Err(e) => Err(e)
    case Ok(day) =>
      var found := Matching(st.dates, day, lesson, None);
      if |found| == 0 then Err(NotFound)
      else if |found| > 1 then Err(MultipleObjectsReturned)
      else
        assert found[0] in found;
        Ok(st.(dates := RemoveAt(st.dates, found[0])))
  }

  /** From one subject's page the link deletes another subject's lesson,
      and two subjects sharing a slot make the link fail for both. */
  lemma DeleteReachesOtherSubject()
    ensures var st := Store(Directory([], [], [], [], [], [], []), [SubjectDate(0, "B", "Mo", 1)],
                            [], [], [], [], [], [], [], 1);
            DeleteSubjectDateAsWritten(st, "A", 1, 1) == Ok(st.(dates := []))
    ensures var st := Store(Directory([], [], [], [], [], [], []),
                            [SubjectDate(0, "A", "Mo", 1), SubjectDate(1, "B", "Mo", 1)],
                            [], [], [], [], [], [], [], 2);
            DeleteSubjectDateAsWritten(st, "A", 1, 1) == Err(MultipleObjectsReturned)
  {
    var one := [SubjectDate(0, "B", "Mo", 1)];
    assert Matching(one, "Mo", 1, None) == [0];
    var two := [SubjectDate(0, "A", "Mo", 1), SubjectDate(1, "B", "Mo", 1)];
    assert two[..1] == [SubjectDate(0, "A", "Mo", 1)];
    assert Matching(two[..1], "Mo", 1, None) == [0];
    assert Matching(two, "Mo", 1, None) == [0, 1];
  }

  /** The delete link scoped to the page's subject: only that subject's
      row for the slot can go. */
  function DeleteSubjectDate(st: Store, subjectCode: string, dayNumber: nat, lesson: nat): (r: Result<Store>)
    ensures r.Err? <==> DayFromNumber(dayNumber).Err?
                        || |Matching(st.dates, DayFromNumber(dayNumber).value, lesson, Some(subjectCode))| != 1
    ensures r.Ok? ==> |r.value.dates| == |st.dates| - 1 && r.value == st.(dates := r.value.dates)
    ensures r.Ok? ==> forall d :: d in st.dates && d.subject != subjectCode ==> d in r.value.dates
    ensures r.Ok? ==> var k := Matching(st.dates, DayFromNumber(dayNumber).value, lesson, Some(subjectCode))[0];
                      && k < |st.dates| && Hit(st.dates[k], DayFromNumber(dayNumber).value, lesson, Some(subjectCode))
                      && multiset(r.value.dates) + multiset{st.dates[k]} == multiset(st.dates)
    ensures r.Ok? ==> forall d :: d in st.dates && !Hit(d, DayFromNumber(dayNumber).value, lesson, Some(subjectCode)) ==>
                                   d in r.value.dates
  {
    match DayFromNumber(dayNumber)
    case Err(e) => Err(e)
    case Ok(day) =>
      var found := Matching(st.dates, day, lesson, Some(subjectCode));
      if |found| == 0 then Err(NotFound)
      else if |found| > 1 then Err(MultipleObjectsReturned)
      else
        assert found[0] in found;
        var k := found[0];
        var r := RemoveAt(st.dates, k);
        assert forall d :: d in st.dates && !Hit(d, day, lesson, Some(subjectCode)) ==> d in r by {
          forall d | d in st.dates && !Hit(d, day, lesson, Some(subjectCode))
            ensures d in r
          {
            var i :| 0 <= i < |st.dates| && st.dates[i] == d;
            assert i != k;
            if i < k { assert r[i] == d; } else { assert r[i - 1] == d; }
          }
        }
        Ok(st.(dates := r))
  }

  /** On distinct slots the scoped delete never meets two rows, and it
      undoes an add: the rows are back as they were. */
  lemma AddThenDelete(st: Store, subjectCode: string, day: string, lesson: int)
    requires UniqueSlots(st.dates)
    requires AddSubjectDate(st, subjectCode, day, lesson).Ok?
    requires !AddSubjectDate(st, subjectCode, day, lesson).value.alreadyThere
    ensures var added := AddSubjectDate(st, subjectCode, day, lesson).value.st;
            DayValid(day) && 1 <= lesson <= Lessons &&
            DeleteSubjectDate(added, subjectCode, DayColumn(day) + 1, lesson) == Ok(added.(dates := st.dates))
  {
    var added := AddSubjectDate(st, subjectCode, day, lesson).value.st;
    DayNumberRoundTrip(0, day);
    var n := |st.dates|;
    assert added.dates[..n] == st.dates;
    forall k | 0 <= k < n ensures !Hit(st.dates[k], day, lesson, Some(subjectCode)) {
      assert st.dates[k] in st.dates;
    }
    NoHitNoMatch(st.dates, day, lesson, Some(subjectCode));
    assert Matching(added.dates, day, lesson, Some(subjectCode)) == [n];
    assert RemoveAt(added.dates, n) == st.dates;
  }
}
